=== FILE: README.md ===
# slide-forge, modelled in Dafny

slide-forge converts slide decks between LaTeX Beamer and PowerPoint. It goes through a
format-neutral document model: a document holds frames, and a frame holds typed elements.
This project models the deterministic core of that pipeline as pure Dafny functions and
proves properties about them. The core covers:

- **`Universal`**: the document model. Elements, frames, documents and conversion options;
  their queries; the payload constructors; and the merging of documents.
- **`LatexParser`**: the Beamer parser.
  - Frames are cut from the text with a lazy pattern.
  - Metadata is read from the first match of each command.
  - Each frame body is scanned line by line. One flag records an open list, and the items
    accumulate until the list closes.
- **`ContentMapper`**: the layout mapper. It stacks elements in one column, starting at
  2.5 inches. Each element is advanced by its estimated height plus 0.4.
- **`Formats`**: format detection from a suffix or extension, the mapper's conversion
  table, and output-path validation.
- **`Errors`**: the details map each error class builds from its arguments, and the string
  form of an error.
- **`PptConverter`**: the pure decisions of the legacy `ppt_converter.py` script:
  - the routing table of `convert`;
  - LaTeX escaping;
  - Beamer and article line layout;
  - the choice of slide title;
  - Markdown bullets.
- **`LatexToHtml`**: the Beamer-to-HTML step of `tools/pptx_to_tex/latex_to_pptx.py`, applied
  to text already read: frame extraction, metadata, frame titles and `clean_latex_content`.

Helper modules:

- `Wrappers`: `Option` and `Result`.
- `Values`: the dynamic values held in Python dictionaries.
- `Strings`: `strip`, `split`, `join`, lower-casing, Python whitespace.
- `Paths`: `PurePosixPath.name` and `.suffix`.
- `Patterns`: hand-written scanners for the handful of regular expressions the code uses,
  plus `re.search` and `re.sub` over them.

Case-insensitive patterns fold ASCII letters.

The model follows the code. Some of the repository's tests expect behaviour the parser does
not have, such as inline frame titles, block environments and equations. The mapper tests
expect a block height of 1.0 and `can_convert('pptx', 'latex')` to be false. The model does
what the code does in every one of these cases.

## Model

| member | source | states |
|---|---|---|
| Universal.ToTextContent | src/slideforge/models/universal.py:108-114 | Text is available exactly for string and text-record payloads. A string becomes a record with that text and no formatting, font size, colour or family; a record comes back unchanged. |
| Universal.CreateTextElement | src/slideforge/models/universal.py:221-225 | The element has the requested type, no position, size or level, empty style and metadata, and reads back as a text record with the given text and formatting. The omitted-argument type is `DefaultTextType`, TEXT. |
| Universal.CreateImageElement | src/slideforge/models/universal.py:228-237 | An IMAGE whose payload is the path and caption, with the given position and size and level 0, empty style and metadata; it has no text. |
| Universal.CreateItemizeElement | src/slideforge/models/universal.py:240-247 | An ITEMIZE holding the items unchanged at the given level, unpositioned, with empty style and metadata, with no text. |
| Universal.CreateEquationElement | src/slideforge/models/universal.py:250-259 | An EQUATION holding the LaTeX source and equation type, unpositioned, level 0, with empty style and metadata, with no text. The omitted-argument equation type is `DefaultEquationType`, `'inline'`. |
| Universal.NewFrame | src/slideforge/models/universal.py:117-127 | A fresh frame has its number, no elements, layout TITLE_AND_CONTENT and no title, subtitle, background or notes, and empty metadata. |
| Universal.AddElement | src/slideforge/models/universal.py:129-131 | Exactly one element is appended at the end; the earlier elements and every other field of the frame are unchanged. |
| Universal.Select | src/slideforge/models/universal.py:133-140 | The filtered list keeps an element if and only if its type is among the requested ones, and is no longer than the input. |
| Universal.SelectAppend | src/slideforge/models/universal.py:133-140 | Filtering distributes over concatenation, so the filter keeps the frame's order. |
| Universal.ElementsByType | src/slideforge/models/universal.py:133-135 | An element is returned if and only if it is in the frame and has the requested type. |
| Universal.TextElements | src/slideforge/models/universal.py:137-140 | An element is returned if and only if it is in the frame and is TEXT, TITLE or SUBTITLE. |
| Universal.ElementsByTypeAfterAdd | src/slideforge/models/universal.py:129-135 | After adding an element, the query by type gives the old answer followed by the new element when its type matches. |
| Universal.TextElementsAfterAdd | src/slideforge/models/universal.py:129-140 | After adding an element, the text elements are the old ones followed by the new element when it is a text type. |
| Universal.NewMetadata | src/slideforge/models/universal.py:143-156 | Fresh metadata has no title, author, date, institution, subject, language, version, created or modified date, no keywords and no custom properties. |
| Universal.NewDocument | src/slideforge/models/universal.py:159-166 | A fresh document has no frames, no source format or path, no global settings and fresh metadata. |
| Universal.AddFrame | src/slideforge/models/universal.py:168-170 | Exactly one frame is appended at the end; the earlier frames and every other field of the document are unchanged. |
| Universal.TotalFrames | src/slideforge/models/universal.py:179-181 | The total is the number of frames. |
| Universal.TotalFramesAfterAdd | src/slideforge/models/universal.py:168-181 | Adding a frame raises the frame count by one. |
| Universal.FrameByNumber | src/slideforge/models/universal.py:172-177 | None exactly when no frame has the number; otherwise the first frame carrying that number. |
| Universal.TitleFrame | src/slideforge/models/universal.py:183-188 | None exactly when no frame has a non-empty title and layout TITLE_SLIDE; otherwise the first such frame. |
| Universal.MergeDocuments | src/slideforge/models/universal.py:262-275 | The frames are the first document's followed by the second's. The settings are the union of both, with the second document winning on shared keys. The metadata is the second document's, since a metadata object is always truthy. Source format and path are unset. |
| Universal.MergeAssociative | src/slideforge/models/universal.py:262-275 | Merging is associative. |
| Universal.OptionsToDict | src/slideforge/models/universal.py:204-216 | The dictionary has exactly the nine option keys. |
| Universal.OptionsRoundTrip | src/slideforge/models/universal.py:204-216 | The options can be read back from their dictionary unchanged, so no option is lost. |
| LatexParser.NextOpen | src/slideforge/parsers/latex_parser.py:41 | The first place at or after a position where `\begin{frame}` opens (in any letter case), or none when no frame opens there. |
| LatexParser.BodyEnd | src/slideforge/parsers/latex_parser.py:41 | The lazy body stops at the first position that is followed by `\end{frame}`, by `\begin{frame}`, or by the end of input (or by a final newline). It cannot stop earlier. |
| LatexParser.FrameCount | src/slideforge/parsers/latex_parser.py:116-125 | The number of frame bodies equals the number of openings of `\begin{frame}` in any letter case, unclosed frames included. |
| LatexParser.CountBody | src/slideforge/parsers/latex_parser.py:41 | No frame opens inside a body, so counting resumes after it. |
| LatexParser.OpeningsDisjoint | src/slideforge/parsers/latex_parser.py:41 | Two openings of a frame never overlap. |
| LatexParser.NoOpeningInBody | src/slideforge/parsers/latex_parser.py:41 | No frame opens strictly inside another frame's body. |
| LatexParser.FrameBodiesClean | src/slideforge/parsers/latex_parser.py:118-122 | No frame body contains an opening or a closing of a frame. |
| LatexParser.FrameBodies | src/slideforge/parsers/latex_parser.py:116-125 | One body per opening of `\begin{frame}`, in order: the body found for the k-th opening is the text after it up to the first following `\end{frame}`. No body holds an opening or a closing of a frame. |
| LatexParser.CommandArgument | src/slideforge/parsers/latex_parser.py:97-109 | The argument is present exactly when the command occurs with a non-empty braced argument, and it is the stripped argument of its first such occurrence. |
| LatexParser.ExtractMetadata | src/slideforge/parsers/latex_parser.py:94-114 | Title, author and date are the stripped first arguments of their commands, unset when absent. `documentclass` is recorded exactly when `\documentclass[...]{x}` occurs, and its value is the stripped class name of the first such occurrence. Institution, subject, language, version and both dates stay unset, and there are no keywords. |
| LatexParser.CommandArgumentAtStart | src/slideforge/parsers/latex_parser.py:97-99 | A command written at the start of the text is the one whose stripped argument is taken. |
| LatexParser.DocumentClassNeedsOptions | src/slideforge/parsers/latex_parser.py:112-114 | Without a `[...]` options group the document class is never recorded. |
| LatexParser.ItemText | src/slideforge/parsers/latex_parser.py:172-174 | An item text exists only for a line starting with `\item` in any letter case; it is non-empty and single-line. |
| LatexParser.ItemTextOfItemLine | src/slideforge/parsers/latex_parser.py:43 | `\item`, whitespace and a text give back exactly that text. |
| LatexParser.NoItemWithoutMarker | src/slideforge/parsers/latex_parser.py:172-175 | A line that does not start with `\i` (in any case) contributes no item. |
| LatexParser.CleanText | src/slideforge/parsers/latex_parser.py:190-191 | The cleaned line has no braces and no leading or trailing whitespace. |
| LatexParser.Step | src/slideforge/parsers/latex_parser.py:156-198 | One line adds at most one element, at the end. An added element is one the scanner may produce, and a TITLE only first on a title slide. Items stay empty outside a list. Blank and `%` lines change nothing. |
| LatexParser.StepWellScanned | src/slideforge/parsers/latex_parser.py:156-198 | One line keeps the element list well formed: TITLE only first on a title slide, every element of the four kinds the scanner emits. |
| LatexParser.TextKind | src/slideforge/parsers/latex_parser.py:194-198 | A text line becomes TITLE exactly on a title slide with no earlier element, and TEXT otherwise. |
| LatexParser.Run | src/slideforge/parsers/latex_parser.py:156-198 | Over a run of lines the elements only grow at the end, by at most one per line, and stay well formed. |
| LatexParser.RunAppend | src/slideforge/parsers/latex_parser.py:156 | Scanning two runs of lines in turn is scanning their concatenation. |
| LatexParser.ParseElements | src/slideforge/parsers/latex_parser.py:148-200 | A body yields at most one element per line, and the list is well formed. |
| LatexParser.ElementsInLineOrder | src/slideforge/parsers/latex_parser.py:148-200 | The elements of the first n lines are a prefix of the frame's elements, and the remaining lines add at most one element each. |
| LatexParser.StepInList | src/slideforge/parsers/latex_parser.py:171-175 | Inside a list, a line that does not close it only adds its item text, if it has one. |
| LatexParser.ListBody | src/slideforge/parsers/latex_parser.py:171-175 | Inside a list, the lines add their item texts in order and emit nothing. |
| LatexParser.StepOpenList | src/slideforge/parsers/latex_parser.py:162-164 | `\begin{itemize}` only opens the list. |
| LatexParser.StepCloseList | src/slideforge/parsers/latex_parser.py:165-170 | `\end{itemize}` emits one ITEMIZE of the pending items when there are any, then empties and closes the list. |
| LatexParser.ItemizeBlock | src/slideforge/parsers/latex_parser.py:153-175 | A closed list emits exactly one ITEMIZE holding its item texts in order, or nothing when it has none. |
| LatexParser.UnclosedList | src/slideforge/parsers/latex_parser.py:162-175 | A list that is never closed emits nothing. |
| LatexParser.ImageLine | src/slideforge/parsers/latex_parser.py:178-182 | A content line with `\includegraphics[...]{path}` adds exactly one IMAGE with the stripped path and no caption. |
| LatexParser.NoImageWithoutOptions | src/slideforge/parsers/latex_parser.py:44 | Without `[`, `\includegraphics{path}` is not an image. |
| LatexParser.FrameTitleLineSilent | src/slideforge/parsers/latex_parser.py:186-187 | A content line with a frame title and no image produces nothing. |
| LatexParser.TextLine | src/slideforge/parsers/latex_parser.py:189-198 | Any other content line adds one element holding its cleaned text, brace-free. It is TITLE exactly when first on a title slide. It adds nothing when the cleaned text is empty or starts with a backslash. |
| LatexParser.FrameLayout | src/slideforge/parsers/latex_parser.py:133-139 | TITLE_SLIDE exactly when the frame has no frame title, is number 1 and contains `\titlepage`; TITLE_AND_CONTENT otherwise. |
| LatexParser.ParseFrame | src/slideforge/parsers/latex_parser.py:127-146 | The frame keeps its number. Its title is the stripped argument of the first `\frametitle{...}`, or none. Its layout is the one above, and its elements are the body's elements under that layout. |
| LatexParser.EmptyFrameTitleIgnored | src/slideforge/parsers/latex_parser.py:42 | `\frametitle{}` is not a title. |
| LatexParser.ParseString | src/slideforge/parsers/latex_parser.py:68-125 | The source format is 'latex' and the metadata is the one extracted. There is one frame per opening, numbered 1..N in source order, each parsed from its body. |
| LatexParser.OnlyFirstFrameTitleSlide | src/slideforge/parsers/latex_parser.py:138-139 | Every frame after the first has layout TITLE_AND_CONTENT. |
| ContentMapper.LineCount | src/slideforge/mappers/content_mapper.py:178-184 | At least one line. A string payload has as many lines as its newline-separated pieces; any other payload prints as one line. |
| ContentMapper.EstimateTextHeight | src/slideforge/mappers/content_mapper.py:176-185 | 0.3 inches per line, and never below 0.3. |
| ContentMapper.ItemCount | src/slideforge/mappers/content_mapper.py:189-195 | The number of items of a list payload. For a dictionary with an `items` entry, the `len` of that entry: characters of a string, entries of a list or dictionary, and no count (a `TypeError`) exactly when it is `None`, a bool or a number. 1 for any other payload. |
| ContentMapper.EstimateItemizeHeight | src/slideforge/mappers/content_mapper.py:187-195 | 0.4 inches per item, and never below 0.4. |
| ContentMapper.ElementHeight | src/slideforge/mappers/content_mapper.py:143-153 | TEXT and BLOCK use the text estimate, ITEMIZE the list estimate, IMAGE 4.0 and every other type 0.5. Every height is at least 0.3. |
| ContentMapper.PositionElement | src/slideforge/mappers/content_mapper.py:129-174 | The element is unchanged but for its position: x = 1.0, width 8.0, height its estimate, at the given y. |
| ContentMapper.PositionFrom | src/slideforge/mappers/content_mapper.py:118-125 | One positioned element per input element; the first is placed at the starting height. |
| ContentMapper.PositionFromPlaced | src/slideforge/mappers/content_mapper.py:118-172 | Each output element is its input element laid out: only the position changes, at x = 1.0 with width 8.0. |
| ContentMapper.PositionFrame | src/slideforge/mappers/content_mapper.py:87-127 | Every field of the frame but its elements is copied; the elements are laid out from y = 2.5. |
| ContentMapper.TopsSpaced | src/slideforge/mappers/content_mapper.py:118-125 | Each top is the previous top plus the previous height plus 0.4. |
| ContentMapper.TopsStack | src/slideforge/mappers/content_mapper.py:105-125 | Each top is the starting height plus the stacked heights and spacings of the elements above it. |
| ContentMapper.PositionTop | src/slideforge/mappers/content_mapper.py:118-125 | The y of each laid-out element is the running top of the stack. |
| ContentMapper.PositionIsStackHeight | src/slideforge/mappers/content_mapper.py:105-125 | Element i sits at the starting height plus the heights and spacings of the elements before it. |
| ContentMapper.PositionsAreSpaced | src/slideforge/mappers/content_mapper.py:118-125 | Element k+1 sits at element k's y plus its height plus 0.4, so y strictly increases. |
| ContentMapper.PositionFromIdempotent | src/slideforge/mappers/content_mapper.py:129-174 | Laying out an already laid-out column changes nothing, since existing positions are never read. |
| ContentMapper.PositionAgain | src/slideforge/mappers/content_mapper.py:129-174 | Positioning an element twice at the same height is positioning it once. |
| ContentMapper.PositionFrameIdempotent | src/slideforge/mappers/content_mapper.py:87-127 | Mapping an already mapped frame yields the same frame. |
| ContentMapper.LatexNotImplemented | src/slideforge/mappers/content_mapper.py:197-210 | The refusal to map to LaTeX is a mapping error naming source 'pptx' and target 'latex'. |
| ContentMapper.MapDocument | src/slideforge/mappers/content_mapper.py:43-85 | Succeeds exactly for 'pptx' when no ITEMIZE element's `items` lacks a length, with one laid-out frame per input frame, in order. For 'pptx' with such an element it raises the `TypeError`. 'latex' raises the not-implemented mapping error. Any other target raises "Unsupported target format" and records the target when it is non-empty. |
| Formats.MappedFormat | src/slideforge/base.py:200-206 | '.tex' and '.latex' map to 'latex', '.pptx' and '.ppt' to 'pptx', and nothing else maps. |
| Formats.CanConvert | src/slideforge/base.py:181-194 | A conversion is possible exactly when the source format is in the table and its list of targets has the target at some position. |
| Formats.DetectFormat | src/slideforge/base.py:208-219 | A path is 'latex' exactly when its lower-cased suffix is .tex or .latex, and 'pptx' exactly when it is .pptx or .ppt; any other path has no format. |
| Formats.FormatFromExtension | src/slideforge/base.py:221-233 | The extension is looked up after adding a missing dot and lower-casing. |
| Formats.ExtensionDotOptional | src/slideforge/base.py:231-233 | Giving an extension with or without its dot gives the same format. |
| Formats.ExtensionCaseInsensitive | src/slideforge/base.py:233 | The extension lookup ignores letter case. |
| Formats.DetectIsExtensionLookup | src/slideforge/base.py:208-233 | Detecting a path's format equals looking up its suffix as an extension. |
| Formats.DetectFileName | src/slideforge/base.py:218-219 | A file `stem.ext` is detected by its lower-cased extension. |
| Formats.MapperConversionsExactly | src/slideforge/base.py:181-194 | With the content mapper's table, conversion is possible exactly from latex to pptx and from pptx to latex. |
| Formats.ValidateOutputPath | src/slideforge/base.py:135-145 | Valid exactly when the lower-cased suffix is one of the builder's extensions. |
| Formats.ValidateFile | src/slideforge/base.py:77-90 | Valid exactly when the file exists and its lower-cased suffix is supported. |
| Formats.PowerPointOutputIsPptx | src/slideforge/base.py:135-219 | A path the PowerPoint builder accepts is detected as 'pptx'. The converse holds for every such path except '.ppt'. |
| Paths.Suffix | src/slideforge/base.py:218 | The suffix is empty, or a dot followed by at least one dot-free character. It ends the path's name and is shorter than the name, so a name's leading dot never starts a suffix. |
| Paths.HiddenFileSuffix | src/slideforge/base.py:218 | A hidden file `.ext` has no suffix, so it has no detected format. |
| Paths.SuffixOfFileName | src/slideforge/base.py:218 | The suffix of `stem.ext` is `.ext`. |
| Errors.BaseError | src/slideforge/exceptions.py:27-37 | The error keeps its message, and its details default to an empty map. |
| Errors.Record | src/slideforge/exceptions.py:60-71 | Recording an argument sets its attribute to the raw value. Its detail key appears exactly when the argument is included; every other key is unchanged. |
| Errors.ParseError | src/slideforge/exceptions.py:49-71 | 'line_number' is present exactly when a line number was given (0 included). 'file_path' and 'latex_snippet' are present exactly when non-empty. There are no other keys. The attributes 'line_number', 'file_path' and 'latex_snippet' hold the raw arguments (None when not given), and each detail present is its attribute's value. |
| Errors.MappingError | src/slideforge/exceptions.py:77-99 | element_type, source_format and target_format are present exactly for the non-empty arguments. The attributes 'element_type', 'source_format' and 'target_format' hold the raw arguments (None when not given), and each detail present is its attribute's value. |
| Errors.BuilderError | src/slideforge/exceptions.py:105-127 | 'slide_number' is present exactly when one was given. 'operation' and 'output_format' are present exactly when non-empty. The attributes 'slide_number', 'operation' and 'output_format' hold the raw arguments (None when not given), and each detail present is its attribute's value. |
| Errors.ValidationError | src/slideforge/exceptions.py:133-150 | 'field' and 'value' are present exactly when non-empty. The attributes 'field' and 'value' hold the raw arguments (None when not given), and each detail present is its attribute's value. |
| Errors.ConfigurationError | src/slideforge/exceptions.py:156-173 | 'config_key' and 'config_value' are present exactly when non-empty. The attributes 'config_key' and 'config_value' hold the raw arguments (None when not given), and each detail present is its attribute's value. |
| Errors.UnsupportedFormatError | src/slideforge/exceptions.py:179-197 | 'format_name' and 'operation' are present exactly when non-empty. The attributes 'format_name' and 'operation' hold the raw arguments (None when not given), and each detail present is its attribute's value. |
| Errors.ConversionError | src/slideforge/exceptions.py:203-225 | 'source_file', 'target_file' and 'stage' are present exactly when non-empty. The attributes 'source_file', 'target_file' and 'stage' hold the raw arguments (None when not given), and each detail present is its attribute's value. |
| Errors.ErrorText | src/slideforge/exceptions.py:39-43 | The text is the message alone exactly when there are no details; otherwise the message followed by the details. |
| Errors.BareErrorText | src/slideforge/exceptions.py:39-66 | Every error class built without optional arguments prints as its bare message. A line number of 0 still adds details. |
| PptConverter.SupportedIsListed | ppt_converter.py:24 | A format is supported exactly when it is one of pptx, md, tex, latex. |
| PptConverter.FamilyOf | ppt_converter.py:459-466 | Exactly the supported formats have a kind; tex and latex are the LaTeX kind. |
| PptConverter.LStripChar | ppt_converter.py:443 | The result is a suffix of the input that does not start with the character, and everything removed was that character. |
| PptConverter.InputFormatOfFileName | ppt_converter.py:443 | The input format of `stem.ext` is the lower-cased extension. |
| PptConverter.Dispatch | ppt_converter.py:445-470 | Given the input format: ValueError exactly when either format is unsupported. The input path comes back exactly for equal formats. A converter is picked exactly for two different kinds of which one is PowerPoint, and names those kinds. NotImplementedError is raised exactly for two different supported formats neither of which is PowerPoint. |
| PptConverter.Convert | ppt_converter.py:439-470 | ValueError exactly when the input or output format is unsupported. The input path comes back exactly when both formats are the same. A conversion is chosen exactly for two different kinds of which one is PowerPoint, and it names those kinds. |
| PptConverter.NotImplementedPairs | ppt_converter.py:456-470 | Between supported formats, NotImplementedError is raised exactly for two different formats among md, tex and latex. |
| PptConverter.EscapeChar | ppt_converter.py:224-231 | `&`, `%`, `$`, `#` and `_` gain a backslash, while backslashes and braces pass through. |
| PptConverter.ReplaceQuotesIdentity | ppt_converter.py:227-228 | The quote replacements leave every text unchanged. |
| PptConverter.ReplaceChainAppend | ppt_converter.py:224-231 | The escaping chain distributes over concatenation. |
| PptConverter.EscapeSpecialsChar | ppt_converter.py:224-225 | The specials step prefixes a backslash to `&%$#_`, turns `^` into `\^{}` and leaves every other character alone. |
| PptConverter.TailChar | ppt_converter.py:229-231 | The em dash becomes `--`, the en dash `-`, vertical tab and form feed vanish, and every other character stays. |
| PptConverter.ReplaceChainChar | ppt_converter.py:224-231 | On one character the whole chain gives its table entry. |
| PptConverter.LatexSafeIsPerChar | ppt_converter.py:224-231 | The chain equals rewriting each character by its table entry, independently. |
| PptConverter.LatexSafe | ppt_converter.py:224-231 | A shape's escaped text is its characters each replaced by their table entry. |
| PptConverter.FormatLine | ppt_converter.py:237-246 | In Beamer mode an emphasised line becomes `\textbf{...}\\` and any other line gains a trailing `\\`. In article mode an emphasised line becomes `\subsection*{...}` and any other line stays as it is. No line gets shorter. |
| PptConverter.FormatLineRoundTrip | ppt_converter.py:237-246 | The original line can be read back from its formatted form. |
| PptConverter.NonBlank | ppt_converter.py:234-236 | The kept lines are non-blank lines of the input. |
| PptConverter.FormatLinesAt | ppt_converter.py:234-246 | The k-th emitted line is the k-th non-blank line, stripped and formatted. |
| PptConverter.ShapeLinesBeamer | ppt_converter.py:221-246 | In Beamer mode every emitted line ends with `\\` and reads back to its non-empty, escaped and stripped source line. |
| PptConverter.ShapeLines | ppt_converter.py:221-246 | A blank text emits nothing. Otherwise there is one line per non-blank line of the escaped, stripped text, in order, each stripped and laid out for the mode. |
| PptConverter.FirstTextIndex | ppt_converter.py:202-204 | The first shape with non-blank text, or none when no shape has any. |
| PptConverter.SlideTitle | ppt_converter.py:201-216 | The title is non-empty and single-line. |
| PptConverter.SlideTitleIsFirstLine | ppt_converter.py:201-216 | The title is the stripped first line of the first shape with text, or "Slide n" when no shape has text. |
| PptConverter.FirstLineOfStripped | ppt_converter.py:206-214 | The first line of a stripped non-blank text is non-empty, and a one-line text is its own first line. |
| PptConverter.Indent | ppt_converter.py:101-105 | Two spaces per level, nothing for a level of 0 or less. |
| PptConverter.MarkdownLine | ppt_converter.py:69-112 | Blank paragraphs emit nothing. A bullet is `"  " * level + "* "` and its stripped text. Any other paragraph is `## ` and its text when the text is under 50 characters, single-line, on the first slide and fewer than ten lines were emitted, and otherwise its plain text. |
| PptConverter.IndentedIsBullet | ppt_converter.py:94-96 | An indented paragraph is always a bullet. |
| PptConverter.BulletRoundTrip | ppt_converter.py:99-102 | The level and stripped text of a bullet can be read back from its Markdown line. |
| PptConverter.NonBulletNotReadBack | ppt_converter.py:86-112 | The line of a paragraph that is not a bullet is never read back as a bullet. |
| PptConverter.ParseBulletLine | ppt_converter.py:101-102 | A bullet line made of an indentation, `* ` and a text reads back to that level and text. |
| LatexToHtml.BodyFrom | tools/pptx_to_tex/latex_to_pptx.py:19 | The body starts after the whitespace and ends at the first following `\end{frame}`. It is absent when none follows. |
| LatexToHtml.FrameAt | tools/pptx_to_tex/latex_to_pptx.py:19 | A frame matches only at `\begin{frame}`. Its body starts after it and any options and ends at a `\end{frame}`, with none inside. |
| LatexToHtml.FramesStopAtEnd | tools/pptx_to_tex/latex_to_pptx.py:19-20 | No extracted body contains `\end{frame}`. |
| LatexToHtml.ExtractFrames | tools/pptx_to_tex/latex_to_pptx.py:19-20 | No extracted frame body contains `\end{frame}`. |
| LatexToHtml.FrameRoundTrip | tools/pptx_to_tex/latex_to_pptx.py:19-20 | `\begin{frame}body\end{frame}` extracts to exactly `[body]`. |
| LatexToHtml.UnclosedFrameDropped | tools/pptx_to_tex/latex_to_pptx.py:19-20 | Without any `\end{frame}`, no frame is extracted. |
| LatexToHtml.ExtractMetadata | tools/pptx_to_tex/latex_to_pptx.py:23-29 | The title is the unstripped argument of the first `\title{...}` match and defaults to 'Presentation'; the author is that of the first `\author{...}` match and defaults to ''. |
| LatexToHtml.MetadataRoundTrip | tools/pptx_to_tex/latex_to_pptx.py:23-29 | `\title{t}\author{a}` at the head of a text gives back exactly t and a. |
| LatexToHtml.FrameTitleRoundTrip | tools/pptx_to_tex/latex_to_pptx.py:56-57 | A frame starting with `\frametitle{t}` is titled t. |
| LatexToHtml.FrameTitle | tools/pptx_to_tex/latex_to_pptx.py:56-57 | A frame's heading is the argument of its first `\frametitle{...}` match, and "Slide i+1" exactly when there is no match. |
| LatexToHtml.DefaultFrameTitle | tools/pptx_to_tex/latex_to_pptx.py:56-57 | A frame in which `\frametitle{` never occurs is titled "Slide i+1". |
| LatexToHtml.Substitute | tools/pptx_to_tex/latex_to_pptx.py:82-98 | After the substitutions no brace is left. |
| LatexToHtml.PlainTextUnchanged | tools/pptx_to_tex/latex_to_pptx.py:82-98 | Text without backslashes or braces passes through the substitutions unchanged. |
| LatexToHtml.OnlyStepRewrites | tools/pptx_to_tex/latex_to_pptx.py:82-98 | When the substitutions before step i change nothing and step i leaves plain text, the whole chain yields that text. |
| LatexToHtml.FrameTitleDropped | tools/pptx_to_tex/latex_to_pptx.py:82 | `\frametitle{x}` inside plain text is deleted with its argument. |
| LatexToHtml.BeginItemizeOpensList | tools/pptx_to_tex/latex_to_pptx.py:85 | `\begin{itemize}` inside plain text becomes `<ul>`. |
| LatexToHtml.EndItemizeClosesList | tools/pptx_to_tex/latex_to_pptx.py:86 | `\end{itemize}` inside plain text becomes `</ul>`. |
| LatexToHtml.ItemOpensListItem | tools/pptx_to_tex/latex_to_pptx.py:87 | `\item` and all the whitespace after it become `<li>`. |
| LatexToHtml.BoldBecomesStrong | tools/pptx_to_tex/latex_to_pptx.py:90 | `\textbf{x}` with a non-empty x becomes `<strong>x</strong>`. |
| LatexToHtml.LineBreakBecomesBr | tools/pptx_to_tex/latex_to_pptx.py:93 | A `\\` that no letter follows becomes `<br>`. |
| LatexToHtml.KeepTags | tools/pptx_to_tex/latex_to_pptx.py:101-110 | The loop as written keeps only lines that start with `<` and never adds a line. |
| LatexToHtml.KeepTagsMembers | tools/pptx_to_tex/latex_to_pptx.py:103-108 | A line is output as written exactly when it is the stripped form of an input line and starts with `<`. |
| LatexToHtml.Paragraphs | tools/pptx_to_tex/latex_to_pptx.py:101-110 | The intended loop outputs only lines that start with `<`, wrapping plain lines as paragraphs, and never adds a line. |
| LatexToHtml.ParagraphsMembers | tools/pptx_to_tex/latex_to_pptx.py:103-108 | With the fix, a line is output exactly when it comes from a non-blank input line, stripped, and wrapped in `<p>...</p>` unless it starts with `<`. |
| LatexToHtml.CleanLatexContent | tools/pptx_to_tex/latex_to_pptx.py:79-110 | The cleaned content, as written, has no braces. |
| LatexToHtml.CleanLatexContentIntended | tools/pptx_to_tex/latex_to_pptx.py:79-110 | The cleaned content, as intended, has no braces. |
| LatexToHtml.OutputLinesAsWritten | tools/pptx_to_tex/latex_to_pptx.py:101-110 | The output lines are exactly the kept tag lines, each starting with `<`. |
| LatexToHtml.OutputLinesIntended | tools/pptx_to_tex/latex_to_pptx.py:101-110 | With the fix, the output lines are exactly the paragraphs, each starting with `<`. |
| LatexToHtml.KeepTagsAgreeIff | tools/pptx_to_tex/latex_to_pptx.py:103-108 | The code as written and the fix agree exactly when no line is plain text. |
| LatexToHtml.PlainTextDropped | tools/pptx_to_tex/latex_to_pptx.py:103-108 | A plain line cleans to nothing as written, and to `<p>line</p>` with the fix. |
| LatexToHtml.Pages | tools/pptx_to_tex/latex_to_pptx.py:33-77 | A title page with the metadata, then for each frame, in order, a page headed by that frame's title whose content is the frame cleaned as written. No page content holds a brace. |
| LatexToHtml.PagesIntended | tools/pptx_to_tex/latex_to_pptx.py:33-77 | The same pages, whose content is each frame cleaned with the correction of the finding below. |
| LatexToHtml.PagesAgreeWithoutPlainLines | tools/pptx_to_tex/latex_to_pptx.py:101-110 | When no frame has a plain-text line, the pages as written equal the corrected ones. |
| LatexToHtml.TexToPages | tools/pptx_to_tex/latex_to_pptx.py:13-77 | A `.tex` text gives its title page from the extracted metadata, then for each extracted frame, in order, a page holding that frame's title and its cleaned content. |
| LatexToHtml.OneFrameDeck | tools/pptx_to_tex/latex_to_pptx.py:13-77 | One frame with a frame title gives a title page and one page headed by that title. |

## Left out

- File and process I/O: reading sources, writing Markdown, LaTeX and HTML, temporary files,
  pandoc, python-pptx and logging. The model starts from text and shape contents already in
  memory, and ends at the strings or records the code would write.
- The HTML page templates of `create_temp_html_files`. A page keeps only the values the
  template interpolates: the title and author, or the heading and cleaned content.
- Python float rounding in the layout mapper; heights and positions are exact reals.
- Case folding beyond ASCII in the case-insensitive patterns and in `str.lower()`. For the
  format tables this is exact, since no non-ASCII character lower-cases to a letter of
  an extension.
- The `repr` text of the details in `Slide_Forge_Error.__str__`; it is a parameter of `Errors.ErrorText`.
- The PowerPoint builder, the enhanced converter, the command-line interface and the
  placeholder core modules. None of them holds logic of the modelled core.
- Errors.BaseError: `details or {}` is modelled for a given map or none; a falsy non-dict details value is not modelled.
- Values.Value: dictionary values are `None`, bools, integers, strings, lists and dictionaries; floats are not modelled, so an `items` float, which also makes `len` raise, has no representation.
- ContentMapper.EstimateItemizeHeight: where `len` raises, the estimate is the 0.4 minimum; `MapDocument` then fails with the `TypeError`, so that value never reaches a caller.
- Formats.ValidateFile: whether the file exists is a parameter, since it is a fact about the file system.
- PptConverter.MarkdownLine: the number of lines already emitted is a parameter, because the heading rule of line 107 depends on the whole Markdown buffer.
- PptConverter.SlideTitle: the shapes are given as their optional texts; python-pptx's shape classes are not modelled.
- LatexToHtml.OneFrameDeck: states the page count and headings but not the metadata of the title page.
- LatexToHtml.FrameTitleDropped, BeginItemizeOpensList, EndItemizeClosesList, ItemOpensListItem, BoldBecomesStrong and LineBreakBecomesBr: each states one rewrite for one occurrence inside otherwise plain text. A text mixing several commands is covered only by the brace-free result of `Substitute`.
- LatexToHtml.LineBreakBecomesBr: a `\\` followed by a letter is excluded, because there a command pattern of an earlier step can match at the second backslash, as `re.sub` does too.
- Test expectations the code does not meet (inline frame titles, joined multi-line text,
  equations, blocks, sections and title inheritance, a block height of 1.0) are not modelled.

## Findings

| source | as written | input that shows it | evidently intended | confidence | as-written member | corrected member |
|---|---|---|---|---|---|---|
| tools/pptx_to_tex/latex_to_pptx.py:103-108 | A plain-text line is wrapped as `<p>line</p>` and assigned, but never appended, so it is dropped from the output | a frame body `Hello` cleans to the empty string | the wrapped paragraph is appended, giving `<p>Hello</p>` | not executed | LatexToHtml.CleanLatexContent (counterexample: LatexToHtml.PlainTextDropped) | LatexToHtml.CleanLatexContentIntended (property: LatexToHtml.OutputLinesIntended, LatexToHtml.KeepTagsAgreeIff) |

=== FILE: content_mapper.dfy ===
/** `Content_Mapper`: lays the elements of every frame out in a single column for the
    PowerPoint builder. Lengths are inches, modelled as exact reals. */
module ContentMapper {
  import opened Wrappers
  import opened Strings
  import opened Universal
  import Errors

  const MarginLeft: real := 1.0
  const MarginRight: real := 1.0
  /** The first element starts below the title area. */
  const MarginTop: real := 2.5
  const ElementSpacing: real := 0.4
  const SlideWidth: real := 10.0
  const ContentWidth: real := SlideWidth - MarginLeft - MarginRight

  /** Height of one line of text. */
  const LineHeight: real := 0.3
  /** Height of one bullet point. */
  const ItemHeight: real := 0.4
  /** Height given to every image. */
  const ImageHeight: real := 4.0
  /** Height of an element of any other type, and the fallback for a zero height. */
  const DefaultHeight: real := 0.5

  /** The number of lines of `str(content)`. A string payload is split on newlines; any
      other payload prints as a `repr`, in which a newline is escaped, so it is one line. */
  function LineCount(c: Content): (n: nat)
    ensures n >= 1
    ensures c.Plain? ==> n == |Split(c.text, '\n')|
  {
    match c
    case Plain(t) => |Split(t, '\n')|
    case _ => 1
  }

  /** `_estimate_text_height`: 0.3 inches per line, at least 0.3. */
  function EstimateTextHeight(c: Content): (h: real)
    ensures h == LineHeight * (LineCount(c) as real)
    ensures h >= LineHeight
  {
    var lines := LineCount(c) as real;
    if LineHeight >= lines * LineHeight then LineHeight else lines * LineHeight
  }

  /** Python's `len` of a value: the characters of a string, the entries of a list or a
      dictionary; `None` where `len` raises `TypeError` (`None`, a bool, a number). */
  function Len(v: Values.Value): (r: Option<nat>)
    ensures r.Some? <==> !(v.Null? || v.Bool? || v.Int?)
  {
    match v
    case Str(s) => Some(|s|)
    case List(elems) => Some(|elems|)
    case Dict(entries) => Some(|entries|)
    case _ => None
  }

  /** `len(items)` in `_estimate_itemize_height`: for a dictionary payload with an `items`
      entry, the `len` of that entry (`None` when it has none); for any other payload the
      one-element list `[str(content)]`. */
  function ItemCount(c: Content): (n: Option<nat>)
    ensures c.ItemList? ==> n == Some(|c.items|)
    ensures c.Fields? && "items" in c.fields ==> n == Len(c.fields["items"])
    ensures !c.ItemList? && !(c.Fields? && "items" in c.fields) ==> n == Some(1)
    ensures n.None? <==> c.Fields? && "items" in c.fields
                         && (c.fields["items"].Null? || c.fields["items"].Bool? || c.fields["items"].Int?)
  {
    match c
    case ItemList(items) => Some(|items|)
    case Fields(fields) => if "items" in fields then Len(fields["items"]) else Some(1)
    case _ => Some(1)
  }

  /** `_estimate_itemize_height`: 0.4 inches per item, at least 0.4. Where `len` raises,
      `MapDocument` fails before any layout is returned, so the minimum that stands in
      here is never observed. */
  function EstimateItemizeHeight(c: Content): (h: real)
    ensures h >= ItemHeight
    ensures ItemCount(c).Some? && ItemCount(c).value >= 1 ==> h == ItemHeight * (ItemCount(c).value as real)
    ensures ItemCount(c) == Some(0) ==> h == ItemHeight
  {
    var n := ItemCount(c).GetOr(0) as real;
    if ItemHeight >= n * ItemHeight then ItemHeight else n * ItemHeight
  }

  /** Laying `e` out raises `TypeError`: an ITEMIZE whose `items` has no length. */
  predicate LengthRaises(e: Element) {
    e.elementType == Itemize && ItemCount(e.content).None?
  }

  /** Some element of some frame of `d` makes the layout raise. */
  predicate DocumentRaises(d: Document) {
    exists i, j :: 0 <= i < |d.frames| && 0 <= j < |d.frames[i].elements| && LengthRaises(d.frames[i].elements[j])
  }

  /** The height `_position_element` gives an element, by type. */
  function ElementHeight(e: Element): (h: real)
    ensures h >= LineHeight
    ensures e.elementType == Text || e.elementType == Block ==> h == EstimateTextHeight(e.content)
    ensures e.elementType == Itemize ==> h == EstimateItemizeHeight(e.content)
    ensures e.elementType == Image ==> h == ImageHeight
    ensures e.elementType !in {Text, Block, Itemize, Image} ==> h == DefaultHeight
  {
    match e.elementType
    case Text => EstimateTextHeight(e.content)
    case Itemize => EstimateItemizeHeight(e.content)
    case Image => ImageHeight
    case Block => EstimateTextHeight(e.content)
    case _ => DefaultHeight
  }

  /** `p` is `e` laid out: unchanged but for a position at the left margin, as wide as the
      content area and as high as `e`'s estimate. */
  predicate PlacedAs(p: Element, e: Element) {
    && p.position.Some?
    && p == e.(position := p.position)
    && p.position.value.x == MarginLeft
    && p.position.value.width == Some(ContentWidth)
    && p.position.value.height == Some(ElementHeight(e))
  }

  /** `_position_element`: the element, unchanged but for its position, placed at the left
      margin at height `y`, as wide as the content area. */
  function PositionElement(e: Element, y: real): (r: Element)
    ensures PlacedAs(r, e) && r.position.value.y == y
  {
    e.(position := Some(Position(MarginLeft, y, Some(ContentWidth), Some(ElementHeight(e)))))
  }

  /** How far the cursor moves past a positioned element: its height (or the default when
      the height is zero or missing) plus the spacing. */
  function Advance(positioned: Element): (d: real) {
    match positioned.position
    case Some(p) =>
      (if p.height.Some? && p.height.value != 0.0 then p.height.value else DefaultHeight) + ElementSpacing
    case None => 0.0
  }

  /** The elements of a frame positioned one below the other, the first at `y`. */
  function PositionFrom(es: seq<Element>, y: real): (r: seq<Element>)
    ensures |r| == |es|
    ensures forall i :: 0 <= i < |r| ==> r[i].position.Some?
    ensures |es| > 0 ==> r[0] == PositionElement(es[0], y)
    decreases |es|
  {
    if es == [] then []
    else
      var first := PositionElement(es[0], y);
      [first] + PositionFrom(es[1..], y + Advance(first))
  }

  /** Every element is laid out: kept as it was but for its new position. */
  lemma {:induction false} PositionFromPlaced(es: seq<Element>, y: real, i: nat)
    requires i < |es|
    ensures PlacedAs(PositionFrom(es, y)[i], es[i])
    decreases i
  {
    if i > 0 {
      var y' := y + Advance(PositionElement(es[0], y));
      assert PositionFrom(es, y)[i] == PositionFrom(es[1..], y')[i - 1];
      PositionFromPlaced(es[1..], y', i - 1);
      assert es[1..][i - 1] == es[i];
    }
  }

  /** `_position_frame_elements`: a copy of the frame whose elements are positioned from the
      top margin down. */
  function PositionFrame(f: Frame): (r: Frame)
    ensures r == f.(elements := r.elements)
    ensures r.elements == PositionFrom(f.elements, MarginTop)
  {
    Frame(f.number, f.title, f.subtitle, PositionFrom(f.elements, MarginTop), f.layout,
          f.backgroundColor, f.notes, f.metadata)
  }

  /** The estimated height of each element. */
  function Heights(es: seq<Element>): (hs: seq<real>)
    ensures |hs| == |es| && forall i :: 0 <= i < |es| ==> hs[i] == ElementHeight(es[i])
  {
    seq(|es|, i requires 0 <= i < |es| => ElementHeight(es[i]))
  }

  /** The tops of a column of boxes of heights `hs`, the first at `y`, each the spacing
      below the previous one. */
  function Tops(hs: seq<real>, y: real): (ts: seq<real>)
    ensures |ts| == |hs|
    ensures |hs| > 0 ==> ts[0] == y
  {
    if hs == [] then [] else [y] + Tops(hs[1..], y + hs[0] + ElementSpacing)
  }

  /** The vertical space a column of boxes takes, spacing included. */
  function StackHeight(hs: seq<real>): real {
    if hs == [] then 0.0 else hs[0] + ElementSpacing + StackHeight(hs[1..])
  }

  /** In a column, each box starts the spacing below the end of the previous one. */
  lemma {:induction false} TopsSpaced(hs: seq<real>, y: real, i: nat)
    requires i + 1 < |hs|
    ensures Tops(hs, y)[i + 1] == Tops(hs, y)[i] + hs[i] + ElementSpacing
    decreases i
  {
    var rest := Tops(hs[1..], y + hs[0] + ElementSpacing);
    assert Tops(hs, y) == [y] + rest;
    if i > 0 {
      TopsSpaced(hs[1..], y + hs[0] + ElementSpacing, i - 1);
      assert hs[1..][i - 1] == hs[i];
    }
  }

  /** In a column, each box starts below all the boxes before it. */
  lemma {:induction false} TopsStack(hs: seq<real>, y: real, i: nat)
    requires i < |hs|
    ensures Tops(hs, y)[i] == y + StackHeight(hs[..i])
    decreases i
  {
    if i > 0 {
      var y' := y + hs[0] + ElementSpacing;
      assert Tops(hs, y) == [y] + Tops(hs[1..], y');
      TopsStack(hs[1..], y', i - 1);
      var prefix := hs[..i];
      assert prefix[0] == hs[0] && prefix[1..] == hs[1..][..i - 1];
    }
  }

  /** After the first element, the elements are laid out as the rest would be on their own,
      starting one height and one spacing lower. */
  lemma PositionFromTail(es: seq<Element>, y: real, i: nat)
    requires 0 < i < |es|
    ensures PositionFrom(es, y)[i] == PositionFrom(es[1..], y + ElementHeight(es[0]) + ElementSpacing)[i - 1]
  {
    assert Advance(PositionElement(es[0], y)) == ElementHeight(es[0]) + ElementSpacing;
  }

  /** The layout puts the elements at the tops of the column of their estimated heights:
      the `or 0.5` fallback never applies, since every estimate is positive. */
  lemma {:induction false} PositionTop(es: seq<Element>, y: real, i: nat)
    requires i < |es|
    ensures PositionFrom(es, y)[i].position.value.y == Tops(Heights(es), y)[i]
    decreases i
  {
    if i > 0 {
      var y' := y + ElementHeight(es[0]) + ElementSpacing;
      PositionFromTail(es, y, i);
      PositionTop(es[1..], y', i - 1);
      HeightsTail(es, y, i);
    }
  }

  /** The column of the elements after the first is the tail of the whole column. */
  lemma HeightsTail(es: seq<Element>, y: real, i: nat)
    requires 0 < i < |es|
    ensures Tops(Heights(es), y)[i] == Tops(Heights(es[1..]), y + ElementHeight(es[0]) + ElementSpacing)[i - 1]
  {
    assert Heights(es)[1..] == Heights(es[1..]);
  }

  /** Each element sits exactly below all the elements before it. */
  lemma PositionIsStackHeight(es: seq<Element>, y: real, i: nat)
    requires i < |es|
    ensures PositionFrom(es, y)[i].position.value.y == y + StackHeight(Heights(es)[..i])
  {
    PositionTop(es, y, i);
    TopsStack(Heights(es), y, i);
  }

  /** Consecutive elements do not overlap: the next one starts the spacing below the end of
      the previous one. */
  lemma PositionsAreSpaced(es: seq<Element>, y: real, i: nat)
    requires i + 1 < |es|
    ensures PositionFrom(es, y)[i + 1].position.value.y
         == PositionFrom(es, y)[i].position.value.y + ElementHeight(es[i]) + ElementSpacing
  {
    PositionTop(es, y, i);
    PositionTop(es, y, i + 1);
    TopsSpaced(Heights(es), y, i);
  }

  /** The layout ignores any position an element already had, so laying out a laid-out
      frame changes nothing. */
  lemma {:induction false} PositionFromIdempotent(es: seq<Element>, y: real)
    ensures PositionFrom(PositionFrom(es, y), y) == PositionFrom(es, y)
    decreases |es|
  {
    if es != [] {
      var first := PositionElement(es[0], y);
      var y' := y + Advance(first);
      var rest := PositionFrom(es[1..], y');
      var r := PositionFrom(es, y);
      assert r == [first] + rest;
      assert r[0] == first && r[1..] == rest;
      PositionAgain(es[0], y);
      PositionFromIdempotent(es[1..], y');
      assert PositionFrom(r, y) == [PositionElement(first, y)] + PositionFrom(rest, y');
    }
  }

  /** Placing an element at the height it already has changes nothing. */
  lemma PositionAgain(e: Element, y: real)
    ensures PositionElement(PositionElement(e, y), y) == PositionElement(e, y)
  {
    assert ElementHeight(PositionElement(e, y)) == ElementHeight(e);
  }

  /** Laying out a frame twice is laying it out once. */
  lemma PositionFrameIdempotent(f: Frame)
    ensures PositionFrame(PositionFrame(f)) == PositionFrame(f)
  {
    PositionFromIdempotent(f.elements, MarginTop);
  }

  /** The message of the error `map_document` raises for a target other than `pptx` and `latex`. */
  function UnsupportedTargetMessage(target: string): string {
    "Unsupported target format: " + target
  }

  /** The error `_map_to_latex` raises: the direction is recorded in the details. */
  function LatexNotImplemented(): (e: Errors.Error)
    ensures e.kind == Errors.Mapping && e.details.Keys == {"source_format", "target_format"}
    ensures e.details["source_format"] == Values.Str("pptx") && e.details["target_format"] == Values.Str("latex")
  {
    Errors.MappingError("PowerPoint to LaTeX conversion not yet implemented", None, Some("pptx"), Some("latex"))
  }

  /** What `map_document` raises: an error of the hierarchy, or the `TypeError` of `len`
      on an `items` value that has no length. */
  datatype MapError = Raised(error: Errors.Error) | ItemsTypeError

  /** `map_document`: for `pptx`, every frame laid out in order, unless an element's
      `items` has no length; `latex` is declared but not implemented and fails; every other
      target is unsupported. */
  function MapDocument(d: Document, target: string): (r: Result<seq<Frame>, MapError>)
    ensures r.Success? <==> target == "pptx" && !DocumentRaises(d)
    ensures target == "pptx" && DocumentRaises(d) ==> r == Failure(ItemsTypeError)
    ensures r.Success? ==> |r.value| == |d.frames|
    ensures r.Success? ==> forall i :: 0 <= i < |d.frames| ==> r.value[i] == PositionFrame(d.frames[i])
    ensures target != "pptx" ==> r.Failure? && r.error.Raised?
    ensures target != "pptx" ==> r.error.error.kind == Errors.Mapping && "element_type" !in r.error.error.details
    ensures target == "latex" ==> r == Failure(Raised(LatexNotImplemented()))
    ensures target != "pptx" && target != "latex" ==> r.error.error.message == UnsupportedTargetMessage(target)
    ensures target != "pptx" && target != "latex" ==> ("target_format" in r.error.error.details <==> target != "")
  {
    if target == "pptx" then
      if DocumentRaises(d) then Failure(ItemsTypeError)
      else Success(seq(|d.frames|, i requires 0 <= i < |d.frames| => PositionFrame(d.frames[i])))
    else if target == "latex" then
      Failure(Raised(LatexNotImplemented()))
    else
      Failure(Raised(Errors.MappingError(UnsupportedTargetMessage(target), None, None, Some(target))))
  }
}

=== FILE: errors.dfy ===
/** The exception hierarchy. Every error carries its message and a `details` dictionary;
    each subclass also keeps its keyword arguments as attributes, and copies into `details`
    only the ones that are set: a text argument when it is non-empty (Python truthiness),
    a number argument whenever it is not `None` (so a line or slide number 0 is kept). */
module Errors {
  import opened Wrappers
  import opened Values
  import opened Strings

  /** The classes of the hierarchy; `SlideForge` is the base class itself. */
  datatype ErrorKind =
    | SlideForge | Parse | Mapping | Builder | Validation | Configuration | UnsupportedFormat | Conversion

  /** A raised error: its class, message, `details`, and the raw keyword arguments its
      class stores as attributes (empty for the base class). */
  datatype Error = Error(kind: ErrorKind, message: string, details: map<string, Value>, attributes: map<string, Value>)

  /** A keyword argument: optional text, or an optional integer. */
  datatype Arg = Text(text: Option<string>) | Number(number: Option<int>)

  /** Whether the argument is copied into `details`. */
  predicate Included(a: Arg) {
    match a
    case Text(t) => t.Some? && t.value != ""
    case Number(n) => n.Some?
  }

  /** The argument as it is stored: `None` or the value. */
  function Raw(a: Arg): Value {
    match a
    case Text(t) => if t.Some? then Str(t.value) else Null
    case Number(n) => if n.Some? then Int(n.value) else Null
  }

  /** What every subclass instance satisfies: each detail is the attribute of the same name,
      and an attribute is left out of `details` only when it is `None` or empty. */
  predicate DetailsMatchAttributes(e: Error) {
    && (forall k :: k in e.details ==> k in e.attributes && e.attributes[k] == e.details[k])
    && (forall k :: k in e.attributes && k !in e.details ==> e.attributes[k] == Null || e.attributes[k] == Str(""))
  }

  /** `Slide_Forge_Error(message, details)`: a missing or empty dictionary becomes `{}`. */
  function BaseError(message: string, details: Option<map<string, Value>>): (e: Error)
    ensures e.kind == SlideForge && e.message == message && e.attributes == map[]
    ensures details.Some? ==> e.details == details.value
    ensures details.None? ==> e.details == map[]
  {
    Error(SlideForge, message, if details.Some? then details.value else map[], map[])
  }

  /** A subclass error before its keyword arguments are recorded. */
  function Bare(kind: ErrorKind, message: string): (e: Error)
    ensures DetailsMatchAttributes(e)
  {
    Error(kind, message, map[], map[])
  }

  /** One keyword argument of a subclass constructor recorded under `key`, a name not used
      before: it always becomes an attribute, and a detail only when it is set. */
  function Record(e: Error, key: string, a: Arg): (r: Error)
    requires key !in e.attributes
    requires DetailsMatchAttributes(e)
    ensures r.kind == e.kind && r.message == e.message
    ensures DetailsMatchAttributes(r)
    ensures r.attributes == e.attributes[key := Raw(a)]
    ensures key in r.details <==> Included(a)
    ensures forall k :: k != key ==> (k in r.details <==> k in e.details)
    ensures r.details.Keys <= e.details.Keys + {key}
  {
    var details := if Included(a) then e.details[key := Raw(a)] else e.details;
    Error(e.kind, e.message, details, e.attributes[key := Raw(a)])
  }

  /** `ParseError` */
  function ParseError(message: string, lineNumber: Option<int>, filePath: Option<string>, latexSnippet: Option<string>): (e: Error)
    ensures e.kind == Parse && e.message == message && DetailsMatchAttributes(e)
    ensures "line_number" in e.details <==> lineNumber.Some?
    ensures "file_path" in e.details <==> filePath.Some? && filePath.value != ""
    ensures "latex_snippet" in e.details <==> latexSnippet.Some? && latexSnippet.value != ""
    ensures e.details.Keys <= {"line_number", "file_path", "latex_snippet"}
    ensures e.attributes == map["line_number" := Raw(Number(lineNumber)), "file_path" := Raw(Text(filePath)), "latex_snippet" := Raw(Text(latexSnippet))]
  {
    var e := Bare(Parse, message);
    var e := Record(e, "line_number", Number(lineNumber));
    var e := Record(e, "file_path", Text(filePath));
    var e := Record(e, "latex_snippet", Text(latexSnippet));
    e
  }

  /** `MappingError` */
  function MappingError(message: string, elementType: Option<string>, sourceFormat: Option<string>, targetFormat: Option<string>): (e: Error)
    ensures e.kind == Mapping && e.message == message && DetailsMatchAttributes(e)
    ensures "element_type" in e.details <==> elementType.Some? && elementType.value != ""
    ensures "source_format" in e.details <==> sourceFormat.Some? && sourceFormat.value != ""
    ensures "target_format" in e.details <==> targetFormat.Some? && targetFormat.value != ""
    ensures e.details.Keys <= {"element_type", "source_format", "target_format"}
    ensures e.attributes == map["element_type" := Raw(Text(elementType)), "source_format" := Raw(Text(sourceFormat)), "target_format" := Raw(Text(targetFormat))]
  {
    var e := Bare(Mapping, message);
    var e := Record(e, "element_type", Text(elementType));
    var e := Record(e, "source_format", Text(sourceFormat));
    var e := Record(e, "target_format", Text(targetFormat));
    e
  }

  /** `BuilderError` */
  function BuilderError(message: string, slideNumber: Option<int>, operation: Option<string>, outputFormat: Option<string>): (e: Error)
    ensures e.kind == Builder && e.message == message && DetailsMatchAttributes(e)
    ensures "slide_number" in e.details <==> slideNumber.Some?
    ensures "operation" in e.details <==> operation.Some? && operation.value != ""
    ensures "output_format" in e.details <==> outputFormat.Some? && outputFormat.value != ""
    ensures e.details.Keys <= {"slide_number", "operation", "output_format"}
    ensures e.attributes == map["slide_number" := Raw(Number(slideNumber)), "operation" := Raw(Text(operation)), "output_format" := Raw(Text(outputFormat))]
  {
    var e := Bare(Builder, message);
    var e := Record(e, "slide_number", Number(slideNumber));
    var e := Record(e, "operation", Text(operation));
    var e := Record(e, "output_format", Text(outputFormat));
    e
  }

  /** `ValidationError` */
  function ValidationError(message: string, field: Option<string>, value: Option<string>): (e: Error)
    ensures e.kind == Validation && e.message == message && DetailsMatchAttributes(e)
    ensures "field" in e.details <==> field.Some? && field.value != ""
    ensures "value" in e.details <==> value.Some? && value.value != ""
    ensures e.details.Keys <= {"field", "value"}
    ensures e.attributes == map["field" := Raw(Text(field)), "value" := Raw(Text(value))]
  {
    var e := Bare(Validation, message);
    var e := Record(e, "field", Text(field));
    var e := Record(e, "value", Text(value));
    e
  }

  /** `ConfigurationError` */
  function ConfigurationError(message: string, configKey: Option<string>, configValue: Option<string>): (e: Error)
    ensures e.kind == Configuration && e.message == message && DetailsMatchAttributes(e)
    ensures "config_key" in e.details <==> configKey.Some? && configKey.value != ""
    ensures "config_value" in e.details <==> configValue.Some? && configValue.value != ""
    ensures e.details.Keys <= {"config_key", "config_value"}
    ensures e.attributes == map["config_key" := Raw(Text(configKey)), "config_value" := Raw(Text(configValue))]
  {
    var e := Bare(Configuration, message);
    var e := Record(e, "config_key", Text(configKey));
    var e := Record(e, "config_value", Text(configValue));
    e
  }

  /** `UnsupportedFormatError` */
  function UnsupportedFormatError(message: string, formatName: Option<string>, operation: Option<string>): (e: Error)
    ensures e.kind == UnsupportedFormat && e.message == message && DetailsMatchAttributes(e)
    ensures "format_name" in e.details <==> formatName.Some? && formatName.value != ""
    ensures "operation" in e.details <==> operation.Some? && operation.value != ""
    ensures e.details.Keys <= {"format_name", "operation"}
    ensures e.attributes == map["format_name" := Raw(Text(formatName)), "operation" := Raw(Text(operation))]
  {
    var e := Bare(UnsupportedFormat, message);
    var e := Record(e, "format_name", Text(formatName));
    var e := Record(e, "operation", Text(operation));
    e
  }

  /** `ConversionError` */
  function ConversionError(message: string, sourceFile: Option<string>, targetFile: Option<string>, stage: Option<string>): (e: Error)
    ensures e.kind == Conversion && e.message == message && DetailsMatchAttributes(e)
    ensures "source_file" in e.details <==> sourceFile.Some? && sourceFile.value != ""
    ensures "target_file" in e.details <==> targetFile.Some? && targetFile.value != ""
    ensures "stage" in e.details <==> stage.Some? && stage.value != ""
    ensures e.details.Keys <= {"source_file", "target_file", "stage"}
    ensures e.attributes == map["source_file" := Raw(Text(sourceFile)), "target_file" := Raw(Text(targetFile)), "stage" := Raw(Text(stage))]
  {
    var e := Bare(Conversion, message);
    var e := Record(e, "source_file", Text(sourceFile));
    var e := Record(e, "target_file", Text(targetFile));
    var e := Record(e, "stage", Text(stage));
    e
  }

  /** `str(error)`: the message alone when there are no details, otherwise the message
      followed by the details. `detailsRepr` stands for Python's `repr` of the dictionary,
      which is not modelled. */
  function ErrorText(e: Error, detailsRepr: string): (r: string)
    ensures StartsWith(r, e.message)
    ensures r == e.message <==> e.details == map[]
    ensures e.details != map[] ==> r == e.message + " (Details: " + detailsRepr + ")"
  {
    if e.details == map[] then e.message else e.message + " (Details: " + detailsRepr + ")"
  }

  /** An error built with no keyword argument set prints as its bare message; a line or
      slide number 0 is still set, so it shows the details. */
  lemma BareErrorText(message: string, detailsRepr: string)
    ensures ErrorText(ParseError(message, None, None, None), detailsRepr) == message
    ensures ErrorText(MappingError(message, None, None, None), detailsRepr) == message
    ensures ErrorText(BuilderError(message, None, None, None), detailsRepr) == message
    ensures ErrorText(ValidationError(message, None, None), detailsRepr) == message
    ensures ErrorText(ConfigurationError(message, None, None), detailsRepr) == message
    ensures ErrorText(UnsupportedFormatError(message, None, None), detailsRepr) == message
    ensures ErrorText(ConversionError(message, None, None, None), detailsRepr) == message
    ensures ErrorText(ParseError(message, Some(0), None, None), detailsRepr) != message
    ensures ErrorText(BuilderError(message, Some(0), None, None), detailsRepr) != message
  {
  }
}

=== FILE: formats.dfy ===
/** Format bookkeeping of the abstract base classes: recognising a format from a file
    suffix or extension, checking a file or output path against a list of extensions,
    and the mapper's table of supported conversions. */
module Formats {
  import opened Wrappers
  import opened Strings
  import opened Paths

  /** `Format_Detector.format_mappings` */
  const FormatMappings: map<string, string> :=
    map[".tex" := "latex", ".latex" := "latex", ".pptx" := "pptx", ".ppt" := "pptx"]

  /** `dict.get`: the value under `key`, or none. */
  function Get<V>(m: map<string, V>, key: string): (r: Option<V>)
    ensures r.Some? <==> key in m
    ensures r.Some? ==> r.value == m[key]
  {
    if key in m then Some(m[key]) else None
  }

  /** The `format_mappings` entry for an exact (already lower-cased, dotted) extension. */
  function MappedFormat(ext: string): (r: Option<string>)
    ensures r == Some("latex") <==> ext == ".tex" || ext == ".latex"
    ensures r == Some("pptx") <==> ext == ".pptx" || ext == ".ppt"
    ensures r.Some? ==> r.value == "latex" || r.value == "pptx"
  {
    Get(FormatMappings, ext)
  }

  /** `detect_format`: the format of a path, from its lower-cased suffix. */
  function DetectFormat(path: string): (r: Option<string>)
    ensures r == Some("latex") <==> Lower(Suffix(path)) == ".tex" || Lower(Suffix(path)) == ".latex"
    ensures r == Some("pptx") <==> Lower(Suffix(path)) == ".pptx" || Lower(Suffix(path)) == ".ppt"
    ensures r.Some? ==> r.value == "latex" || r.value == "pptx"
  {
    MappedFormat(Lower(Suffix(path)))
  }

  /** An extension with its leading dot, adding one when it has none. */
  function Dotted(extension: string): (r: string)
    ensures StartsWith(r, ".")
    ensures StartsWith(extension, ".") ==> r == extension
    ensures !StartsWith(extension, ".") ==> r == "." + extension
  {
    if StartsWith(extension, ".") then extension else "." + extension
  }

  /** `get_format_from_extension`: the extension may be given with or without its dot,
      in any case. */
  function FormatFromExtension(extension: string): (r: Option<string>)
    ensures r == Some("latex") <==> Lower(Dotted(extension)) == ".tex" || Lower(Dotted(extension)) == ".latex"
    ensures r == Some("pptx") <==> Lower(Dotted(extension)) == ".pptx" || Lower(Dotted(extension)) == ".ppt"
    ensures r.Some? ==> r.value == "latex" || r.value == "pptx"
  {
    MappedFormat(Lower(Dotted(extension)))
  }

  /** Giving the extension with or without its dot makes no difference. */
  lemma ExtensionDotOptional(extension: string)
    requires !StartsWith(extension, ".")
    ensures FormatFromExtension(extension) == FormatFromExtension("." + extension)
  {
    assert StartsWith("." + extension, ".");
  }

  /** Lower-casing commutes with adding the dot. */
  lemma LowerDotted(extension: string)
    ensures Lower(Dotted(Lower(extension))) == Lower(Dotted(extension))
  {
    LowerIdempotent(extension);
    if StartsWith(extension, ".") {
      assert Lower(extension)[..1] == Lower(extension[..1]);
      assert StartsWith(Lower(extension), ".");
    } else {
      LowerAppend(".", extension);
      LowerAppend(".", Lower(extension));
    }
  }

  /** The extension lookup ignores case. */
  lemma ExtensionCaseInsensitive(extension: string)
    ensures FormatFromExtension(Lower(extension)) == FormatFromExtension(extension)
  {
    LowerDotted(extension);
  }

  /** Detecting a path's format is looking up its suffix as an extension: a non-empty suffix
      already carries its dot, and an empty one is unknown either way. */
  lemma DetectIsExtensionLookup(path: string)
    ensures DetectFormat(path) == FormatFromExtension(Suffix(path))
  {
    var suffix := Suffix(path);
    if suffix != [] {
      assert StartsWith(suffix, ".");
    } else {
      assert Dotted(suffix) == ".";
      assert Lower(".") == ".";
    }
  }

  /** A bare file name is detected by its extension. */
  lemma DetectFileName(stem: string, ext: string)
    requires stem != [] && ext != []
    requires '/' !in stem && '/' !in ext && '.' !in ext
    ensures DetectFormat(stem + "." + ext) == MappedFormat(Lower("." + ext))
  {
    SuffixOfFileName(stem, ext);
  }

  /** `Base_Mapper.can_convert`: the source format is in the table and lists the target. */
  function CanConvert(conversions: map<string, seq<string>>, source: string, target: string): (b: bool)
    ensures b <==> source in conversions && exists i :: 0 <= i < |conversions[source]| && conversions[source][i] == target
  {
    source in conversions && target in conversions[source]
  }

  /** `Content_Mapper.supported_conversions` */
  const MapperConversions: map<string, seq<string>> := map["latex" := ["pptx"], "pptx" := ["latex"]]

  /** The content mapper declares exactly LaTeX to PowerPoint and back. */
  lemma MapperConversionsExactly(source: string, target: string)
    ensures CanConvert(MapperConversions, source, target)
        <==> (source == "latex" && target == "pptx") || (source == "pptx" && target == "latex")
  {
  }

  /** `Power_Point_Builder.get_supported_extensions` */
  const PowerPointExtensions: seq<string> := [".pptx"]

  /** `validate_output_path`: the lower-cased suffix is one of the builder's extensions. */
  function ValidateOutputPath(extensions: seq<string>, path: string): (r: bool)
    ensures r <==> exists i :: 0 <= i < |extensions| && extensions[i] == Lower(Suffix(path))
  {
    Lower(Suffix(path)) in extensions
  }

  /** `validate_file`: the file exists and its lower-cased suffix is supported. Whether the
      file exists is a fact about the file system, so it is passed in. */
  function ValidateFile(fileExists: bool, extensions: seq<string>, path: string): (r: bool)
    ensures r <==> fileExists && ValidateOutputPath(extensions, path)
  {
    if !fileExists then false else Lower(Suffix(path)) in extensions
  }

  /** A path the PowerPoint builder accepts is one the detector calls PowerPoint. */
  lemma PowerPointOutputIsPptx(path: string)
    ensures ValidateOutputPath(PowerPointExtensions, path) ==> DetectFormat(path) == Some("pptx")
    ensures DetectFormat(path) == Some("pptx") && Lower(Suffix(path)) != ".ppt" ==> ValidateOutputPath(PowerPointExtensions, path)
  {
    assert ValidateOutputPath(PowerPointExtensions, path) <==> Lower(Suffix(path)) == ".pptx";
  }
}

=== FILE: latex_parser.dfy ===
/** `LaTeX_Parser.parse_string`: a Beamer source is cut into frame bodies, metadata is read
    from the preamble commands, and each frame body is scanned line by line into elements
    by a small state machine (the current itemize list and whether one is open). */
module LatexParser {
  import opened Wrappers
  import opened Values
  import opened Strings
  import opened Patterns
  import opened Universal

  /** `\begin{frame}`, kept as the backslash and the rest so that its characters after the
      first are known not to be backslashes. */
  const BeginFrameWord: string := "begin{frame}"
  const BeginFrame: string := "\\" + BeginFrameWord
  const EndFrame: string := "\\end{frame}"
  const BeginItemize: string := "\\begin{itemize}"
  const EndItemize: string := "\\end{itemize}"
  const TitlePage: string := "\\titlepage"

  /** `title_pattern`: `\\frametitle\{([^}]+)\}` under IGNORECASE. */
  const FrameTitlePattern: Pattern := Command("\\frametitle", true, true, false)
  /** `includegraphics_pattern`: the `[...]` options group is mandatory. */
  const ImagePattern: Pattern := CommandWithOptions("\\includegraphics")
  /** The braced-argument command a text line loses. */
  const ArgumentCommandPattern: Pattern := AnyCommandWithArgument

  // ---------------------------------------------------------------- frames

  /** A frame opens at `p` (the pattern is case-insensitive). */
  predicate OpensFrame(s: string, p: nat) {
    LiteralAt(s, p, BeginFrame, true)
  }

  /** Where the lazy body `(.*?)` of `frame_pattern` may stop: before `\end{frame}`, before
      the next `\begin{frame}`, or at `$`, which without MULTILINE matches at the end of the
      text and just before a final newline. */
  predicate BodyStops(s: string, q: nat) {
    || LiteralAt(s, q, EndFrame, true)
    || LiteralAt(s, q, BeginFrame, true)
    || q == |s|
    || (q + 1 == |s| && s[q] == '\n')
  }

  /** The first frame opening at or after `from`. */
  function NextOpen(s: string, from: nat): (r: Option<nat>)
    ensures r.Some? ==> from <= r.value && r.value + |BeginFrame| <= |s| && OpensFrame(s, r.value)
    ensures r.Some? ==> forall k :: from <= k < r.value ==> !OpensFrame(s, k)
    ensures r.None? ==> forall k :: from <= k ==> !OpensFrame(s, k)
    decreases |s| - from
  {
    if from >= |s| then None
    else if OpensFrame(s, from) then Some(from)
    else NextOpen(s, from + 1)
  }

  /** The end of the shortest body starting at `from`. */
  function BodyEnd(s: string, from: nat): (q: nat)
    requires from <= |s|
    ensures from <= q <= |s| && BodyStops(s, q)
    ensures forall k :: from <= k < q ==> !BodyStops(s, k)
    decreases |s| - from
  {
    if BodyStops(s, from) then from else BodyEnd(s, from + 1)
  }

  /** `frame_pattern.finditer(s, from)`, keeping group 1 of each match. Matching resumes
      where the body stopped, so a closing `\end{frame}` is skipped over by the search for
      the next opening. */
  function FramesFrom(s: string, from: nat): (bodies: seq<string>)
    decreases |s| - from
  {
    match NextOpen(s, from)
    case None => []
    case Some(p) =>
      var q := BodyEnd(s, p + |BeginFrame|);
      [s[p + |BeginFrame|..q]] + FramesFrom(s, q)
  }

  /** The body of the frame opening at `p`: the text after `\begin{frame}` up to the
      lazy stop. */
  function BodyAt(s: string, p: nat): string
    requires OpensFrame(s, p)
  {
    s[p + |BeginFrame|..BodyEnd(s, p + |BeginFrame|)]
  }

  /** `_extract_frames`: the bodies of the frames of a document, in source order. There is
      one per opening of a frame: the opening with `n` openings before it gives body `n`,
      the text from after it to the lazy stop. No body holds an opening or a closing. */
  function FrameBodies(s: string): (bodies: seq<string>)
    ensures |bodies| == CountOpens(s, 0)
    ensures forall p: nat :: OpensFrame(s, p)
              ==> 1 <= CountOpens(s, p) <= CountOpens(s, 0) && bodies[CountOpens(s, 0) - CountOpens(s, p)] == BodyAt(s, p)
    ensures forall i :: 0 <= i < |bodies| ==> CleanBody(bodies[i])
  {
    var bodies := FramesFrom(s, 0);
    FrameCount(s, 0);
    FrameBodiesClean(s, 0);
    FramesFromAll(s, 0);
    bodies
  }

  /** `FramesFromAt` for every opening at or after `from`. */
  lemma FramesFromAll(s: string, from: nat)
    ensures |FramesFrom(s, from)| == CountOpens(s, from)
    ensures forall p: nat :: from <= p && OpensFrame(s, p)
              ==> 1 <= CountOpens(s, p) <= CountOpens(s, from)
                  && FramesFrom(s, from)[CountOpens(s, from) - CountOpens(s, p)] == BodyAt(s, p)
  {
    FrameCount(s, from);
    forall p: nat | from <= p && OpensFrame(s, p)
      ensures 1 <= CountOpens(s, p) <= CountOpens(s, from)
              && FramesFrom(s, from)[CountOpens(s, from) - CountOpens(s, p)] == BodyAt(s, p)
    {
      FramesFromAt(s, from, p);
    }
  }

  /** Counting from further on finds no more openings. */
  lemma {:induction false} CountMonotone(s: string, a: nat, b: nat)
    requires a <= b
    ensures CountOpens(s, a) >= CountOpens(s, b)
    decreases b - a
  {
    if a < b && a < |s| {
      CountMonotone(s, a + 1, b);
    }
  }

  /** The scan from `from` gives every later opening's body, at the place given by the
      openings between `from` and it. */
  lemma {:induction false} FramesFromAt(s: string, from: nat, p: nat)
    requires from <= p && OpensFrame(s, p)
    ensures 1 <= CountOpens(s, p) <= CountOpens(s, from)
    ensures |FramesFrom(s, from)| == CountOpens(s, from)
    ensures FramesFrom(s, from)[CountOpens(s, from) - CountOpens(s, p)] == BodyAt(s, p)
    decreases |s| - from
  {
    FrameCount(s, from);
    OpeningCounted(s, from, p);
    var p0, q := ScanStep(s, from, p);
    if p0 != p {
      FramesFromAt(s, q, p);
      LaterBody(s, from, p, p0, q);
    }
  }

  /** The body of a later opening keeps its place, counted from the end, when the scan's
      first body is put in front of the rest. */
  lemma LaterBody(s: string, from: nat, p: nat, p0: nat, q: nat)
    requires OpensFrame(s, p) && OpensFrame(s, p0)
    requires FramesFrom(s, from) == [BodyAt(s, p0)] + FramesFrom(s, q)
    requires CountOpens(s, from) == 1 + CountOpens(s, q)
    requires |FramesFrom(s, q)| == CountOpens(s, q) && 1 <= CountOpens(s, p) <= CountOpens(s, q)
    requires FramesFrom(s, q)[CountOpens(s, q) - CountOpens(s, p)] == BodyAt(s, p)
    ensures FramesFrom(s, from)[CountOpens(s, from) - CountOpens(s, p)] == BodyAt(s, p)
  {
    IndexAfterFirst(FramesFrom(s, from), BodyAt(s, p0), FramesFrom(s, q), CountOpens(s, from), CountOpens(s, q), CountOpens(s, p), BodyAt(s, p));
  }

  /** In `[first] + rest`, the element `m` from the end of `rest` keeps its place from the end. */
  lemma IndexAfterFirst<T>(all: seq<T>, first: T, rest: seq<T>, total: nat, n: nat, m: nat, x: T)
    requires all == [first] + rest && |rest| == n && total == n + 1 && 1 <= m <= n && rest[n - m] == x
    ensures all[total - m] == x
  {
  }

  /** An opening at or after `from` is counted from `from`. */
  lemma OpeningCounted(s: string, from: nat, p: nat)
    requires from <= p && OpensFrame(s, p)
    ensures 1 <= CountOpens(s, p) <= CountOpens(s, from)
  {
    assert CountOpens(s, p) == 1 + CountOpens(s, p + 1);
    CountMonotone(s, from, p);
  }

  /** One step of the scan towards the opening at `p`: the first opening `p0`'s body, then
      the scan from where that body stopped, which has one opening fewer to find. Either
      `p0` is `p`, or `p` lies beyond that body. */
  lemma ScanStep(s: string, from: nat, p: nat) returns (p0: nat, q: nat)
    requires from <= p && OpensFrame(s, p)
    ensures OpensFrame(s, p0) && from < q <= |s|
    ensures FramesFrom(s, from) == [BodyAt(s, p0)] + FramesFrom(s, q)
    ensures CountOpens(s, from) == 1 + CountOpens(s, q)
    ensures p0 == p ==> CountOpens(s, from) == CountOpens(s, p)
    ensures p0 != p ==> q <= p
  {
    p0 := NextOpen(s, from).value;
    q := BodyEnd(s, p0 + |BeginFrame|);
    CountSkip(s, from, p0);
    assert CountOpens(s, p0) == 1 + CountOpens(s, p0 + 1);
    CountBody(s, p0);
    if p0 != p {
      OpeningAfterBody(s, p0, p);
    }
  }

  /** A later opening lies at or after the end of an earlier opening's body. */
  lemma OpeningAfterBody(s: string, p0: nat, p: nat)
    requires OpensFrame(s, p0) && OpensFrame(s, p) && p0 < p
    ensures BodyEnd(s, p0 + |BeginFrame|) <= p
  {
    if p < BodyEnd(s, p0 + |BeginFrame|) {
      NoOpeningInBody(s, p0, p);
    }
  }

  /** The number of places at or after `from` where a frame opens. */
  function CountOpens(s: string, from: nat): nat
    decreases |s| - from
  {
    if from >= |s| then 0 else (if OpensFrame(s, from) then 1 else 0) + CountOpens(s, from + 1)
  }

  /** Counting across a stretch without openings changes nothing. */
  lemma {:induction false} CountSkip(s: string, a: nat, b: nat)
    requires a <= b
    requires forall k :: a <= k < b ==> !OpensFrame(s, k)
    ensures CountOpens(s, a) == CountOpens(s, b)
    decreases b - a
  {
    if a < b && a < |s| {
      CountSkip(s, a + 1, b);
    }
  }

  /** An opening starts with a backslash. */
  lemma OpeningStartsWithBackslash(s: string, k: nat)
    ensures OpensFrame(s, k) ==> s[k] == '\\'
  {
    LiteralAtChar(s, k, BeginFrame, 0);
  }

  /** Two openings never overlap: the backslash that starts one cannot be a character of another. */
  lemma OpeningsDisjoint(s: string, p: nat, k: nat)
    requires OpensFrame(s, p) && p < k < p + |BeginFrame|
    ensures !OpensFrame(s, k)
  {
    LiteralAtChar(s, p, BeginFrame, k - p);
    assert BeginFrame[k - p] == BeginFrameWord[k - p - 1];
    assert '\\' !in BeginFrameWord;
    assert LowerChar(s[k]) != '\\';
    OpeningStartsWithBackslash(s, k);
  }

  /** Inside a body no frame opens. */
  lemma NoOpeningInBody(s: string, p: nat, k: nat)
    requires OpensFrame(s, p) && p < k < BodyEnd(s, p + |BeginFrame|)
    ensures !OpensFrame(s, k)
  {
    if k < p + |BeginFrame| {
      OpeningsDisjoint(s, p, k);
    } else {
      assert !BodyStops(s, k);
    }
  }

  /** Every opening of a frame, in any letter case, starts exactly one frame body: the
      bodies are counted by the openings, unclosed frames included. */
  lemma {:induction false} FrameCount(s: string, from: nat)
    ensures |FramesFrom(s, from)| == CountOpens(s, from)
    decreases |s| - from
  {
    match NextOpen(s, from)
    case None =>
      if from < |s| {
        CountSkip(s, from, |s|);
      }
    case Some(p) =>
      var q := BodyEnd(s, p + |BeginFrame|);
      assert FramesFrom(s, from) == [s[p + |BeginFrame|..q]] + FramesFrom(s, q);
      CountSkip(s, from, p);
      assert CountOpens(s, p) == 1 + CountOpens(s, p + 1);
      CountBody(s, p);
      FrameCount(s, q);
  }

  /** The openings counted from just after an opening are those after its body. */
  lemma CountBody(s: string, p: nat)
    requires OpensFrame(s, p)
    ensures CountOpens(s, p + 1) == CountOpens(s, BodyEnd(s, p + |BeginFrame|))
  {
    var q := BodyEnd(s, p + |BeginFrame|);
    forall k | p + 1 <= k < q ensures !OpensFrame(s, k) {
      NoOpeningInBody(s, p, k);
    }
    CountSkip(s, p + 1, q);
  }

  /** A literal found in a slice is found in the whole text, shifted by the slice's start. */
  lemma LiteralAtSlice(s: string, a: nat, b: nat, k: nat, lit: string, ci: bool)
    requires a <= b <= |s| && LiteralAt(s[a..b], k, lit, ci)
    ensures LiteralAt(s, a + k, lit, ci)
  {
    var u := s[a..b][k..k + |lit|];
    var v := s[a + k..a + k + |lit|];
    forall j | 0 <= j < |u| ensures u[j] == v[j] {
    }
    assert u == v;
  }

  /** The text holds neither an opening nor a closing of a frame, in any letter case. */
  predicate CleanBody(body: string) {
    forall k :: 0 <= k < |body| ==> !LiteralAt(body, k, BeginFrame, true) && !LiteralAt(body, k, EndFrame, true)
  }

  /** One body holds neither an opening nor a closing of a frame. */
  lemma BodyClean(s: string, start: nat)
    requires start <= |s|
    ensures CleanBody(s[start..BodyEnd(s, start)])
  {
    var q := BodyEnd(s, start);
    var body := s[start..q];
    forall k | 0 <= k < |body| ensures !LiteralAt(body, k, BeginFrame, true) && !LiteralAt(body, k, EndFrame, true) {
      assert !BodyStops(s, start + k);
      if LiteralAt(body, k, BeginFrame, true) {
        LiteralAtSlice(s, start, q, k, BeginFrame, true);
      }
      if LiteralAt(body, k, EndFrame, true) {
        LiteralAtSlice(s, start, q, k, EndFrame, true);
      }
    }
  }

  /** No frame body contains an opening or a closing of a frame. */
  lemma {:induction false} FrameBodiesClean(s: string, from: nat)
    ensures forall i :: 0 <= i < |FramesFrom(s, from)| ==> CleanBody(FramesFrom(s, from)[i])
    decreases |s| - from
  {
    match NextOpen(s, from)
    case None =>
    case Some(p) =>
      var start := p + |BeginFrame|;
      var q := BodyEnd(s, start);
      var body := s[start..q];
      BodyClean(s, start);
      FrameBodiesClean(s, q);
      var rest := FramesFrom(s, q);
      assert FramesFrom(s, from) == [body] + rest;
  }

  // ---------------------------------------------------------------- metadata

  /** `re.search(r'\\name\{([^}]+)\}', content, re.IGNORECASE)`, its group stripped. */
  function CommandArgument(content: string, name: string): (r: Option<string>)
    ensures r.Some? <==> Search(Command(name, true, true, false), content, 0).Some?
    ensures r.Some? ==> r.value == Strip(Search(Command(name, true, true, false), content, 0).value.m.group)
  {
    match Search(Command(name, true, true, false), content, 0)
    case Some(f) => Some(Strip(f.m.group))
    case None => None
  }

  /** `\documentclass[...]{x}`: the options group is mandatory in the pattern. */
  const DocumentClassPattern: Pattern := CommandWithOptions("\\documentclass")

  /** `_extract_metadata`: title, author and date from the first match of their command,
      stripped; the document class, when given with options, as a custom property. */
  function ExtractMetadata(content: string): (m: Metadata)
    ensures m.title == CommandArgument(content, "\\title")
    ensures m.author == CommandArgument(content, "\\author")
    ensures m.date == CommandArgument(content, "\\date")
    ensures "documentclass" in m.customProperties <==> Search(DocumentClassPattern, content, 0).Some?
    ensures Search(DocumentClassPattern, content, 0).Some?
            ==> m.customProperties["documentclass"] == Str(Strip(Search(DocumentClassPattern, content, 0).value.m.group))
    ensures m.customProperties.Keys <= {"documentclass"}
    ensures m.institution.None? && m.keywords == [] && m.subject.None?
    ensures m.language.None? && m.version.None? && m.createdDate.None? && m.modifiedDate.None?
  {
    var custom := match Search(DocumentClassPattern, content, 0)
      case Some(f) => map["documentclass" := Str(Strip(f.m.group))]
      case None => map[];
    NewMetadata().(title := CommandArgument(content, "\\title"),
                   author := CommandArgument(content, "\\author"),
                   date := CommandArgument(content, "\\date"),
                   customProperties := custom)
  }

  /** A command at the very start of the text is the one whose argument is taken. */
  lemma CommandArgumentAtStart(name: string, arg: string, rest: string)
    requires name != [] && arg != [] && '}' !in arg
    ensures CommandArgument(name + "{" + arg + "}" + rest, name) == Some(Strip(arg))
  {
    var s := name + "{" + arg + "}" + rest;
    CommandMatchAtStart(name, arg, rest);
    assert Search(Command(name, true, true, false), s, 0) == Some(Found(0, Match(|name| + |arg| + 2, arg)));
  }

  /** The command pattern matches at the start of `name{arg}...`, capturing `arg`. */
  lemma CommandMatchAtStart(name: string, arg: string, rest: string)
    requires name != [] && arg != [] && '}' !in arg
    ensures MatchAt(Command(name, true, true, false), name + "{" + arg + "}" + rest, 0)
         == Some(Match(|name| + |arg| + 2, arg))
  {
    var s := name + "{" + arg + "}" + rest;
    assert StartsWith(s, name) by {
      assert s[..|name|] == name;
    }
    LiteralAtStart(s, name, true);
    BracedArgument(name, arg, rest);
  }

  /** After the command name comes the braced argument. */
  lemma BracedArgument(name: string, arg: string, rest: string)
    requires '}' !in arg
    ensures BracedAt(name + "{" + arg + "}" + rest, |name|, true, false)
         == if arg == [] then None else Some(Match(|name| + |arg| + 2, arg))
  {
    var s := name + "{" + arg + "}" + rest;
    var open := |name|;
    assert s[open] == '{';
    forall k | open + 1 <= k < open + 1 + |arg| ensures s[k] != '}' {
      assert s[k] == arg[k - open - 1];
    }
    assert s[open + 1 + |arg|] == '}';
    IndexOfFirst(s, open + 1, '}', open + 1 + |arg|);
    assert s[open + 1..open + 1 + |arg|] == arg;
  }

  /** Without a `[`, the document class is never recorded. */
  lemma DocumentClassNeedsOptions(content: string)
    requires '[' !in content
    ensures "documentclass" !in ExtractMetadata(content).customProperties
  {
    NoOptionsNoMatch("\\documentclass", content);
  }

  // ---------------------------------------------------------------- list items

  /** The index just past the run of non-newline characters starting at `j`. */
  function LineEnd(s: string, j: nat): (e: nat)
    requires j <= |s|
    ensures j <= e <= |s| && '\n' !in s[j..e]
    ensures e == |s| || s[e] == '\n'
  {
    match IndexOf(s, j, '\n')
    case Some(n) => n
    case None => |s|
  }

  /** Where `(.+)` can start once `\s+` has given back characters: the last position at or
      before `j` (and after at least one whitespace character) that is not a newline. */
  function ItemGroupStart(s: string, j: nat): (r: Option<nat>)
    ensures r.Some? ==> 6 <= r.value <= j && r.value < |s| && s[r.value] != '\n'
    decreases j
  {
    if j < 6 then None
    else if j < |s| && s[j] != '\n' then Some(j)
    else ItemGroupStart(s, j - 1)
  }

  /** `itemize_pattern.match(line)` for `\\item\s+(.+)` under IGNORECASE: the first group.
      The greedy `\s+` takes the whole run of whitespace after `\item`, giving characters
      back only when `.+` could not otherwise match at least one character. */
  function ItemText(line: string): (r: Option<string>)
    ensures r.Some? ==> r.value != [] && '\n' !in r.value
    ensures r.Some? ==> LiteralAt(line, 0, "\\item", true)
  {
    if LiteralAt(line, 0, "\\item", true) then
      match ItemGroupStart(line, SpacesEnd(line, 5))
      case Some(j) => Some(line[j..LineEnd(line, j)])
      case None => None
    else None
  }

  /** An item line is `\item`, some whitespace, and the text; the text is the group. */
  lemma ItemTextOfItemLine(space: string, text: string)
    requires space != [] && IsBlank(space)
    requires text != [] && !IsSpace(text[0]) && '\n' !in text
    ensures ItemText("\\item" + space + text) == Some(text)
  {
    var line := "\\item" + space + text;
    var e := 5 + |space|;
    assert line[..5] == "\\item";
    LiteralAtStart(line, "\\item", true);
    assert line[e] == text[0];
    forall k | 5 <= k < e ensures IsSpace(line[k]) {
      assert line[k] == space[k - 5];
    }
    SpacesEndExact(line, 5, e);
    assert ItemGroupStart(line, e) == Some(e);
    var n := LineEnd(line, e);
    assert line[e..] == text;
    assert line[e..n] == text;
  }

  /** A line that is not an item line contributes no item. */
  lemma NoItemWithoutMarker(line: string)
    requires line == [] || line[0] != '\\' || (|line| >= 2 && LowerChar(line[1]) != 'i')
    ensures ItemText(line).None?
  {
    LiteralAtChar(line, 0, "\\item", 0);
    LiteralAtChar(line, 0, "\\item", 1);
  }

  // ---------------------------------------------------------------- lines

  /** A text line with its braced-argument commands deleted, then every remaining brace,
      then stripped. */
  function CleanText(line: string): (r: string)
    ensures '{' !in r && '}' !in r
    ensures r == [] || (!IsSpace(r[0]) && !IsSpace(r[|r| - 1]))
  {
    var withoutCommands := Sub(ArgumentCommandPattern, Constant(""), line);
    var withoutBraces := Sub(AnyBrace, Constant(""), withoutCommands);
    SubBraces(withoutCommands);
    Strip(withoutBraces)
  }

  /** The scanner's state: the elements so far, the items of the open list, whether a list is open. */
  datatype ScanState = ScanState(elements: seq<Element>, items: seq<string>, inItemize: bool)

  const Start: ScanState := ScanState([], [], false)

  /** Items accumulate only inside a list. */
  predicate Quiet(st: ScanState) {
    !st.inItemize ==> st.items == []
  }

  /** A TITLE can only be the first element, and only on a title slide; every element is
      one of the four kinds the scanner makes. */
  predicate WellScanned(es: seq<Element>, layout: LayoutType) {
    && (forall i :: 0 <= i < |es| && es[i].elementType == Title ==> i == 0 && layout == TitleSlide)
    && (forall i :: 0 <= i < |es| ==> es[i].elementType in {Text, Title, Itemize, Image})
  }

  /** An element the scanner may append after `es`: one of its four kinds, and a TITLE only
      as the first element of a title slide. */
  predicate Admissible(e: Element, es: seq<Element>, layout: LayoutType) {
    && e.elementType in {Text, Title, Itemize, Image}
    && (e.elementType == Title ==> es == [] && layout == TitleSlide)
  }

  /** Appending an admissible element keeps the element list well scanned. */
  lemma AdmissibleAppend(es: seq<Element>, e: Element, layout: LayoutType)
    requires WellScanned(es, layout) && Admissible(e, es, layout)
    ensures WellScanned(es + [e], layout)
  {
  }

  /** One step keeps the element list well scanned. */
  lemma StepWellScanned(st: ScanState, raw: string, layout: LayoutType)
    ensures WellScanned(st.elements, layout) ==> WellScanned(Step(st, raw, layout).elements, layout)
  {
    var r := Step(st, raw, layout);
    if !WellScanned(st.elements, layout) {
    } else if |r.elements| > |st.elements| {
      assert r.elements == st.elements + [r.elements[|st.elements|]];
      AdmissibleAppend(st.elements, r.elements[|st.elements|], layout);
    } else {
      assert r.elements == st.elements;
    }
  }

  /** The line is ignored outright: blank, or a `%` comment. */
  predicate IgnoredLine(raw: string) {
    Strip(raw) == [] || StartsWith(Strip(raw), "%")
  }

  /** One iteration of the loop of `_parse_elements` on a raw line. */
  function Step(st: ScanState, raw: string, layout: LayoutType): (r: ScanState)
    ensures |st.elements| <= |r.elements| <= |st.elements| + 1
    ensures r.elements[..|st.elements|] == st.elements
    ensures Quiet(st) ==> Quiet(r)
    ensures |r.elements| > |st.elements| ==> Admissible(r.elements[|st.elements|], st.elements, layout)
    ensures IgnoredLine(raw) ==> r == st
  {
    var line := Strip(raw);
    if line == [] || StartsWith(line, "%") then st
    else if StartsWith(line, BeginItemize) then st.(inItemize := true)
    else if StartsWith(line, EndItemize) then
      ScanState(if st.items != [] then st.elements + [CreateItemizeElement(st.items, DefaultItemizeLevel)] else st.elements,
                [], false)
    else if st.inItemize then
      match ItemText(line)
      case Some(t) => st.(items := st.items + [Strip(t)])
      case None => st
    else
      match Search(ImagePattern, line, 0)
      case Some(f) => st.(elements := st.elements + [CreateImageElement(Strip(f.m.group), None, None, None)])
      case None =>
        if Search(FrameTitlePattern, line, 0).Some? then st
        else
          var text := CleanText(line);
          if text != [] && !StartsWith(text, "\\") then
            st.(elements := st.elements + [CreateTextElement(text, TextKind(st, layout), [])])
          else st
  }

  /** The type of a text line's element: TITLE for the first element of a title slide. */
  function TextKind(st: ScanState, layout: LayoutType): (t: ElementType)
    ensures t == Title <==> layout == TitleSlide && st.elements == []
    ensures t != Title ==> t == Text
  {
    if layout == TitleSlide && st.elements == [] then Title else Text
  }

  /** The loop of `_parse_elements` over a run of lines. */
  function Run(st: ScanState, lines: seq<string>, layout: LayoutType): (r: ScanState)
    ensures |st.elements| <= |r.elements| <= |st.elements| + |lines|
    ensures r.elements[..|st.elements|] == st.elements
    ensures Quiet(st) ==> Quiet(r)
    ensures WellScanned(st.elements, layout) ==> WellScanned(r.elements, layout)
    decreases |lines|
  {
    if lines == [] then st
    else
      var next := Step(st, lines[0], layout);
      StepWellScanned(st, lines[0], layout);
      var r := Run(next, lines[1..], layout);
      assert r.elements[..|st.elements|] == r.elements[..|next.elements|][..|st.elements|];
      r
  }

  /** Scanning two runs of lines one after the other is scanning their concatenation. */
  lemma {:induction false} RunAppend(st: ScanState, a: seq<string>, b: seq<string>, layout: LayoutType)
    ensures Run(st, a + b, layout) == Run(Run(st, a, layout), b, layout)
    decreases |a|
  {
    if a == [] {
      assert a + b == b;
    } else {
      assert (a + b)[0] == a[0];
      assert (a + b)[1..] == a[1..] + b;
      RunAppend(Step(st, a[0], layout), a[1..], b, layout);
    }
  }

  /** `_parse_elements`: the elements a frame body yields under a layout. */
  function ParseElements(body: string, layout: LayoutType): (es: seq<Element>)
    ensures |es| <= |Split(body, '\n')|
    ensures WellScanned(es, layout)
  {
    Run(Start, Split(body, '\n'), layout).elements
  }

  /** The item text a raw line contributes inside a list: nothing for an ignored line or a
      nested opening, otherwise the stripped group of an item line. */
  function ItemOf(raw: string): (r: seq<string>)
    ensures |r| <= 1
    ensures r != [] ==> r[0] == Strip(r[0]) && ItemText(Strip(raw)).Some?
  {
    if IgnoredLine(raw) || StartsWith(Strip(raw), BeginItemize) then []
    else
      match ItemText(Strip(raw))
      case Some(t) => StripIdempotent(t); [Strip(t)]
      case None => []
  }

  /** The stripped item texts a run of lines inside a list contributes, in order. */
  function ItemsOf(lines: seq<string>): seq<string> {
    if lines == [] then [] else ItemOf(lines[0]) + ItemsOf(lines[1..])
  }

  /** Inside a list, a line that does not close it adds its item text, if any, and
      changes nothing else. */
  lemma StepInList(st: ScanState, raw: string, layout: LayoutType)
    requires st.inItemize && !StartsWith(Strip(raw), EndItemize)
    ensures Step(st, raw, layout) == st.(items := st.items + ItemOf(raw))
  {
    if !IgnoredLine(raw) && StartsWith(Strip(raw), BeginItemize) {
      assert st.items + [] == st.items;
    }
  }

  /** Inside a list, every line that does not close it adds its item text, if it has one,
      and nothing else happens. */
  lemma {:induction false} ListBody(st: ScanState, lines: seq<string>, layout: LayoutType)
    requires st.inItemize
    requires forall i :: 0 <= i < |lines| ==> !StartsWith(Strip(lines[i]), EndItemize)
    ensures Run(st, lines, layout) == st.(items := st.items + ItemsOf(lines))
    decreases |lines|
  {
    if lines == [] {
      assert st.items + [] == st.items;
    } else {
      StepInList(st, lines[0], layout);
      var next := st.(items := st.items + ItemOf(lines[0]));
      assert Run(st, lines, layout) == Run(next, lines[1..], layout);
      ListBody(next, lines[1..], layout);
      ConcatAssoc(st.items, ItemOf(lines[0]), ItemsOf(lines[1..]));
    }
  }

  /** Opening a list only marks it open. */
  lemma StepOpenList(st: ScanState, open: string, layout: LayoutType)
    requires StartsWith(Strip(open), BeginItemize)
    ensures Step(st, open, layout) == st.(inItemize := true)
  {
    assert Strip(open)[0] == '\\';
  }

  /** Closing a list emits its items as one ITEMIZE when there are any, and empties it. */
  lemma StepCloseList(st: ScanState, close: string, layout: LayoutType)
    requires StartsWith(Strip(close), EndItemize)
    ensures Step(st, close, layout).elements
         == st.elements + (if st.items == [] then [] else [CreateItemizeElement(st.items, DefaultItemizeLevel)])
    ensures Step(st, close, layout).items == [] && !Step(st, close, layout).inItemize
  {
    var line := Strip(close);
    StartsWithChar(line, EndItemize, 0);
    StartsWithChar(line, EndItemize, 1);
    StartsWithChar(line, BeginItemize, 1);
    StartsWithChar(line, "%", 0);
  }

  /** A closed list: the opening line, lines that do not close it, and the closing line
      emit exactly one ITEMIZE holding the item texts in order, or nothing when there are
      none; the list is then closed and empty. */
  lemma ItemizeBlock(st: ScanState, open: string, lines: seq<string>, close: string, layout: LayoutType)
    requires !st.inItemize && st.items == []
    requires StartsWith(Strip(open), BeginItemize) && StartsWith(Strip(close), EndItemize)
    requires forall i :: 0 <= i < |lines| ==> !StartsWith(Strip(lines[i]), EndItemize)
    ensures var r := Run(st, [open] + lines + [close], layout);
      && r.elements == st.elements + (if ItemsOf(lines) == [] then [] else [CreateItemizeElement(ItemsOf(lines), DefaultItemizeLevel)])
      && r.items == [] && !r.inItemize
  {
    StepOpenList(st, open, layout);
    var started := st.(inItemize := true);
    assert Run(st, [open], layout) == Run(started, [], layout);
    ListBody(started, lines, layout);
    RunAppend(st, [open], lines, layout);
    RunAppend(st, [open] + lines, [close], layout);
    var filled := Run(st, [open] + lines, layout);
    assert filled == started.(items := ItemsOf(lines));
    StepCloseList(filled, close, layout);
    assert Run(filled, [close], layout) == Run(Step(filled, close, layout), [], layout);
  }

  /** A list that is never closed emits nothing: its items are still pending when the
      lines run out. */
  lemma UnclosedList(st: ScanState, open: string, lines: seq<string>, layout: LayoutType)
    requires StartsWith(Strip(open), BeginItemize)
    requires forall i :: 0 <= i < |lines| ==> !StartsWith(Strip(lines[i]), EndItemize)
    ensures Run(st, [open] + lines, layout).elements == st.elements
  {
    StepOpenList(st, open, layout);
    var started := st.(inItemize := true);
    assert Run(st, [open], layout) == Run(started, [], layout);
    ListBody(started, lines, layout);
    RunAppend(st, [open], lines, layout);
  }

  /** A line outside a list that is not a list boundary or a comment. */
  predicate ContentLine(st: ScanState, raw: string) {
    var line := Strip(raw);
    && !st.inItemize && line != [] && !StartsWith(line, "%")
    && !StartsWith(line, BeginItemize) && !StartsWith(line, EndItemize)
  }

  /** A content line holding `\includegraphics[...]{path}` adds one IMAGE with the stripped
      path and no caption, wherever on the line the command stands. */
  lemma ImageLine(st: ScanState, raw: string, layout: LayoutType)
    requires ContentLine(st, raw)
    requires Search(ImagePattern, Strip(raw), 0).Some?
    ensures var path := Strip(Search(ImagePattern, Strip(raw), 0).value.m.group);
      && Step(st, raw, layout).elements == st.elements + [CreateImageElement(path, None, None, None)]
      && path == Strip(path) && '}' !in path
  {
    var g := Search(ImagePattern, Strip(raw), 0).value.m.group;
    assert Step(st, raw, layout) == st.(elements := st.elements + [CreateImageElement(Strip(g), None, None, None)]);
    StrippedPath(g);
  }

  /** A stripped group without a closing brace is stripped and has none either. */
  lemma StrippedPath(g: string)
    requires '}' !in g
    ensures Strip(g) == Strip(Strip(g)) && '}' !in Strip(g)
  {
    StripIdempotent(g);
    var path := Strip(g);
    forall k | 0 <= k < |path| ensures path[k] != '}' {
      assert path[k] in g;
    }
  }

  /** Without a `[` on the line, `\includegraphics{path}` is not an image. */
  lemma NoImageWithoutOptions(line: string)
    requires '[' !in line
    ensures Search(ImagePattern, line, 0).None?
  {
    NoOptionsNoMatch("\\includegraphics", line);
  }

  /** A content line naming a frame title (and no image) produces nothing. */
  lemma FrameTitleLineSilent(st: ScanState, raw: string, layout: LayoutType)
    requires ContentLine(st, raw)
    requires Search(ImagePattern, Strip(raw), 0).None?
    requires Search(FrameTitlePattern, Strip(raw), 0).Some?
    ensures Step(st, raw, layout) == st
  {
  }

  /** Any other content line becomes one TEXT element holding its cleaned text, or a TITLE
      when it is the first element of a title slide, provided the cleaned text is non-empty
      and does not start with a backslash; otherwise it produces nothing. */
  lemma TextLine(st: ScanState, raw: string, layout: LayoutType)
    requires ContentLine(st, raw)
    requires Search(ImagePattern, Strip(raw), 0).None?
    requires Search(FrameTitlePattern, Strip(raw), 0).None?
    ensures var text := CleanText(Strip(raw));
      var r := Step(st, raw, layout);
      && (text != [] && !StartsWith(text, "\\") ==>
            |r.elements| == |st.elements| + 1
            && ToTextContent(r.elements[|st.elements|]) == Some(TextContent(text, [], None, None, None))
            && (r.elements[|st.elements|].elementType == Title <==> layout == TitleSlide && st.elements == [])
            && '{' !in text && '}' !in text)
      && (text == [] || StartsWith(text, "\\") ==> r == st)
  {
  }

  /** Every line produces at most one element, and elements appear in line order: the
      elements of a body are those of its first lines followed by those the rest adds. */
  lemma ElementsInLineOrder(body: string, layout: LayoutType, n: nat)
    requires n <= |Split(body, '\n')|
    ensures var lines := Split(body, '\n');
      var before := Run(Start, lines[..n], layout).elements;
      && |before| <= |ParseElements(body, layout)|
      && ParseElements(body, layout)[..|before|] == before
      && |ParseElements(body, layout)| <= |before| + (|lines| - n)
  {
    var lines := Split(body, '\n');
    assert lines == lines[..n] + lines[n..];
    RunAppend(Start, lines[..n], lines[n..], layout);
  }

  // ---------------------------------------------------------------- frames and documents

  /** The layout `_parse_frame` picks: a frame with a title is TITLE_AND_CONTENT; an
      untitled first frame showing the title page is TITLE_SLIDE; otherwise the default. */
  function FrameLayout(body: string, number: int): (l: LayoutType)
    ensures l == TitleSlide <==> Search(FrameTitlePattern, body, 0).None? && number == 1 && Contains(body, TitlePage)
    ensures l != TitleSlide ==> l == TitleAndContent
  {
    if Search(FrameTitlePattern, body, 0).Some? then TitleAndContent
    else if number == 1 && Contains(body, TitlePage) then TitleSlide
    else TitleAndContent
  }

  /** `_parse_frame` */
  function ParseFrame(body: string, number: int): (f: Frame)
    ensures f.number == number
    ensures f.title.Some? <==> Search(FrameTitlePattern, body, 0).Some?
    ensures f.title.Some? ==> f.title.value == Strip(Search(FrameTitlePattern, body, 0).value.m.group)
    ensures f.layout == FrameLayout(body, number)
    ensures f.elements == ParseElements(body, f.layout)
    ensures f.subtitle.None? && f.backgroundColor.None? && f.notes.None? && f.metadata == map[]
  {
    var title := match Search(FrameTitlePattern, body, 0)
      case Some(m) => Some(Strip(m.m.group))
      case None => None;
    var layout := FrameLayout(body, number);
    NewFrame(number).(title := title, layout := layout, elements := ParseElements(body, layout))
  }

  /** A frame title must be non-empty: `\frametitle{}` is no title. */
  lemma EmptyFrameTitleIgnored(rest: string)
    ensures MatchAt(FrameTitlePattern, "\\frametitle{}" + rest, 0).None?
  {
    var s := "\\frametitle{}" + rest;
    assert s[12] == '}';
    IndexOfFirst(s, 12, '}', 12);
  }

  /** `parse_string`: metadata from the whole text, one frame per opening of a frame in
      source order numbered from 1, and the source format `latex`. */
  function ParseString(content: string): (d: Document)
    ensures d.sourceFormat == Some("latex") && d.sourcePath.None? && d.globalSettings == map[]
    ensures d.metadata == ExtractMetadata(content)
    ensures |d.frames| == |FrameBodies(content)| == CountOpens(content, 0)
    ensures forall i :: 0 <= i < |d.frames| ==> d.frames[i].number == i + 1
    ensures forall i :: 0 <= i < |d.frames| ==> d.frames[i] == ParseFrame(FrameBodies(content)[i], i + 1)
  {
    FrameCount(content, 0);
    Document(ExtractMetadata(content), ParseFrames(FrameBodies(content), 1), Some("latex"), None, map[])
  }

  /** Each body parsed as a frame, numbered in order from `first`. */
  function ParseFrames(bodies: seq<string>, first: int): (frames: seq<Frame>)
    ensures |frames| == |bodies|
    ensures forall i :: 0 <= i < |bodies| ==> frames[i] == ParseFrame(bodies[i], first + i)
  {
    Numbered(bodies, first, ParseFrame)
  }

  /** `f` applied to each element and its number, counting from `first`. */
  function Numbered<T, U>(xs: seq<T>, first: int, f: (T, int) -> U): (ys: seq<U>)
    ensures |ys| == |xs|
    ensures forall i :: 0 <= i < |xs| ==> ys[i] == f(xs[i], first + i)
  {
    seq(|xs|, i requires 0 <= i < |xs| => f(xs[i], first + i))
  }

  /** Only the first frame can be a title slide: a later frame has a number above 1. */
  lemma OnlyFirstFrameTitleSlide(content: string, i: nat)
    requires 0 < i < |ParseString(content).frames|
    ensures ParseString(content).frames[i].layout == TitleAndContent
  {
  }
}

=== FILE: latex_to_html.dfy ===
/** `tools/pptx_to_tex/latex_to_pptx.py`: the text work of the Beamer-to-PowerPoint tool
    before pandoc is called: cutting the frames out of a `.tex` text, reading the title and
    author, choosing each frame's heading, and turning a frame body into HTML. */
module LatexToHtml {
  import opened Wrappers
  import opened Strings
  import opened Patterns

  const BeginFrame: string := "\\begin{frame}"
  const EndFrame: string := "\\end{frame}"

  // ---------------------------------------------------------------- frames

  /** Where a frame match puts its body: `s[bodyStart..bodyEnd]`, followed by the closing
      `\end{frame}`. */
  datatype FrameSpan = FrameSpan(bodyStart: nat, bodyEnd: nat)

  /** The match ends just past the closing `\end{frame}`. */
  function MatchEnd(f: FrameSpan): nat {
    f.bodyEnd + |EndFrame|
  }

  /** `\s*(.*?)\\end\{frame\}` (DOTALL) from `q`: the body runs from the end of the
      whitespace to the first `\end{frame}`. Giving back whitespace cannot help, since
      `\end{frame}` does not start with whitespace. */
  function BodyFrom(s: string, q: nat): (r: Option<FrameSpan>)
    requires q <= |s|
    ensures r.Some? ==> r.value.bodyStart == SpacesEnd(s, q) <= r.value.bodyEnd
    ensures r.Some? ==> LiteralAt(s, r.value.bodyEnd, EndFrame, false)
    ensures r.Some? ==> forall k :: r.value.bodyStart <= k < r.value.bodyEnd ==> !LiteralAt(s, k, EndFrame, false)
    ensures r.None? ==> forall k :: SpacesEnd(s, q) <= k <= |s| ==> !LiteralAt(s, k, EndFrame, false)
  {
    var start := SpacesEnd(s, q);
    EndFrameMatches(s);
    match Search(Literal(EndFrame), s, start)
    case Some(f) => Some(FrameSpan(start, f.start))
    case None => None
  }

  /** The literal pattern `\end{frame}` matches exactly where the text has one. */
  lemma EndFrameMatches(s: string)
    ensures forall k :: MatchAt(Literal(EndFrame), s, k).Some? <==> LiteralAt(s, k, EndFrame, false)
  {
  }

  /** `\\begin\{frame\}(?:\[[^\]]*\])?\s*(.*?)\\end\{frame\}` (DOTALL) at `p`. The options
      group is tried first; only when no `\end{frame}` follows it does the match fall back
      to reading the `[` as part of the body. */
  function FrameAt(s: string, p: nat): (r: Option<FrameSpan>)
    ensures r.Some? ==> LiteralAt(s, p, BeginFrame, false) && LiteralAt(s, r.value.bodyEnd, EndFrame, false)
    ensures r.Some? ==> p + |BeginFrame| <= r.value.bodyStart <= r.value.bodyEnd
    ensures r.Some? ==> forall k :: r.value.bodyStart <= k < r.value.bodyEnd ==> !LiteralAt(s, k, EndFrame, false)
  {
    if !LiteralAt(s, p, BeginFrame, false) then None
    else
      var a := p + |BeginFrame|;
      var withOptions := if BracketEnd(s, a).Some? then BodyFrom(s, BracketEnd(s, a).value) else None;
      if withOptions.Some? then withOptions else BodyFrom(s, a)
  }

  /** `re.findall` of the frame pattern from `from` on: a match contributes its body and
      scanning resumes after it. */
  function FramesFrom(s: string, from: nat): (r: seq<string>)
    decreases |s| + 1 - from
  {
    if from > |s| then []
    else match FrameAt(s, from)
      case Some(f) => [s[f.bodyStart..f.bodyEnd]] + FramesFrom(s, MatchEnd(f))
      case None => FramesFrom(s, from + 1)
  }

  /** Line 20: the frame bodies of `extract_frames_from_tex`, in order; none of them holds
      an `\end{frame}`. */
  function ExtractFrames(content: string): (r: seq<string>)
    ensures forall i :: 0 <= i < |r| ==> !Contains(r[i], EndFrame)
  {
    FramesAllStopAtEnd(content, 0);
    FramesFrom(content, 0)
  }

  /** `FramesStopAtEnd` for every body at once. */
  lemma FramesAllStopAtEnd(s: string, from: nat)
    ensures forall i :: 0 <= i < |FramesFrom(s, from)| ==> !Contains(FramesFrom(s, from)[i], EndFrame)
  {
    forall i | 0 <= i < |FramesFrom(s, from)| ensures !Contains(FramesFrom(s, from)[i], EndFrame) {
      FramesStopAtEnd(s, from, i);
    }
  }

  /** No frame body contains `\end{frame}`: each stops at the first one. */
  lemma {:induction false} FramesStopAtEnd(s: string, from: nat, i: nat)
    requires i < |FramesFrom(s, from)|
    ensures !Contains(FramesFrom(s, from)[i], EndFrame)
    decreases |s| + 1 - from
  {
    assert from <= |s|;
    match FrameAt(s, from)
    case Some(f) =>
      var rest := FramesFrom(s, MatchEnd(f));
      assert FramesFrom(s, from) == [s[f.bodyStart..f.bodyEnd]] + rest;
      if i == 0 {
        BodyHasNoEnd(s, from);
      } else {
        assert FramesFrom(s, from)[i] == rest[i - 1];
        FramesStopAtEnd(s, MatchEnd(f), i - 1);
      }
    case None =>
      assert FramesFrom(s, from) == FramesFrom(s, from + 1);
      FramesStopAtEnd(s, from + 1, i);
  }

  /** The body a frame match captures holds no `\end{frame}`. */
  lemma BodyHasNoEnd(s: string, p: nat)
    requires FrameAt(s, p).Some?
    ensures !Contains(s[FrameAt(s, p).value.bodyStart..FrameAt(s, p).value.bodyEnd], EndFrame)
  {
    var f := FrameAt(s, p).value;
    var body := s[f.bodyStart..f.bodyEnd];
    if Contains(body, EndFrame) {
      var k := ContainsAt(body, EndFrame);
      SliceOccurrence(s, f.bodyStart, body, k, EndFrame);
    }
  }

  /** An occurrence of `t` in a slice of `s` is an occurrence in `s`. */
  lemma SliceOccurrence(s: string, a: nat, body: string, k: nat, t: string)
    requires a + |body| <= |s| && s[a..a + |body|] == body
    requires k + |t| <= |body| && body[k..k + |t|] == t
    ensures LiteralAt(s, a + k, t, false)
  {
    forall i | 0 <= i < |t| ensures s[a + k..a + k + |t|][i] == t[i] {
      assert s[a + k + i] == s[a..a + |body|][k + i];
      assert t[i] == body[k..k + |t|][i];
    }
  }

  /** Where `Contains` finds its text. */
  lemma {:induction false} ContainsAt(s: string, t: string) returns (k: nat)
    requires Contains(s, t)
    ensures k + |t| <= |s| && s[k..k + |t|] == t
    decreases |s|
  {
    if StartsWith(s, t) {
      k := 0;
    } else {
      var j := ContainsAt(s[1..], t);
      k := j + 1;
      assert s[k..k + |t|] == s[1..][j..j + |t|];
    }
  }

  /** A frame written out as `\begin{frame}body\end{frame}` is extracted as `body`, when
      the body does not start with whitespace or `[` and holds no `\end{frame}`. */
  lemma FrameRoundTrip(body: string)
    requires body == [] || (!IsSpace(body[0]) && body[0] != '[')
    requires !Contains(body, EndFrame)
    ensures ExtractFrames(BeginFrame + body + EndFrame) == [body]
  {
    var s := BeginFrame + body + EndFrame;
    var a := |BeginFrame|;
    var e := a + |body|;
    FrameSpanOf(body);
    assert s[a..e] == body;
    assert FramesFrom(s, |s|) == [] by {
      assert !LiteralAt(s, |s|, BeginFrame, false);
    }
  }

  /** The frame match of `\begin{frame}body\end{frame}` spans exactly `body`. */
  lemma FrameSpanOf(body: string)
    requires body == [] || (!IsSpace(body[0]) && body[0] != '[')
    requires !Contains(body, EndFrame)
    ensures FrameAt(BeginFrame + body + EndFrame, 0) == Some(FrameSpan(|BeginFrame|, |BeginFrame| + |body|))
  {
    Opening(body);
    Closing(body);
  }

  /** `\begin{frame}body\end{frame}` opens a frame, with neither options nor whitespace
      before the body. */
  lemma Opening(body: string)
    requires body == [] || (!IsSpace(body[0]) && body[0] != '[')
    ensures var s := BeginFrame + body + EndFrame;
            LiteralAt(s, 0, BeginFrame, false) && BracketEnd(s, |BeginFrame|).None? && SpacesEnd(s, |BeginFrame|) == |BeginFrame|
  {
    var s := BeginFrame + body + EndFrame;
    var a := |BeginFrame|;
    assert s[0..a] == BeginFrame;
    assert s[a] == if body == [] then '\\' else body[0];
  }

  /** The body of `\begin{frame}body\end{frame}` runs to the closing `\end{frame}`. */
  lemma Closing(body: string)
    requires body == [] || (!IsSpace(body[0]) && body[0] != '[')
    requires !Contains(body, EndFrame)
    ensures BodyFrom(BeginFrame + body + EndFrame, |BeginFrame|) == Some(FrameSpan(|BeginFrame|, |BeginFrame| + |body|))
  {
    var s := BeginFrame + body + EndFrame;
    var a := |BeginFrame|;
    var e := a + |body|;
    Opening(body);
    EndFrameBorderless();
    assert s[a..e] == body && s[e..] == EndFrame;
    FirstClosing(s, a, body, EndFrame);
  }

  /** The backslash that opens `\end{frame}` does not recur in it. */
  lemma EndFrameBorderless()
    ensures forall i :: 0 < i < |EndFrame| ==> EndFrame[i] != EndFrame[0]
  {
  }

  /** When `s` ends in `body` and then `t`, where `t` is not in `body` and the first
      character of `t` does not recur in it, the first `t` from the start of `body` is the
      final one. */
  lemma FirstClosing(s: string, a: nat, body: string, t: string)
    requires a + |body| + |t| == |s| && s[a..a + |body|] == body && s[a + |body|..] == t
    requires t != [] && !Contains(body, t)
    requires forall i :: 0 < i < |t| ==> t[i] != t[0]
    ensures Search(Literal(t), s, a) == Some(Found(a + |body|, Match(|s|, "")))
  {
    var e := a + |body|;
    assert s[e..e + |t|] == s[e..];
    forall k | a <= k < e ensures MatchAt(Literal(t), s, k).None? {
      NotClosing(s, a, body, t, k);
    }
    LiteralMatch(s, e, t);
    SearchFirst(Literal(t), s, a, e);
  }

  /** A literal pattern matches where its text occurs... */
  lemma LiteralMatch(s: string, p: nat, t: string)
    requires t != [] && p + |t| <= |s| && s[p..p + |t|] == t
    ensures MatchAt(Literal(t), s, p) == Some(Match(p + |t|, ""))
  {
  }

  /** ...and nowhere else. */
  lemma LiteralNoMatch(s: string, p: nat, t: string)
    requires !LiteralAt(s, p, t, false)
    ensures MatchAt(Literal(t), s, p).None?
  {
  }

  /** Before the closing `t` that follows `body`, `t` does not match. */
  lemma NotClosing(s: string, a: nat, body: string, t: string, k: nat)
    requires a + |body| + |t| == |s| && s[a..a + |body|] == body && s[a + |body|..] == t
    requires t != [] && !Contains(body, t) && forall i :: 0 < i < |t| ==> t[i] != t[0]
    requires a <= k < a + |body|
    ensures MatchAt(Literal(t), s, k).None?
  {
    if k + |t| > a + |body| {
      assert s[a + |body|..a + |body| + |t|] == s[a + |body|..];
      NoOverlap(s, a + |body|, k, t);
    } else {
      NoneInside(s, a, body, k - a, t);
    }
    LiteralNoMatch(s, k, t);
  }

  /** No occurrence of `t` lies inside a slice that does not contain it. */
  lemma NoneInside(s: string, a: nat, body: string, j: nat, t: string)
    requires a + |body| <= |s| && s[a..a + |body|] == body && j + |t| <= |body|
    requires !Contains(body, t)
    ensures !LiteralAt(s, a + j, t, false)
  {
    if LiteralAt(s, a + j, t, false) {
      SliceContains(s, a, body, j, t);
    }
  }

  /** An occurrence of `t` inside a slice of `s` is one the slice contains. */
  lemma SliceContains(s: string, a: nat, body: string, j: nat, t: string)
    requires a + |body| <= |s| && s[a..a + |body|] == body && j + |t| <= |body|
    requires s[a + j..a + j + |t|] == t
    ensures Contains(body, t)
  {
    forall i | 0 <= i < |t| ensures body[j..j + |t|][i] == t[i] {
      assert body[j + i] == s[a..a + |body|][j + i];
      assert t[i] == s[a + j..a + j + |t|][i];
    }
    ContainsFrom(body, t, j);
  }

  /** No occurrence of `t` starts before `e` and runs into the one at `e`, when the first
      character of `t` does not recur in it. */
  lemma NoOverlap(s: string, e: nat, k: nat, t: string)
    requires e + |t| <= |s| && s[e..e + |t|] == t
    requires forall i :: 0 < i < |t| ==> t[i] != t[0]
    requires k < e < k + |t|
    ensures !LiteralAt(s, k, t, false)
  {
    assert s[e] == s[e..e + |t|][0];
    assert s[e] == s[k..k + |t|][e - k];
  }

  /** An occurrence at `k` makes `Contains` hold. */
  lemma {:induction false} ContainsFrom(s: string, t: string, k: nat)
    requires k + |t| <= |s| && s[k..k + |t|] == t
    ensures Contains(s, t)
    decreases k
  {
    if k == 0 {
      assert s[..|t|] == t;
    } else {
      assert s[1..][k - 1..k - 1 + |t|] == t;
      ContainsFrom(s[1..], t, k - 1);
    }
  }

  /** A text without any `\end{frame}` yields no frames: an unclosed frame is dropped. */
  lemma UnclosedFrameDropped(s: string)
    requires forall q :: 0 <= q <= |s| ==> !LiteralAt(s, q, EndFrame, false)
    ensures ExtractFrames(s) == []
  {
    NoEndNoFrames(s, 0);
  }

  /** Without any `\end{frame}`, no frame matches from `from` on. */
  lemma {:induction false} NoEndNoFrames(s: string, from: nat)
    requires forall q :: 0 <= q <= |s| ==> !LiteralAt(s, q, EndFrame, false)
    ensures FramesFrom(s, from) == []
    decreases |s| + 1 - from
  {
    if from <= |s| {
      assert FrameAt(s, from).None?;
      NoEndNoFrames(s, from + 1);
    }
  }

  // ---------------------------------------------------------------- titles

  /** `\\title\{(.*?)\}`: the lazy group without DOTALL stops at the first `}` and may not
      cross a line. */
  const TitlePattern: Pattern := Command("\\title", false, false, true)
  /** `\\author\{(.*?)\}` */
  const AuthorPattern: Pattern := Command("\\author", false, false, true)
  /** `\\frametitle\{(.*?)\}` */
  const FrameTitlePattern: Pattern := Command("\\frametitle", false, false, true)

  /** The metadata `extract_frames_from_tex` returns. */
  datatype Metadata = Metadata(title: string, author: string)

  /** The first match's argument, or a default. */
  function GroupOr(pat: Pattern, s: string, default: string): (r: string)
    ensures Search(pat, s, 0).None? ==> r == default
    ensures Search(pat, s, 0).Some? ==> r == Search(pat, s, 0).value.m.group
  {
    match SearchGroup(pat, s)
    case Some(g) => g
    case None => default
  }

  /** Lines 23-29: the first `\title{...}` and `\author{...}` arguments, unstripped;
      `Presentation` and the empty text when absent. */
  function ExtractMetadata(content: string): (m: Metadata)
    ensures Search(TitlePattern, content, 0).None? ==> m.title == "Presentation"
    ensures Search(TitlePattern, content, 0).Some? ==> m.title == Search(TitlePattern, content, 0).value.m.group
    ensures Search(AuthorPattern, content, 0).None? ==> m.author == ""
    ensures Search(AuthorPattern, content, 0).Some? ==> m.author == Search(AuthorPattern, content, 0).value.m.group
  {
    Metadata(GroupOr(TitlePattern, content, "Presentation"), GroupOr(AuthorPattern, content, ""))
  }

  /** Line 57: a frame's heading is its first `\frametitle{...}` argument, else `Slide i+1`
      for the frame at index `i`. */
  function FrameTitle(frame: string, i: nat): (r: string)
    ensures Search(FrameTitlePattern, frame, 0).None? ==> r == "Slide " + NatToString(i + 1)
    ensures Search(FrameTitlePattern, frame, 0).Some? ==> r == Search(FrameTitlePattern, frame, 0).value.m.group
  {
    GroupOr(FrameTitlePattern, frame, "Slide " + NatToString(i + 1))
  }

  /** `name{arg}` written at `p` is matched there by the single-line command pattern,
      capturing `arg`. */
  lemma CommandMatchAt(s: string, p: nat, name: string, arg: string)
    requires name != [] && '}' !in arg && '\n' !in arg
    requires p + |name| + |arg| + 2 <= |s| && s[p..p + |name| + |arg| + 2] == name + "{" + arg + "}"
    ensures MatchAt(Command(name, false, false, true), s, p) == Some(Match(p + |name| + |arg| + 2, arg))
  {
    CommandMatches(s, p, name, arg, false, true);
  }

  /** `name{arg}` at `p` matches a case-sensitive command pattern, whichever group
      restrictions it has, as long as `arg` meets them. */
  lemma CommandMatches(s: string, p: nat, name: string, arg: string, nonEmpty: bool, singleLine: bool)
    requires name != [] && '}' !in arg && (nonEmpty ==> arg != []) && (singleLine ==> '\n' !in arg)
    requires p + |name| + |arg| + 2 <= |s| && s[p..p + |name| + |arg| + 2] == name + "{" + arg + "}"
    ensures MatchAt(Command(name, false, nonEmpty, singleLine), s, p) == Some(Match(p + |name| + |arg| + 2, arg))
  {
    var o := p + |name|;
    CommandParts(s, p, name, arg);
    forall k | o + 1 <= k < o + 1 + |arg| ensures s[k] != '}' {
      assert s[k] == s[o + 1..o + 1 + |arg|][k - o - 1];
    }
    IndexOfFirst(s, o + 1, '}', o + 1 + |arg|);
  }

  /** The pieces of `name{arg}` written at `p`. */
  lemma CommandParts(s: string, p: nat, name: string, arg: string)
    requires p + |name| + |arg| + 2 <= |s| && s[p..p + |name| + |arg| + 2] == name + "{" + arg + "}"
    ensures s[p..p + |name|] == name && s[p + |name|] == '{'
    ensures s[p + |name| + 1..p + |name| + 1 + |arg|] == arg && s[p + |name| + 1 + |arg|] == '}'
  {
    var t := name + "{" + arg + "}";
    var o := p + |name|;
    assert s[p..o] == t[..|name|];
    assert s[o] == t[|name|];
    assert s[o + 1 + |arg|] == t[|t| - 1];
    assert s[o + 1..o + 1 + |arg|] == arg by {
      forall k | 0 <= k < |arg| ensures s[o + 1..o + 1 + |arg|][k] == arg[k] {
        assert s[o + 1 + k] == t[|name| + 1 + k];
      }
    }
  }

  /** A text that opens with `\title{t}\author{a}` has `t` and `a` as its metadata. */
  lemma MetadataRoundTrip(title: string, author: string, rest: string)
    requires '}' !in title && '\n' !in title && '\\' !in title
    requires '}' !in author && '\n' !in author
    ensures ExtractMetadata("\\title{" + title + "}" + "\\author{" + author + "}" + rest)
         == Metadata(title, author)
  {
    var pre := "\\title{" + title + "}";
    var tail := "\\author{" + author + "}" + rest;
    var s := pre + tail;
    assert s == "\\title{" + title + "}" + "\\author{" + author + "}" + rest;
    TitleFirst(title, tail);
    AuthorAfterTitle(pre, author, rest);
  }

  /** The title command at the start is the first title match. */
  lemma TitleFirst(title: string, tail: string)
    requires '}' !in title && '\n' !in title
    ensures GroupOr(TitlePattern, "\\title{" + title + "}" + tail, "Presentation") == title
  {
    var s := "\\title{" + title + "}" + tail;
    assert s[0..|title| + 8] == "\\title" + "{" + title + "}";
    CommandMatchAt(s, 0, "\\title", title);
    SearchFirst(TitlePattern, s, 0, 0);
  }

  /** An author command right after a text with one leading backslash that does not open
      `\author` is the first author match. */
  lemma AuthorAfterTitle(pre: string, author: string, rest: string)
    requires |pre| >= 2 && pre[0] == '\\' && pre[1] != 'a' && '\\' !in pre[1..]
    requires '}' !in author && '\n' !in author
    ensures GroupOr(AuthorPattern, pre + "\\author{" + author + "}" + rest, "") == author
  {
    var s := pre + "\\author{" + author + "}" + rest;
    var k := |pre|;
    assert s[k..k + |author| + 9] == "\\author" + "{" + author + "}";
    CommandMatchAt(s, k, "\\author", author);
    forall q | 0 <= q < k ensures MatchAt(AuthorPattern, s, q).None? {
      if q == 0 {
        assert s[1] == pre[1] && s[1] == s[0..7][1];
      } else {
        assert s[q] == pre[1..][q - 1];
        NoMatchWithoutBackslash(AuthorPattern, s, q);
      }
    }
    SearchFirst(AuthorPattern, s, 0, k);
  }

  /** A frame that opens with `\frametitle{t}` is headed `t`. */
  lemma FrameTitleRoundTrip(title: string, rest: string, i: nat)
    requires '}' !in title && '\n' !in title
    ensures FrameTitle("\\frametitle{" + title + "}" + rest, i) == title
  {
    var s := "\\frametitle{" + title + "}" + rest;
    assert s[0..|title| + 13] == "\\frametitle" + "{" + title + "}";
    CommandMatchAt(s, 0, "\\frametitle", title);
    SearchFirst(FrameTitlePattern, s, 0, 0);
  }

  /** A frame in which `\frametitle{` never occurs is headed by its position. */
  lemma DefaultFrameTitle(frame: string, i: nat)
    requires !Contains(frame, "\\frametitle{")
    ensures FrameTitle(frame, i) == "Slide " + NatToString(i + 1)
  {
    forall q | 0 <= q <= |frame| ensures MatchAt(FrameTitlePattern, frame, q).None? {
      if MatchAt(FrameTitlePattern, frame, q).Some? {
        var t := "\\frametitle{";
        assert frame[q..q + 11] == "\\frametitle" && frame[q + 11] == '{';
        assert frame[q..q + 12] == t by {
          forall j | 0 <= j < 12 ensures frame[q..q + 12][j] == t[j] {
            if j < 11 {
              assert frame[q..q + 12][j] == frame[q..q + 11][j];
            }
          }
        }
        ContainsFrom(frame, t, q);
      }
    }
  }

  // ---------------------------------------------------------------- frame content

  /** `\\frametitle\{[^}]*\}` */
  const FrameTitleCommand: Pattern := Command("\\frametitle", false, false, false)
  /** `\\textbf\{([^}]+)\}` */
  const BoldCommand: Pattern := Command("\\textbf", false, true, false)

  /** Lines 82-98: the substitutions of `clean_latex_content`, in order, counting from 0.
      Frame titles go, itemize environments and items become list tags, bold text becomes
      `<strong>`, `\\` becomes `<br>`, every other command is replaced by its argument or
      dropped, and step 8 deletes the remaining braces. */
  function Step(i: nat, s: string): string {
    match i
    case 0 => Sub(FrameTitleCommand, Constant(""), s)
    case 1 => Sub(Literal("\\begin{itemize}"), Constant("<ul>"), s)
    case 2 => Sub(Literal("\\end{itemize}"), Constant("</ul>"), s)
    case 3 => Sub(ItemMarker, Constant("<li>"), s)
    case 4 => Sub(BoldCommand, Wrap("<strong>", "</strong>"), s)
    case 5 => Sub(Literal("\\\\"), Constant("<br>"), s)
    case 6 => Sub(LetterCommandWithArgument, Wrap("", ""), s)
    case 7 => Sub(LetterCommand, Constant(""), s)
    case _ => Sub(AnyBrace, Constant(""), s)
  }

  /** The first `n` steps, applied in order. */
  function Applied(n: nat, s: string): string
    decreases n
  {
    if n == 0 then s else Step(n - 1, Applied(n - 1, s))
  }

  /** All nine steps. */
  function Substitute(content: string): (r: string)
    ensures '{' !in r && '}' !in r
  {
    var s8 := Applied(8, content);
    SubBraces(s8);
    Step(8, s8)
  }

  /** Steps `lo` to `hi - 1` each leave `s` alone. */
  predicate Fixed(lo: nat, hi: nat, s: string)
    decreases hi - lo
  {
    lo >= hi || (Step(lo, s) == s && Fixed(lo + 1, hi, s))
  }

  /** Steps that each leave a text alone leave it alone together. */
  lemma {:induction false} AppliedKeeps(n: nat, s: string)
    requires Fixed(0, n, s)
    ensures Applied(n, s) == s
  {
    if n > 0 {
      FixedShorter(0, n, s);
      AppliedKeeps(n - 1, s);
      FixedLast(0, n, s);
    }
  }

  /** Dropping the last step keeps a run of fixed steps fixed. */
  lemma {:induction false} FixedShorter(lo: nat, hi: nat, s: string)
    requires lo < hi && Fixed(lo, hi, s)
    ensures Fixed(lo, hi - 1, s)
    decreases hi - lo
  {
    if lo + 1 < hi {
      FixedShorter(lo + 1, hi, s);
    }
  }

  /** The last step of a run of fixed steps is fixed. */
  lemma {:induction false} FixedLast(lo: nat, hi: nat, s: string)
    requires lo < hi && Fixed(lo, hi, s)
    ensures Step(hi - 1, s) == s
    decreases hi - lo
  {
    if lo + 1 < hi {
      FixedLast(lo + 1, hi, s);
    }
  }

  /** Once the first `i + 1` steps have produced `t`, steps that leave `t` alone keep it. */
  lemma {:induction false} AppliedAfter(i: nat, n: nat, s: string, t: string)
    requires i < n && Applied(i + 1, s) == t && Fixed(i + 1, n, t)
    ensures Applied(n, s) == t
    decreases n
  {
    if n > i + 1 {
      FixedShorter(i + 1, n, t);
      AppliedAfter(i, n - 1, s, t);
      FixedLast(i + 1, n, t);
    }
  }

  /** When the steps before step `i` leave `s` alone and step `i` turns it into plain
      text, that text is the result. */
  lemma OnlyStepRewrites(s: string, i: nat, t: string)
    requires i <= 8 && Fixed(0, i, s) && Step(i, s) == t && PlainText(t)
    ensures Substitute(s) == t
  {
    AppliedKeeps(i, s);
    PlainStepsKeep(t);
    FixedSuffix(0, 9, i + 1, t);
    AppliedAfter(i, 9, s, t);
  }

  /** A run of fixed steps stays fixed from any later start. */
  lemma {:induction false} FixedSuffix(lo: nat, hi: nat, mid: nat, s: string)
    requires lo <= mid && Fixed(lo, hi, s)
    ensures Fixed(mid, hi, s)
    decreases mid - lo
  {
    if lo < mid && lo < hi {
      FixedSuffix(lo + 1, hi, mid, s);
    }
  }

  /** Text without backslashes or braces passes through the substitutions unchanged. */
  lemma PlainTextUnchanged(text: string)
    requires '\\' !in text && '{' !in text && '}' !in text
    ensures Substitute(text) == text
  {
    PlainStepsKeep(text);
    FixedShorter(0, 9, text);
    AppliedKeeps(8, text);
    FixedLast(0, 9, text);
  }

  /** A text with no backslash and no brace: nothing in it is LaTeX markup. */
  predicate PlainText(t: string) {
    '\\' !in t && '{' !in t && '}' !in t
  }

  /** Regrouping a five-part concatenation around its middle three parts. */
  lemma Regroup(a: string, p: string, x: string, q: string, b: string)
    ensures a + p + x + q + b == a + (p + x + q) + b
  {
  }

  /** The opening of a command written as one literal is its name followed by `{`. */
  lemma CommandOpenings()
    ensures "\\frametitle" + "{" == "\\frametitle{" && "\\textbf" + "{" == "\\textbf{"
  {
  }

  /** The tags the substitutions write hold no markup. */
  lemma TagsPlain()
    ensures PlainText("<ul>") && PlainText("</ul>") && PlainText("<li>") && PlainText("<br>")
    ensures PlainText("<strong>") && PlainText("</strong>")
  {
  }

  /** Plain texts joined are plain. */
  lemma PlainJoin(a: string, m: string, b: string)
    requires PlainText(a) && PlainText(m) && PlainText(b)
    ensures PlainText(a + m + b)
  {
  }

  /** Each step leaves plain text alone. */
  lemma PlainStepsKeep(t: string)
    requires PlainText(t)
    ensures Fixed(0, 9, t)
  {
    SubWithoutBackslash(FrameTitleCommand, Constant(""), t);
    SubWithoutBackslash(Literal("\\begin{itemize}"), Constant("<ul>"), t);
    SubWithoutBackslash(Literal("\\end{itemize}"), Constant("</ul>"), t);
    SubWithoutBackslash(ItemMarker, Constant("<li>"), t);
    SubWithoutBackslash(BoldCommand, Wrap("<strong>", "</strong>"), t);
    SubWithoutBackslash(Literal("\\\\"), Constant("<br>"), t);
    SubWithoutBackslash(LetterCommandWithArgument, Wrap("", ""), t);
    SubWithoutBackslash(LetterCommand, Constant(""), t);
    SubBraces(t);
    NoBracesKept(t);
    assert Fixed(8, 9, t);
    assert Fixed(7, 9, t);
    assert Fixed(6, 9, t);
    assert Fixed(5, 9, t);
    assert Fixed(4, 9, t);
    assert Fixed(3, 9, t);
    assert Fixed(2, 9, t);
    assert Fixed(1, 9, t);
  }

  /** Step `hi` leaving `s` alone extends a fixed run up by one. */
  lemma {:induction false} FixedAbove(lo: nat, hi: nat, s: string)
    requires lo <= hi && Fixed(lo, hi, s) && Step(hi, s) == s
    ensures Fixed(lo, hi + 1, s)
    decreases hi - lo
  {
    if lo < hi {
      FixedAbove(lo + 1, hi, s);
    }
  }

  /** `a + mid + b` has one backslash, at `|a|`, when `mid` starts with it and `a`, `b`
      and the rest of `mid` have none. */
  lemma LoneBackslash(a: string, mid: string, b: string)
    requires '\\' !in a && '\\' !in b && |mid| >= 2 && mid[0] == '\\' && '\\' !in mid[1..]
    ensures |a| + 1 < |a + mid + b| && (a + mid + b)[|a| + 1] == mid[1]
    ensures forall q :: 0 <= q < |a + mid + b| && q != |a| ==> (a + mid + b)[q] != '\\'
  {
    var s := a + mid + b;
    forall q | 0 <= q < |s| && q != |a| ensures s[q] != '\\' {
      if q < |a| {
        assert s[q] == a[q];
      } else if q < |a| + |mid| {
        assert s[q] == mid[1..][q - |a| - 1];
      } else {
        assert s[q] == b[q - |a| - |mid|];
      }
    }
  }

  /** Step 0 misses a lone backslash that no `f` follows. */
  lemma FrameTitleMissed(s: string, k: nat)
    requires k + 1 < |s| && s[k + 1] != 'f'
    requires forall q :: 0 <= q < |s| && q != k ==> s[q] != '\\'
    ensures Step(0, s) == s
  {
    LiteralAtExact(s, k, "\\frametitle", 1);
    SubKeepsAt(FrameTitleCommand, Constant(""), s, k);
  }

  /** Step 1 misses a lone backslash that no `b` follows. */
  lemma BeginItemizeMissed(s: string, k: nat)
    requires k + 1 < |s| && s[k + 1] != 'b'
    requires forall q :: 0 <= q < |s| && q != k ==> s[q] != '\\'
    ensures Step(1, s) == s
  {
    LiteralAtExact(s, k, "\\begin{itemize}", 1);
    SubKeepsAt(Literal("\\begin{itemize}"), Constant("<ul>"), s, k);
  }

  /** Step 2 misses a lone backslash that no `e` follows. */
  lemma EndItemizeMissed(s: string, k: nat)
    requires k + 1 < |s| && s[k + 1] != 'e'
    requires forall q :: 0 <= q < |s| && q != k ==> s[q] != '\\'
    ensures Step(2, s) == s
  {
    LiteralAtExact(s, k, "\\end{itemize}", 1);
    SubKeepsAt(Literal("\\end{itemize}"), Constant("</ul>"), s, k);
  }

  /** Step 3 misses a lone backslash that no `i` follows. */
  lemma ItemMissed(s: string, k: nat)
    requires k + 1 < |s| && s[k + 1] != 'i'
    requires forall q :: 0 <= q < |s| && q != k ==> s[q] != '\\'
    ensures Step(3, s) == s
  {
    LiteralAtExact(s, k, "\\item", 1);
    SubKeepsAt(ItemMarker, Constant("<li>"), s, k);
  }

  /** The first `i` steps (at most 4) leave a text alone whose only backslash, at `k`, is
      followed by none of the letters that start their commands (`f`, `b`, `e`, `i`). */
  lemma {:induction false} KeptBefore(s: string, k: nat, i: nat)
    requires i <= 4 && k + 1 < |s|
    requires forall q :: 0 <= q < |s| && q != k ==> s[q] != '\\'
    requires (i > 0 ==> s[k + 1] != 'f') && (i > 1 ==> s[k + 1] != 'b')
    requires (i > 2 ==> s[k + 1] != 'e') && (i > 3 ==> s[k + 1] != 'i')
    ensures Fixed(0, i, s)
  {
    if i > 0 {
      KeptBefore(s, k, i - 1);
      if i == 1 {
        FrameTitleMissed(s, k);
      } else if i == 2 {
        BeginItemizeMissed(s, k);
      } else if i == 3 {
        EndItemizeMissed(s, k);
      } else {
        ItemMissed(s, k);
      }
      FixedAbove(0, i - 1, s);
    }
  }

  /** Line 82: `\frametitle{x}` inside a body is deleted. */
  lemma FrameTitleDropped(a: string, x: string, b: string)
    requires PlainText(a) && PlainText(x) && PlainText(b)
    ensures Substitute(a + "\\frametitle{" + x + "}" + b) == a + b
  {
    FrameTitleShape(a, x, b);
    OnlyStepRewrites(a + "\\frametitle{" + x + "}" + b, 0, a + b);
  }

  lemma FrameTitleShape(a: string, x: string, b: string)
    requires PlainText(a) && PlainText(x) && PlainText(b)
    ensures Fixed(0, 0, a + "\\frametitle{" + x + "}" + b)
    ensures Step(0, a + "\\frametitle{" + x + "}" + b) == a + b && PlainText(a + b)
  {
    Regroup(a, "\\frametitle{", x, "}", b);
    FrameTitleStep(a, "\\frametitle{" + x + "}", b, x);
  }

  lemma FrameTitleStep(a: string, mid: string, b: string, x: string)
    requires PlainText(a) && PlainText(x) && PlainText(b) && mid == "\\frametitle{" + x + "}"
    ensures Step(0, a + mid + b) == a + b
  {
    FrameTitleMatch(a, mid, b, x);
    SubAround(FrameTitleCommand, Constant(""), a, mid, b, x);
    assert a + "" + b == a + b;
  }

  lemma FrameTitleMatch(a: string, mid: string, b: string, x: string)
    requires '}' !in x && mid == "\\frametitle{" + x + "}"
    ensures MatchAt(FrameTitleCommand, a + mid + b, |a|) == Some(Match(|a| + |mid|, x))
  {
    var s := a + mid + b;
    CommandOpenings();
    assert mid == "\\frametitle" + "{" + x + "}";
    assert s[|a|..|a| + |mid|] == mid;
    CommandMatches(s, |a|, "\\frametitle", x, false, false);
  }

  /** Line 85: `\begin{itemize}` becomes `<ul>`. */
  lemma BeginItemizeOpensList(a: string, b: string)
    requires PlainText(a) && PlainText(b)
    ensures Substitute(a + "\\begin{itemize}" + b) == a + "<ul>" + b
  {
    BeginItemizeParts(a, "\\begin{itemize}", b);
    TagsPlain();
    PlainJoin(a, "<ul>", b);
    OnlyStepRewrites(a + "\\begin{itemize}" + b, 1, a + "<ul>" + b);
  }

  lemma BeginItemizeParts(a: string, mid: string, b: string)
    requires PlainText(a) && PlainText(b) && mid == "\\begin{itemize}"
    ensures Fixed(0, 1, a + mid + b) && Step(1, a + mid + b) == a + "<ul>" + b
  {
    var s := a + mid + b;
    LoneBackslash(a, mid, b);
    KeptBefore(s, |a|, 1);
    assert s[|a|..|a| + |mid|] == mid;
    LiteralMatch(s, |a|, mid);
    SubAround(Literal(mid), Constant("<ul>"), a, mid, b, "");
  }

  /** Line 86: `\end{itemize}` becomes `</ul>`. */
  lemma EndItemizeClosesList(a: string, b: string)
    requires PlainText(a) && PlainText(b)
    ensures Substitute(a + "\\end{itemize}" + b) == a + "</ul>" + b
  {
    EndItemizeParts(a, "\\end{itemize}", b);
    TagsPlain();
    PlainJoin(a, "</ul>", b);
    OnlyStepRewrites(a + "\\end{itemize}" + b, 2, a + "</ul>" + b);
  }

  lemma EndItemizeParts(a: string, mid: string, b: string)
    requires PlainText(a) && PlainText(b) && mid == "\\end{itemize}"
    ensures Fixed(0, 2, a + mid + b) && Step(2, a + mid + b) == a + "</ul>" + b
  {
    var s := a + mid + b;
    LoneBackslash(a, mid, b);
    KeptBefore(s, |a|, 2);
    assert s[|a|..|a| + |mid|] == mid;
    LiteralMatch(s, |a|, mid);
    SubAround(Literal(mid), Constant("</ul>"), a, mid, b, "");
  }

  /** Line 87: `\item` and the whitespace after it become `<li>`. */
  lemma ItemOpensListItem(a: string, ws: string, b: string)
    requires PlainText(a) && IsBlank(ws) && PlainText(b) && (b == [] || !IsSpace(b[0]))
    ensures Substitute(a + "\\item" + ws + b) == a + "<li>" + b
  {
    ItemShape(a, ws, b);
    OnlyStepRewrites(a + "\\item" + ws + b, 3, a + "<li>" + b);
  }

  lemma ItemShape(a: string, ws: string, b: string)
    requires PlainText(a) && IsBlank(ws) && PlainText(b) && (b == [] || !IsSpace(b[0]))
    ensures Fixed(0, 3, a + "\\item" + ws + b) && Step(3, a + "\\item" + ws + b) == a + "<li>" + b
    ensures PlainText(a + "<li>" + b)
  {
    var mid := "\\item" + ws;
    assert a + "\\item" + ws + b == a + mid + b;
    ItemParts(a, mid, b, ws);
    TagsPlain();
    PlainJoin(a, "<li>", b);
  }

  lemma ItemParts(a: string, mid: string, b: string, ws: string)
    requires PlainText(a) && IsBlank(ws) && PlainText(b) && (b == [] || !IsSpace(b[0]))
    requires mid == "\\item" + ws
    ensures Fixed(0, 3, a + mid + b) && Step(3, a + mid + b) == a + "<li>" + b
  {
    var s := a + mid + b;
    forall j | 0 <= j < |ws| ensures ws[j] != '\\' {
      assert IsSpace(ws[j]);
    }
    assert mid[1..] == "item" + ws;
    LoneBackslash(a, mid, b);
    KeptBefore(s, |a|, 3);
    ItemStep(a, mid, b, ws);
  }

  lemma ItemStep(a: string, mid: string, b: string, ws: string)
    requires '\\' !in a && '\\' !in b && IsBlank(ws) && (b == [] || !IsSpace(b[0])) && mid == "\\item" + ws
    ensures Step(3, a + mid + b) == a + "<li>" + b
  {
    var s := a + mid + b;
    var k := |a|;
    assert s[k..k + 5] == "\\item";
    forall q | k + 5 <= q < k + |mid| ensures IsSpace(s[q]) {
      assert s[q] == ws[q - k - 5];
    }
    assert b != [] ==> s[k + |mid|] == b[0];
    SpacesEndExact(s, k + 5, k + |mid|);
    SubAround(ItemMarker, Constant("<li>"), a, mid, b, "");
  }

  /** Line 88: `\textbf{x}` becomes `<strong>x</strong>`. */
  lemma BoldBecomesStrong(a: string, x: string, b: string)
    requires PlainText(a) && PlainText(x) && PlainText(b) && x != []
    ensures Substitute(a + "\\textbf{" + x + "}" + b) == a + "<strong>" + x + "</strong>" + b
  {
    BoldShape(a, x, b);
    OnlyStepRewrites(a + "\\textbf{" + x + "}" + b, 4, a + "<strong>" + x + "</strong>" + b);
  }

  lemma BoldShape(a: string, x: string, b: string)
    requires PlainText(a) && PlainText(x) && PlainText(b) && x != []
    ensures Fixed(0, 4, a + "\\textbf{" + x + "}" + b)
    ensures Step(4, a + "\\textbf{" + x + "}" + b) == a + "<strong>" + x + "</strong>" + b
    ensures PlainText(a + "<strong>" + x + "</strong>" + b)
  {
    var mid := "\\textbf{" + x + "}";
    var bold := "<strong>" + x + "</strong>";
    Regroup(a, "\\textbf{", x, "}", b);
    Regroup(a, "<strong>", x, "</strong>", b);
    BoldParts(a, mid, b, x);
    TagsPlain();
    PlainJoin("<strong>", x, "</strong>");
    PlainJoin(a, bold, b);
  }

  lemma BoldParts(a: string, mid: string, b: string, x: string)
    requires PlainText(a) && PlainText(x) && PlainText(b) && x != [] && mid == "\\textbf{" + x + "}"
    ensures Fixed(0, 4, a + mid + b) && Step(4, a + mid + b) == a + ("<strong>" + x + "</strong>") + b
  {
    var s := a + mid + b;
    assert mid[1..] == "textbf{" + x + "}";
    LoneBackslash(a, mid, b);
    KeptBefore(s, |a|, 4);
    BoldStep(a, mid, b, x);
  }

  lemma BoldStep(a: string, mid: string, b: string, x: string)
    requires PlainText(a) && PlainText(x) && PlainText(b) && x != [] && mid == "\\textbf{" + x + "}"
    ensures Step(4, a + mid + b) == a + ("<strong>" + x + "</strong>") + b
  {
    BoldMatch(a, mid, b, x);
    SubAround(BoldCommand, Wrap("<strong>", "</strong>"), a, mid, b, x);
  }

  lemma BoldMatch(a: string, mid: string, b: string, x: string)
    requires '}' !in x && x != [] && mid == "\\textbf{" + x + "}"
    ensures MatchAt(BoldCommand, a + mid + b, |a|) == Some(Match(|a| + |mid|, x))
  {
    var s := a + mid + b;
    CommandOpenings();
    assert mid == "\\textbf" + "{" + x + "}";
    assert s[|a|..|a| + |mid|] == mid;
    CommandMatches(s, |a|, "\\textbf", x, true, false);
  }

  /** Line 89: `\\` becomes `<br>`, when no letter follows it (a letter would make its
      second backslash start a command). */
  lemma LineBreakBecomesBr(a: string, b: string)
    requires PlainText(a) && PlainText(b) && (b == [] || !IsAsciiLetter(b[0]))
    ensures Substitute(a + "\\\\" + b) == a + "<br>" + b
  {
    LineBreakParts(a, "\\\\", b);
    TagsPlain();
    PlainJoin(a, "<br>", b);
    OnlyStepRewrites(a + "\\\\" + b, 5, a + "<br>" + b);
  }

  lemma LineBreakParts(a: string, mid: string, b: string)
    requires PlainText(a) && PlainText(b) && (b == [] || !IsAsciiLetter(b[0])) && mid == "\\\\"
    ensures Fixed(0, 5, a + mid + b) && Step(5, a + mid + b) == a + "<br>" + b
  {
    var s := a + mid + b;
    var k := |a|;
    forall q | 0 <= q < |s| && q != k && q != k + 1 ensures s[q] != '\\' {
      if q < k {
        assert s[q] == a[q];
      } else {
        assert s[q] == b[q - k - 2];
      }
    }
    assert s[k] == '\\' && s[k + 1] == '\\';
    assert b != [] ==> s[k + 2] == b[0];
    BreakKeptAt(s, k, 5);
    assert s[k..k + 2] == mid;
    LiteralMatch(s, k, mid);
    SubAround(Literal(mid), Constant("<br>"), a, mid, b, "");
  }

  /** A doubled backslash followed by no letter starts none of the commands before it in
      `Substitute`, neither at its first backslash nor at its second. */
  lemma BreakMisses(s: string, k: nat, name: string)
    requires |name| >= 2 && IsAsciiLetter(name[1])
    requires k + 2 <= |s| && s[k] == '\\' && s[k + 1] == '\\' && (k + 2 == |s| || !IsAsciiLetter(s[k + 2]))
    ensures !LiteralAt(s, k, name, false) && !LiteralAt(s, k + 1, name, false)
  {
    LiteralAtExact(s, k, name, 1);
    LiteralAtExact(s, k + 1, name, 1);
  }

  /** A pattern that misses at both backslashes of the text's only `\\` leaves it alone. */
  lemma SubKeepsBreak(pat: Pattern, repl: Replacement, s: string, k: nat)
    requires BackslashPattern(pat) && k + 2 <= |s|
    requires forall q :: 0 <= q < |s| && q != k && q != k + 1 ==> s[q] != '\\'
    requires MatchAt(pat, s, k).None? && MatchAt(pat, s, k + 1).None?
    ensures Sub(pat, repl, s) == s
  {
    forall q | 0 <= q < |s| ensures MatchAt(pat, s, q).None? {
      if q != k && q != k + 1 {
        NoMatchWithoutBackslash(pat, s, q);
      }
    }
    SubFromNoMatch(pat, repl, s, 0);
    assert s[0..] == s;
  }

  /** The first `i` steps (at most 5) leave a text alone whose only backslashes are a `\\`
      at `k` that no letter follows. */
  lemma {:induction false} BreakKeptAt(s: string, k: nat, i: nat)
    requires i <= 5 && k + 2 <= |s| && s[k] == '\\' && s[k + 1] == '\\'
    requires k + 2 == |s| || !IsAsciiLetter(s[k + 2])
    requires forall q :: 0 <= q < |s| && q != k && q != k + 1 ==> s[q] != '\\'
    ensures Fixed(0, i, s)
  {
    if i > 0 {
      BreakKeptAt(s, k, i - 1);
      BreakStepKept(s, k, i - 1);
      FixedAbove(0, i - 1, s);
    }
  }

  /** Each of the first five steps leaves such a text alone. */
  lemma BreakStepKept(s: string, k: nat, j: nat)
    requires j < 5 && k + 2 <= |s| && s[k] == '\\' && s[k + 1] == '\\'
    requires k + 2 == |s| || !IsAsciiLetter(s[k + 2])
    requires forall q :: 0 <= q < |s| && q != k && q != k + 1 ==> s[q] != '\\'
    ensures Step(j, s) == s
  {
    if j == 0 {
      BreakMisses(s, k, "\\frametitle");
      SubKeepsBreak(FrameTitleCommand, Constant(""), s, k);
    } else if j == 1 {
      BreakMisses(s, k, "\\begin{itemize}");
      SubKeepsBreak(Literal("\\begin{itemize}"), Constant("<ul>"), s, k);
    } else if j == 2 {
      BreakMisses(s, k, "\\end{itemize}");
      SubKeepsBreak(Literal("\\end{itemize}"), Constant("</ul>"), s, k);
    } else if j == 3 {
      BreakMisses(s, k, "\\item");
      SubKeepsBreak(ItemMarker, Constant("<li>"), s, k);
    } else {
      BreakMisses(s, k, "\\textbf");
      SubKeepsBreak(BoldCommand, Wrap("<strong>", "</strong>"), s, k);
    }
  }

  /** A stripped line that holds text but no tag. */
  predicate PlainLine(line: string) {
    Strip(line) != [] && Strip(line)[0] != '<'
  }

  /** A non-empty text that opens a tag. */
  predicate TagLine(line: string) {
    line != [] && line[0] == '<'
  }

  /** Lines 101-108 as written: each line is stripped, and only the non-empty lines that
      already start with `<` are kept; the `<p>` wrapping of the others is computed and
      then discarded. */
  function KeepTags(lines: seq<string>): (r: seq<string>)
    ensures |r| <= |lines|
    ensures forall i :: 0 <= i < |r| ==> TagLine(r[i])
  {
    if lines == [] then []
    else
      var para := Strip(lines[0]);
      (if para != [] && para[0] == '<' then [para] else []) + KeepTags(lines[1..])
  }

  /** Stripping and filtering bring in no new character. */
  lemma {:induction false} KeepTagsAvoids(lines: seq<string>, c: char)
    requires Avoids(lines, c)
    ensures Avoids(KeepTags(lines), c)
    decreases |lines|
  {
    if lines != [] {
      assert Avoids(lines[1..], c) by {
        assert forall i :: 0 <= i < |lines[1..]| ==> lines[1..][i] == lines[i + 1];
      }
      KeepTagsAvoids(lines[1..], c);
      assert c !in Strip(lines[0]);
    }
  }

  /** A line is kept as written exactly when its stripped form opens a tag, and it is kept
      stripped. */
  lemma {:induction false} KeepTagsMembers(lines: seq<string>, x: string)
    ensures x in KeepTags(lines) <==> exists i :: 0 <= i < |lines| && Strip(lines[i]) == x && TagLine(x)
    decreases |lines|
  {
    if lines != [] {
      var para := Strip(lines[0]);
      var tail := lines[1..];
      KeepTagsMembers(tail, x);
      assert KeepTags(lines) == (if TagLine(para) then [para] else []) + KeepTags(tail);
      if x in KeepTags(lines) {
        if x in KeepTags(tail) {
          var j :| 0 <= j < |tail| && Strip(tail[j]) == x && TagLine(x);
          assert lines[j + 1] == tail[j];
        } else {
          assert Strip(lines[0]) == x && TagLine(x);
        }
      } else {
        forall i | 0 <= i < |lines| && TagLine(x) ensures Strip(lines[i]) != x {
          if i > 0 {
            assert lines[i] == tail[i - 1];
          }
        }
      }
    }
  }

  /** What the intended loop makes of one stripped, non-empty line. */
  function Wrapped(para: string): string
    requires para != []
  {
    if para[0] != '<' then "<p>" + para + "</p>" else para
  }

  /** The loop as evidently intended: a non-empty line that does not start with `<` is
      wrapped in `<p>...</p>` and kept too. */
  function Paragraphs(lines: seq<string>): (r: seq<string>)
    ensures |r| <= |lines|
    ensures forall i :: 0 <= i < |r| ==> TagLine(r[i])
  {
    if lines == [] then []
    else
      var para := Strip(lines[0]);
      (if para == [] then [] else [Wrapped(para)]) + Paragraphs(lines[1..])
  }

  /** With the intended loop every non-blank line is kept: stripped if it opens a tag,
      wrapped in `<p>...</p>` otherwise. */
  lemma {:induction false} ParagraphsMembers(lines: seq<string>, x: string)
    ensures x in Paragraphs(lines) <==> exists i :: 0 <= i < |lines| && Strip(lines[i]) != [] && Wrapped(Strip(lines[i])) == x
    decreases |lines|
  {
    if lines != [] {
      var para := Strip(lines[0]);
      var tail := lines[1..];
      ParagraphsMembers(tail, x);
      assert Paragraphs(lines) == (if para == [] then [] else [Wrapped(para)]) + Paragraphs(tail);
      if x in Paragraphs(lines) {
        if x in Paragraphs(tail) {
          var j :| 0 <= j < |tail| && Strip(tail[j]) != [] && Wrapped(Strip(tail[j])) == x;
          assert lines[j + 1] == tail[j];
        } else {
          assert Strip(lines[0]) != [] && Wrapped(Strip(lines[0])) == x;
        }
      } else {
        forall i | 0 <= i < |lines| && Strip(lines[i]) != [] ensures Wrapped(Strip(lines[i])) != x {
          if i > 0 {
            assert lines[i] == tail[i - 1];
          }
        }
      }
    }
  }

  /** The lines `clean_latex_content` works on: the substituted text split at newlines.
      None holds a brace or a newline. */
  function ContentLines(content: string): (lines: seq<string>)
    ensures Avoids(lines, '\n') && Avoids(lines, '{') && Avoids(lines, '}')
  {
    var text := Substitute(content);
    var lines := Split(text, '\n');
    assert forall i, k :: 0 <= i < |lines| && 0 <= k < |lines[i]| ==> lines[i][k] in text by {
      forall i, k | 0 <= i < |lines| && 0 <= k < |lines[i]| ensures lines[i][k] in text {
        SplitChars(text, '\n', i, k);
      }
    }
    lines
  }

  /** Lines 79-110 as written: only lines that already open a tag survive. The result
      holds no brace, and every line of it opens a tag (`OutputLinesAsWritten`). */
  function CleanLatexContent(content: string): (r: string)
    ensures '{' !in r && '}' !in r
  {
    var lines := ContentLines(content);
    KeptAvoid(lines, '{');
    KeptAvoid(lines, '}');
    Join(KeepTags(lines), "\n")
  }

  /** `clean_latex_content` as evidently intended: plain lines become `<p>` paragraphs.
      The result holds no brace either. */
  function CleanLatexContentIntended(content: string): (r: string)
    ensures '{' !in r && '}' !in r
  {
    var lines := ContentLines(content);
    ParagraphsJoinAvoid(lines, '{');
    ParagraphsJoinAvoid(lines, '}');
    Join(Paragraphs(lines), "\n")
  }

  /** A character in no line, other than the newline, is not in the kept text. */
  lemma KeptAvoid(lines: seq<string>, c: char)
    requires Avoids(lines, c) && c != '\n'
    ensures c !in Join(KeepTags(lines), "\n")
  {
    KeepTagsAvoids(lines, c);
    JoinFree(KeepTags(lines), "\n", c);
  }

  /** A character in no line, and not in `<p></p>` or the separator, is not in the
      joined paragraphs. */
  lemma ParagraphsJoinAvoid(lines: seq<string>, c: char)
    requires Avoids(lines, c) && OutsideWrap(c) && c != '\n'
    ensures c !in Join(Paragraphs(lines), "\n")
  {
    ParagraphsAvoid(lines, c);
    JoinFree(Paragraphs(lines), "\n", c);
  }

  /** A character that `<p></p>` does not hold. */
  predicate OutsideWrap(c: char) {
    c != '<' && c != 'p' && c != '/' && c != '>'
  }

  /** The paragraphs bring in no character but those of the lines and of `<p></p>`. */
  lemma {:induction false} ParagraphsAvoid(lines: seq<string>, c: char)
    requires Avoids(lines, c) && OutsideWrap(c)
    ensures Avoids(Paragraphs(lines), c)
    decreases |lines|
  {
    if lines != [] {
      assert Avoids(lines[1..], c) by {
        assert forall i :: 0 <= i < |lines[1..]| ==> lines[1..][i] == lines[i + 1];
      }
      ParagraphsAvoid(lines[1..], c);
      var para := Strip(lines[0]);
      assert c !in para;
      assert c !in "<p>" + para + "</p>";
    }
  }

  /** The lines of the as-written result are the kept lines, each opening a tag. */
  lemma OutputLinesAsWritten(content: string)
    ensures var kept := KeepTags(ContentLines(content));
            kept != [] ==> Split(CleanLatexContent(content), '\n') == kept
    ensures CleanLatexContent(content) == [] || forall line :: line in Split(CleanLatexContent(content), '\n') ==> TagLine(line)
  {
    var lines := ContentLines(content);
    var kept := KeepTags(lines);
    if kept != [] {
      KeepTagsAvoids(lines, '\n');
      SplitJoin(kept, '\n');
    }
  }

  /** The lines of the intended result are the paragraphs, each opening a tag. */
  lemma OutputLinesIntended(content: string)
    ensures var paras := Paragraphs(ContentLines(content));
            paras != [] ==> Split(CleanLatexContentIntended(content), '\n') == paras
    ensures CleanLatexContentIntended(content) == [] || forall line :: line in Split(CleanLatexContentIntended(content), '\n') ==> TagLine(line)
  {
    var lines := ContentLines(content);
    var paras := Paragraphs(lines);
    if paras != [] {
      ParagraphsAvoid(lines, '\n');
      SplitJoin(paras, '\n');
    }
  }

  /** The as-written loop never keeps more lines than the intended one. */
  lemma {:induction false} KeepTagsNoLonger(lines: seq<string>)
    ensures |KeepTags(lines)| <= |Paragraphs(lines)|
    decreases |lines|
  {
    if lines != [] {
      KeepTagsNoLonger(lines[1..]);
    }
  }

  /** A plain line is kept by the intended loop and dropped by the loop as written. */
  lemma {:induction false} PlainLineLost(lines: seq<string>, i: nat)
    requires i < |lines| && PlainLine(lines[i])
    ensures |KeepTags(lines)| < |Paragraphs(lines)|
    decreases |lines|
  {
    if i == 0 {
      KeepTagsNoLonger(lines[1..]);
    } else {
      assert lines[1..][i - 1] == lines[i];
      PlainLineLost(lines[1..], i - 1);
    }
  }

  /** Without plain lines the two loops agree. */
  lemma {:induction false} NoPlainAgree(lines: seq<string>)
    requires forall i :: 0 <= i < |lines| ==> !PlainLine(lines[i])
    ensures KeepTags(lines) == Paragraphs(lines)
    decreases |lines|
  {
    if lines != [] {
      assert !PlainLine(lines[0]);
      assert forall i :: 0 <= i < |lines[1..]| ==> lines[1..][i] == lines[i + 1];
      NoPlainAgree(lines[1..]);
    }
  }

  /** The code as written agrees with the intended loop exactly when no line is plain
      text: every plain line is lost. */
  lemma KeepTagsAgreeIff(lines: seq<string>)
    ensures KeepTags(lines) == Paragraphs(lines) <==> forall i :: 0 <= i < |lines| ==> !PlainLine(lines[i])
  {
    if forall i :: 0 <= i < |lines| ==> !PlainLine(lines[i]) {
      NoPlainAgree(lines);
    } else {
      var i :| 0 <= i < |lines| && PlainLine(lines[i]);
      PlainLineLost(lines, i);
    }
  }

  /** A frame body of one plain line, such as `Hello`, comes out empty as written, while
      the intended loop gives `<p>Hello</p>`. */
  lemma PlainTextDropped(line: string)
    requires '\\' !in line && '{' !in line && '}' !in line && '\n' !in line
    requires PlainLine(line)
    ensures CleanLatexContent(line) == ""
    ensures CleanLatexContentIntended(line) == "<p>" + Strip(line) + "</p>"
  {
    PlainTextUnchanged(line);
    SplitFree(line, '\n');
    assert ContentLines(line) == [line];
    assert KeepTags([line]) == [];
    assert Paragraphs([line]) == ["<p>" + Strip(line) + "</p>"];
  }

  // ---------------------------------------------------------------- pages

  /** The HTML pages `create_temp_html_files` writes: a title page, then one page per
      frame with its heading and its cleaned content. */
  datatype Page = TitlePage(title: string, author: string) | FramePage(heading: string, content: string)

  /** Lines 37-77: the pages for the extracted frames and metadata, with the cleaning as
      written. */
  function Pages(frames: seq<string>, m: Metadata): (r: seq<Page>)
    ensures |r| == |frames| + 1
    ensures r[0] == TitlePage(m.title, m.author)
    ensures forall i :: 1 <= i < |r| ==> r[i].FramePage? && '{' !in r[i].content && '}' !in r[i].content
    ensures forall i :: 0 <= i < |frames| ==> r[i + 1].heading == FrameTitle(frames[i], i)
    ensures forall i :: 0 <= i < |frames| ==> r[i + 1].content == CleanLatexContent(frames[i])
  {
    [TitlePage(m.title, m.author)]
      + seq(|frames|, i requires 0 <= i < |frames| => FramePage(FrameTitle(frames[i], i), CleanLatexContent(frames[i])))
  }

  /** The pages the loop at lines 101-108 was evidently meant to give: the same, with each
      plain line kept as a paragraph. */
  function PagesIntended(frames: seq<string>, m: Metadata): (r: seq<Page>)
    ensures |r| == |frames| + 1
    ensures r[0] == TitlePage(m.title, m.author)
    ensures forall i :: 1 <= i < |r| ==> r[i].FramePage? && '{' !in r[i].content && '}' !in r[i].content
    ensures forall i :: 0 <= i < |frames| ==> r[i + 1].heading == FrameTitle(frames[i], i)
    ensures forall i :: 0 <= i < |frames| ==> r[i + 1].content == CleanLatexContentIntended(frames[i])
  {
    [TitlePage(m.title, m.author)]
      + seq(|frames|, i requires 0 <= i < |frames| => FramePage(FrameTitle(frames[i], i), CleanLatexContentIntended(frames[i])))
  }

  /** When no frame has a plain line, the pages as written are the intended ones: the lost
      paragraphs are the only difference. */
  lemma PagesAgreeWithoutPlainLines(frames: seq<string>, m: Metadata)
    requires forall i, j :: 0 <= i < |frames| && 0 <= j < |ContentLines(frames[i])| ==> !PlainLine(ContentLines(frames[i])[j])
    ensures Pages(frames, m) == PagesIntended(frames, m)
  {
    forall i | 0 <= i < |frames| ensures CleanLatexContent(frames[i]) == CleanLatexContentIntended(frames[i]) {
      NoPlainAgree(ContentLines(frames[i]));
    }
  }

  /** The pages of a `.tex` text: its title page, then one page per extracted frame headed
      by that frame's title. */
  function TexToPages(content: string): (r: seq<Page>)
    ensures |r| == |ExtractFrames(content)| + 1
    ensures r[0] == TitlePage(ExtractMetadata(content).title, ExtractMetadata(content).author)
    ensures forall i :: 0 <= i < |ExtractFrames(content)|
              ==> r[i + 1] == FramePage(FrameTitle(ExtractFrames(content)[i], i), CleanLatexContent(ExtractFrames(content)[i]))
  {
    var frames := ExtractFrames(content);
    var pages := Pages(frames, ExtractMetadata(content));
    pages
  }

  /** A lone frame `\begin{frame}\frametitle{t}rest\end{frame}` gives the title page
      and one page headed `t`. */
  lemma OneFrameDeck(title: string, rest: string)
    requires '}' !in title && '\n' !in title && '\\' !in title
    requires !Contains("\\frametitle{" + title + "}" + rest, EndFrame)
    ensures var pages := TexToPages(BeginFrame + "\\frametitle{" + title + "}" + rest + EndFrame);
            |pages| == 2 && pages[0].TitlePage? && pages[1].heading == title
  {
    var body := "\\frametitle{" + title + "}" + rest;
    var s := BeginFrame + body + EndFrame;
    assert s == BeginFrame + "\\frametitle{" + title + "}" + rest + EndFrame;
    FrameRoundTrip(body);
    FrameTitleRoundTrip(title, rest, 0);
  }
}

=== FILE: paths.dfy ===
/** The part of `pathlib.PurePosixPath` the core uses: the final component and its suffix. */
module Paths {
  import opened Wrappers
  import opened Strings

  /** The components pathlib keeps: the text between slashes, without empty and `.` parts. */
  function Segments(path: string): (r: seq<string>)
    ensures forall i :: 0 <= i < |r| ==> r[i] != "" && r[i] != "." && '/' !in r[i]
  {
    KeepSegments(Split(path, '/'))
  }

  /** The parts of a split path that name something. */
  function KeepSegments(parts: seq<string>): (r: seq<string>)
    requires forall i :: 0 <= i < |parts| ==> '/' !in parts[i]
    ensures forall i :: 0 <= i < |r| ==> r[i] != "" && r[i] != "." && '/' !in r[i]
  {
    if parts == [] then []
    else (if parts[0] == "" || parts[0] == "." then [] else [parts[0]]) + KeepSegments(parts[1..])
  }

  /** `path.name`: the final component, or the empty string when there is none. */
  function Name(path: string): (r: string)
    ensures '/' !in r
  {
    var segments := Segments(path);
    if segments == [] then "" else segments[|segments| - 1]
  }

  /** The index of the last `c` in `s`, as `str.rfind` (None standing for -1). */
  function RFind(s: string, c: char): (r: Option<nat>)
    ensures r.Some? ==> r.value < |s| && s[r.value] == c && forall k :: r.value < k < |s| ==> s[k] != c
    ensures r.None? ==> c !in s
  {
    if s == [] then None
    else if s[|s| - 1] == c then Some(|s| - 1)
    else RFind(s[..|s| - 1], c)
  }

  /** `path.suffix` (Python 3.12): from the last dot of the name, provided that dot is neither
      the name's first nor its last character; otherwise empty. */
  function Suffix(path: string): (r: string)
    ensures r == [] || (|r| >= 2 && r[0] == '.' && '.' !in r[1..] && '/' !in r)
    ensures EndsWith(Name(path), r)
    ensures r != [] ==> |r| < |Name(path)|
  {
    var name := Name(path);
    match RFind(name, '.')
    case Some(i) =>
      if 0 < i < |name| - 1 then
        name[i..]
      else ""
    case None => ""
  }

  /** A bare file name `stem.ext` (no slash, a non-empty stem, a non-empty dot-free
      extension) has suffix `.ext`. */
  lemma SuffixOfFileName(stem: string, ext: string)
    requires stem != [] && ext != []
    requires '/' !in stem && '/' !in ext && '.' !in ext
    ensures Suffix(stem + "." + ext) == "." + ext
  {
    var name := stem + "." + ext;
    NameOfBareName(name);
    forall k | |stem| < k < |name| ensures name[k] != '.' {
      assert name[k] == ext[k - |stem| - 1];
    }
    RFindLast(name, '.', |stem|);
    assert name[|stem|..] == "." + ext;
  }

  /** A hidden file `.ext` has no suffix: its only dot is the first character of its name. */
  lemma HiddenFileSuffix(ext: string)
    requires '/' !in ext && '.' !in ext
    ensures Suffix("." + ext) == ""
  {
    var name := "." + ext;
    if ext != "" {
      NameOfBareName(name);
      forall k | 0 < k < |name| ensures name[k] != '.' {
        assert name[k] == ext[k - 1];
      }
      RFindLast(name, '.', 0);
    } else {
      assert Name(name) == "" by {
        SplitFree(name, '/');
        assert [name][1..] == [];
        assert KeepSegments([name]) == [] + KeepSegments([]);
      }
    }
  }

  /** A slash-free name other than `""` and `.` is its own final component. */
  lemma NameOfBareName(name: string)
    requires '/' !in name && name != "" && name != "."
    ensures Name(name) == name
  {
    SplitFree(name, '/');
    assert [name][1..] == [];
    assert KeepSegments([name]) == [name] + KeepSegments([]);
  }

  /** `rfind` finds the occurrence after which the character no longer occurs. */
  lemma {:induction false} RFindLast(s: string, c: char, i: nat)
    requires i < |s| && s[i] == c
    requires forall k :: i < k < |s| ==> s[k] != c
    ensures RFind(s, c) == Some(i)
    decreases |s|
  {
    if i < |s| - 1 {
      var t := s[..|s| - 1];
      assert forall k :: i < k < |t| ==> t[k] != c;
      RFindLast(t, c, i);
    }
  }
}

=== FILE: patterns.dfy ===
/** Hand-written scanners for the fixed regular expressions the core applies to LaTeX text,
    together with the two ways `re` drives them: `search` (leftmost match) and `sub`
    (rewrite every non-overlapping match, left to right). Each scanner is deterministic
    because, for these particular patterns, backtracking can never produce a different
    match; the comment on each variant says why. */
module Patterns {
  import opened Wrappers
  import opened Strings

  /** Where a match ends (exclusive) and what its first capturing group holds
      (empty for patterns without a group). */
  datatype Match = Match(end: nat, group: string)

  /** The literal `lit` occurs at `p`; with `ci`, ASCII letters match in either case
      (the `re.IGNORECASE` flag). */
  predicate LiteralAt(s: string, p: nat, lit: string, ci: bool) {
    p + |lit| <= |s| && (if ci then FoldEqual(s[p..p + |lit|], lit) else s[p..p + |lit|] == lit)
  }

  /** Two texts are equal once ASCII letters are folded to lower case. */
  predicate FoldEqual(a: string, b: string) {
    |a| == |b| && forall i :: 0 <= i < |a| ==> LowerChar(a[i]) == LowerChar(b[i])
  }

  /** Folding both sides and comparing is comparing the lowered texts. */
  lemma FoldEqualLower(a: string, b: string)
    ensures FoldEqual(a, b) <==> Lower(a) == Lower(b)
  {
    if Lower(a) == Lower(b) {
      forall i | 0 <= i < |a| ensures LowerChar(a[i]) == LowerChar(b[i]) {
        assert Lower(a)[i] == Lower(b)[i];
      }
    }
  }

  /** Under case folding, each character of a literal match folds like the literal's. */
  lemma LiteralAtChar(s: string, p: nat, lit: string, j: nat)
    ensures LiteralAt(s, p, lit, true) && j < |lit| ==> LowerChar(s[p + j]) == LowerChar(lit[j])
  {
    if LiteralAt(s, p, lit, true) && j < |lit| {
      assert s[p..p + |lit|][j] == s[p + j];
    }
  }

  /** A literal match fixes every character it covers. */
  lemma LiteralAtExact(s: string, p: nat, lit: string, j: nat)
    requires j < |lit|
    ensures LiteralAt(s, p, lit, false) ==> p + j < |s| && s[p + j] == lit[j]
  {
    if LiteralAt(s, p, lit, false) {
      assert s[p..p + |lit|][j] == s[p + j];
    }
  }

  /** A text that starts with `lit` matches it at 0, in particular under case folding. */
  lemma LiteralAtStart(s: string, lit: string, ci: bool)
    requires StartsWith(s, lit)
    ensures LiteralAt(s, 0, lit, ci)
  {
    assert s[0..|lit|] == lit;
  }

  /** The index of the first `c` at or after `from`. */
  function IndexOf(s: string, from: nat, c: char): (r: Option<nat>)
    ensures r.Some? ==> from <= r.value < |s| && s[r.value] == c
    ensures r.Some? ==> forall k :: from <= k < r.value ==> s[k] != c
    ensures r.None? ==> forall k :: from <= k < |s| ==> s[k] != c
    decreases |s| - from
  {
    if from >= |s| then None
    else if s[from] == c then Some(from)
    else IndexOf(s, from + 1, c)
  }

  /** `IndexOf` finds the first occurrence. */
  lemma IndexOfFirst(s: string, from: nat, c: char, i: nat)
    requires from <= i < |s| && s[i] == c
    requires forall k :: from <= k < i ==> s[k] != c
    ensures IndexOf(s, from, c) == Some(i)
  {
  }

  /** `\{([^}]*)\}` at `p`; with `nonEmpty` the group is `[^}]+`, and with `singleLine` it
      is the lazy `(.*?)` without DOTALL, which cannot cross a newline. In every variant
      the group ends at the first `}`, since a later `}` would have to be preceded by this
      one, which the group may not contain. */
  function BracedAt(s: string, p: nat, nonEmpty: bool, singleLine: bool): (r: Option<Match>)
    ensures r.Some? ==> p < r.value.end <= |s| && s[p] == '{' && s[r.value.end - 1] == '}'
    ensures r.Some? ==> r.value.group == s[p + 1..r.value.end - 1] && '}' !in r.value.group
    ensures r.Some? && nonEmpty ==> r.value.group != []
    ensures r.Some? && singleLine ==> '\n' !in r.value.group
  {
    if p < |s| && s[p] == '{' then
      match IndexOf(s, p + 1, '}')
      case None => None
      case Some(c) =>
        var g := s[p + 1..c];
        if (nonEmpty && g == []) || (singleLine && '\n' in g) then None
        else Some(Match(c + 1, g))
    else None
  }

  /** `\[[^\]]*\]` at `p`: the index just past the first `]`. */
  function BracketEnd(s: string, p: nat): (r: Option<nat>)
    ensures r.Some? ==> p < r.value <= |s| && s[p] == '[' && s[r.value - 1] == ']'
  {
    if p < |s| && s[p] == '[' then
      match IndexOf(s, p + 1, ']')
      case None => None
      case Some(c) => Some(c + 1)
    else None
  }

  /** `[a-zA-Z]` */
  predicate IsAsciiLetter(c: char) {
    ('a' <= c <= 'z') || ('A' <= c <= 'Z')
  }

  /** The end of the longest run of ASCII letters starting at `p` (greedy `[a-zA-Z]*`). */
  function LettersEnd(s: string, p: nat): (r: nat)
    requires p <= |s|
    ensures p <= r <= |s|
    ensures forall k :: p <= k < r ==> IsAsciiLetter(s[k])
    ensures r == |s| || !IsAsciiLetter(s[r])
    decreases |s| - p
  {
    if p < |s| && IsAsciiLetter(s[p]) then LettersEnd(s, p + 1) else p
  }

  /** The regular expressions of the core. */
  datatype Pattern =
      /** `\\name\{([^}]*)\}` with the `nonEmpty` / `singleLine` variants of `BracedAt`;
          `name` includes the leading backslash. */
    | Command(name: string, ci: bool, nonEmpty: bool, singleLine: bool)
      /** `\\name(?:\[[^\]]*\])\{([^}]+)\}` under IGNORECASE: the bracket group is mandatory. */
    | CommandWithOptions(name: string)
      /** `\\[a-zA-Z]+\*?(?:\[[^\]]*\])?\{[^}]*\}`: giving back letters, the star or the
          bracket group leaves a letter, `*` or `[` where `[`/`{` is needed, so the greedy
          choice is the only one. */
    | AnyCommandWithArgument
      /** `\\[a-zA-Z]+\{([^}]*)\}` */
    | LetterCommandWithArgument
      /** `\\[a-zA-Z]+` */
    | LetterCommand
      /** A fixed non-empty text, case-sensitive. */
    | Literal(text: string)
      /** `\\item\s*` */
    | ItemMarker
      /** `[{}]` */
    | AnyBrace

  /** The match of `pat` starting exactly at `p`, if any (`pattern.match(s, p)`). */
  function MatchAt(pat: Pattern, s: string, p: nat): (r: Option<Match>)
    ensures r.Some? ==> p < r.value.end <= |s|
  {
    match pat
    case Command(name, ci, nonEmpty, singleLine) =>
      if name != [] && LiteralAt(s, p, name, ci) then BracedAt(s, p + |name|, nonEmpty, singleLine) else None
    case CommandWithOptions(name) =>
      if name != [] && LiteralAt(s, p, name, true) then
        match BracketEnd(s, p + |name|)
        case Some(b) => BracedAt(s, b, true, false)
        case None => None
      else None
    case AnyCommandWithArgument =>
      if p < |s| && s[p] == '\\' && LettersEnd(s, p + 1) > p + 1 then
        var e := LettersEnd(s, p + 1);
        var e' := if e < |s| && s[e] == '*' then e + 1 else e;
        var b := BracketEnd(s, e').GetOr(e');
        match BracedAt(s, b, false, false)
        case Some(m) => Some(Match(m.end, ""))
        case None => None
      else None
    case LetterCommandWithArgument =>
      if p < |s| && s[p] == '\\' && LettersEnd(s, p + 1) > p + 1 then
        BracedAt(s, LettersEnd(s, p + 1), false, false)
      else None
    case LetterCommand =>
      if p < |s| && s[p] == '\\' && LettersEnd(s, p + 1) > p + 1 then
        Some(Match(LettersEnd(s, p + 1), ""))
      else None
    case Literal(text) =>
      if text != [] && LiteralAt(s, p, text, false) then Some(Match(p + |text|, "")) else None
    case ItemMarker =>
      if LiteralAt(s, p, "\\item", false) then Some(Match(SpacesEnd(s, p + 5), "")) else None
    case AnyBrace =>
      if p < |s| && (s[p] == '{' || s[p] == '}') then Some(Match(p + 1, "")) else None
  }

  /** The options group of `CommandWithOptions` needs a `[`: without one the pattern
      matches nowhere. */
  lemma NoOptionsNoMatch(name: string, s: string)
    requires '[' !in s
    ensures Search(CommandWithOptions(name), s, 0).None?
  {
    forall q | 0 <= q <= |s| ensures MatchAt(CommandWithOptions(name), s, q).None? {
      if name != [] && LiteralAt(s, q, name, true) {
        assert BracketEnd(s, q + |name|).None?;
      }
    }
  }

  /** A match found by `search`: where it starts, and the match itself. */
  datatype Found = Found(start: nat, m: Match)

  /** `pattern.search(s, from)`: the match at the leftmost position at or after `from`
      where the pattern matches at all. */
  function Search(pat: Pattern, s: string, from: nat): (r: Option<Found>)
    ensures r.Some? ==> from <= r.value.start <= |s| && MatchAt(pat, s, r.value.start) == Some(r.value.m)
    ensures r.Some? ==> forall q :: from <= q < r.value.start ==> MatchAt(pat, s, q).None?
    ensures r.None? ==> forall q :: from <= q <= |s| ==> MatchAt(pat, s, q).None?
    decreases |s| + 1 - from
  {
    if from > |s| then None
    else match MatchAt(pat, s, from)
      case Some(m) => Some(Found(from, m))
      case None => Search(pat, s, from + 1)
  }

  /** A match at `k` with none in `[from, k)` is the one `search` finds: by the contract
      of `Search`, any other start would contradict one of the two facts. */
  lemma SearchFirst(pat: Pattern, s: string, from: nat, k: nat)
    requires from <= k <= |s| && MatchAt(pat, s, k).Some?
    requires forall q :: from <= q < k ==> MatchAt(pat, s, q).None?
    ensures Search(pat, s, from) == Some(Found(k, MatchAt(pat, s, k).value))
  {
  }

  /** The patterns whose every match starts with a backslash. */
  predicate BackslashPattern(pat: Pattern) {
    match pat
    case Command(name, _, _, _) => name != [] && name[0] == '\\'
    case CommandWithOptions(name) => name != [] && name[0] == '\\'
    case Literal(text) => text != [] && text[0] == '\\'
    case AnyBrace => false
    case _ => true
  }

  /** Where such a pattern matches, the text has a backslash. */
  lemma MatchNeedsBackslash(pat: Pattern, s: string, q: nat)
    requires BackslashPattern(pat) && MatchAt(pat, s, q).Some?
    ensures q < |s| && s[q] == '\\'
  {
    match pat
    case Command(name, ci, _, _) =>
      LiteralAtChar(s, q, name, 0);
      assert s[q..q + |name|][0] == s[q];
    case CommandWithOptions(name) =>
      LiteralAtChar(s, q, name, 0);
      assert s[q..q + |name|][0] == s[q];
    case Literal(text) =>
      assert s[q..q + |text|][0] == s[q];
    case ItemMarker =>
      assert s[q..q + 5][0] == s[q];
    case _ =>
  }

  /** Where the text has no backslash, such a pattern does not match. */
  lemma NoMatchWithoutBackslash(pat: Pattern, s: string, q: nat)
    requires BackslashPattern(pat) && (q >= |s| || s[q] != '\\')
    ensures MatchAt(pat, s, q).None?
  {
    if MatchAt(pat, s, q).Some? {
      MatchNeedsBackslash(pat, s, q);
    }
  }

  /** A text without backslashes is left alone by the substitution of such a pattern. */
  lemma SubWithoutBackslash(pat: Pattern, repl: Replacement, s: string)
    requires BackslashPattern(pat) && '\\' !in s
    ensures Sub(pat, repl, s) == s
  {
    forall q | 0 <= q < |s| ensures MatchAt(pat, s, q).None? {
      NoMatchWithoutBackslash(pat, s, q);
    }
    SubFromNoMatch(pat, repl, s, 0);
    assert s[0..] == s;
  }

  /** A substitution leaves the text alone when its pattern matches at none of the
      text's backslashes. */
  lemma SubUnmatched(pat: Pattern, repl: Replacement, s: string)
    requires BackslashPattern(pat)
    requires forall q :: 0 <= q < |s| && s[q] == '\\' ==> MatchAt(pat, s, q).None?
    ensures Sub(pat, repl, s) == s
  {
    forall q | 0 <= q < |s| ensures MatchAt(pat, s, q).None? {
      if s[q] != '\\' {
        NoMatchWithoutBackslash(pat, s, q);
      }
    }
    SubFromNoMatch(pat, repl, s, 0);
    assert s[0..] == s;
  }

  /** Where nothing matches, the scan copies one character and moves on. */
  lemma SubFromSkip(pat: Pattern, repl: Replacement, s: string, p: nat)
    requires p < |s| && MatchAt(pat, s, p).None?
    ensures SubFrom(pat, repl, s, p) == [s[p]] + SubFrom(pat, repl, s, p + 1)
  {
  }

  /** Where a match starts, the scan emits its replacement and resumes after it. */
  lemma SubFromMatch(pat: Pattern, repl: Replacement, s: string, p: nat, m: Match)
    requires p < |s| && MatchAt(pat, s, p) == Some(m)
    ensures SubFrom(pat, repl, s, p) == Expand(repl, m) + SubFrom(pat, repl, s, m.end)
  {
  }

  /** Scanning over a stretch without matches copies it. */
  lemma {:induction false} SubFromCopy(pat: Pattern, repl: Replacement, s: string, p: nat, k: nat)
    requires p <= k <= |s|
    requires forall q :: p <= q < k ==> MatchAt(pat, s, q).None?
    ensures SubFrom(pat, repl, s, p) == s[p..k] + SubFrom(pat, repl, s, k)
    decreases k - p
  {
    if p < k {
      SubFromSkip(pat, repl, s, p);
      SubFromCopy(pat, repl, s, p + 1, k);
      calc {
        SubFrom(pat, repl, s, p);
        [s[p]] + SubFrom(pat, repl, s, p + 1);
        [s[p]] + (s[p + 1..k] + SubFrom(pat, repl, s, k));
        ([s[p]] + s[p + 1..k]) + SubFrom(pat, repl, s, k);
        { assert s[p..k] == [s[p]] + s[p + 1..k]; }
        s[p..k] + SubFrom(pat, repl, s, k);
      }
    }
  }

  /** A stretch without backslashes holds no match of a backslash pattern. */
  lemma NoMatchBetween(pat: Pattern, s: string, lo: nat, hi: nat)
    requires BackslashPattern(pat) && hi <= |s|
    requires forall q :: lo <= q < hi ==> s[q] != '\\'
    ensures forall q :: lo <= q < hi ==> MatchAt(pat, s, q).None?
  {
    forall q | lo <= q < hi ensures MatchAt(pat, s, q).None? {
      NoMatchWithoutBackslash(pat, s, q);
    }
  }

  /** A pattern that misses at the text's only backslash leaves the text alone. */
  lemma SubKeepsAt(pat: Pattern, repl: Replacement, s: string, k: nat)
    requires BackslashPattern(pat)
    requires forall q :: 0 <= q < |s| && q != k ==> s[q] != '\\'
    requires MatchAt(pat, s, k).None?
    ensures Sub(pat, repl, s) == s
  {
    forall q | 0 <= q < |s| ensures MatchAt(pat, s, q).None? {
      if q != k {
        NoMatchWithoutBackslash(pat, s, q);
      }
    }
    SubFromNoMatch(pat, repl, s, 0);
    assert s[0..] == s;
  }

  /** Between two backslash-free texts, a pattern that misses at every backslash of
      `mid` leaves the text alone. */
  lemma SubKeepsAround(pat: Pattern, repl: Replacement, a: string, mid: string, b: string)
    requires BackslashPattern(pat) && '\\' !in a && '\\' !in b
    requires forall j :: 0 <= j < |mid| && mid[j] == '\\' ==> MatchAt(pat, a + mid + b, |a| + j).None?
    ensures Sub(pat, repl, a + mid + b) == a + mid + b
  {
    var s := a + mid + b;
    forall q | 0 <= q < |s| ensures MatchAt(pat, s, q).None? {
      if q < |a| {
        assert s[q] == a[q];
        NoMatchWithoutBackslash(pat, s, q);
      } else if q < |a| + |mid| {
        assert s[q] == mid[q - |a|];
        if mid[q - |a|] != '\\' {
          NoMatchWithoutBackslash(pat, s, q);
        }
      } else {
        assert s[q] == b[q - |a| - |mid|];
        NoMatchWithoutBackslash(pat, s, q);
      }
    }
    SubFromNoMatch(pat, repl, s, 0);
    assert s[0..] == s;
  }

  /** The same for a `mid` whose only backslash is its first character. */
  lemma SubKeepsOne(pat: Pattern, repl: Replacement, a: string, mid: string, b: string)
    requires BackslashPattern(pat) && '\\' !in a && '\\' !in b
    requires mid != [] && '\\' !in mid[1..] && MatchAt(pat, a + mid + b, |a|).None?
    ensures Sub(pat, repl, a + mid + b) == a + mid + b
  {
    forall j | 0 < j < |mid| ensures mid[j] != '\\' {
      assert mid[j] == mid[1..][j - 1];
    }
    SubKeepsAround(pat, repl, a, mid, b);
  }

  /** A text whose only match is the one at `p`, ending at `m.end`, keeps what lies
      before and after it and has the match replaced. */
  lemma SubAt(pat: Pattern, repl: Replacement, s: string, p: nat, m: Match)
    requires p < |s| && MatchAt(pat, s, p) == Some(m)
    requires forall q :: 0 <= q < p ==> MatchAt(pat, s, q).None?
    requires forall q :: m.end <= q < |s| ==> MatchAt(pat, s, q).None?
    ensures Sub(pat, repl, s) == s[..p] + Expand(repl, m) + s[m.end..]
  {
    SubFromCopy(pat, repl, s, 0, p);
    SubFromMatch(pat, repl, s, p, m);
    SubFromNoMatch(pat, repl, s, m.end);
    assert s[0..p] == s[..p];
  }

  /** One match between two backslash-free texts is the only thing a substitution
      rewrites: `a + mid + b` becomes `a`, the replacement, then `b`. */
  lemma SubAround(pat: Pattern, repl: Replacement, a: string, mid: string, b: string, g: string)
    requires BackslashPattern(pat) && '\\' !in a && '\\' !in b
    requires MatchAt(pat, a + mid + b, |a|) == Some(Match(|a| + |mid|, g))
    ensures Sub(pat, repl, a + mid + b) == a + Expand(repl, Match(|a| + |mid|, g)) + b
  {
    var s := a + mid + b;
    var e := |a| + |mid|;
    assert s[..|a|] == a && s[e..] == b;
    assert forall q :: 0 <= q < |a| ==> s[q] != '\\' by {
      forall q | 0 <= q < |a| ensures s[q] != '\\' { assert s[q] == s[..|a|][q]; }
    }
    NoMatchBetween(pat, s, 0, |a|);
    assert forall q :: e <= q < |s| ==> s[q] != '\\' by {
      forall q | e <= q < |s| ensures s[q] != '\\' { assert s[q] == s[e..][q - e]; }
    }
    NoMatchBetween(pat, s, e, |s|);
    SubAt(pat, repl, s, |a|, Match(e, g));
  }

  /** The first capturing group of the leftmost match, as `m.group(1)` after `re.search`. */
  function SearchGroup(pat: Pattern, s: string): (r: Option<string>)
    ensures r.Some? <==> Search(pat, s, 0).Some?
  {
    match Search(pat, s, 0)
    case Some(f) => Some(f.m.group)
    case None => None
  }

  /** The replacement argument of `re.sub`: a fixed text, or the first group framed by
      fixed texts (`r'\1'`, `r'<strong>\1</strong>'`). */
  datatype Replacement = Constant(text: string) | Wrap(before: string, after: string)

  /** The text that replaces match `m`. */
  function Expand(repl: Replacement, m: Match): string {
    match repl
    case Constant(t) => t
    case Wrap(before, after) => before + m.group + after
  }

  /** `re.sub` from position `p` on: a match is replaced and scanning resumes after it;
      elsewhere the character is copied and scanning moves one step. */
  function SubFrom(pat: Pattern, repl: Replacement, s: string, p: nat): string
    decreases |s| - p
  {
    if p >= |s| then []
    else match MatchAt(pat, s, p)
      case Some(m) => Expand(repl, m) + SubFrom(pat, repl, s, m.end)
      case None => [s[p]] + SubFrom(pat, repl, s, p + 1)
  }

  /** `re.sub(pattern, repl, s)`. */
  function Sub(pat: Pattern, repl: Replacement, s: string): string {
    SubFrom(pat, repl, s, 0)
  }

  /** Where the pattern matches nowhere, `re.sub` returns the text unchanged. */
  lemma {:induction false} SubFromNoMatch(pat: Pattern, repl: Replacement, s: string, p: nat)
    requires p <= |s|
    requires forall q :: p <= q < |s| ==> MatchAt(pat, s, q).None?
    ensures SubFrom(pat, repl, s, p) == s[p..]
    decreases |s| - p
  {
    if p < |s| {
      SubFromNoMatch(pat, repl, s, p + 1);
      assert s[p..] == [s[p]] + s[p + 1..];
    }
  }

  /** `re.sub(r'[{}]', '', s)` deletes exactly the braces and keeps everything else in order. */
  lemma {:induction false} SubBracesFrom(s: string, p: nat)
    requires p <= |s|
    ensures SubFrom(AnyBrace, Constant(""), s, p) == WithoutBraces(s[p..])
    decreases |s| - p
  {
    if p < |s| {
      SubBracesFrom(s, p + 1);
      assert s[p..] == [s[p]] + s[p + 1..];
      assert s[p..][1..] == s[p + 1..];
    }
  }

  /** The text with every `{` and `}` left out. */
  function WithoutBraces(s: string): (r: string)
    ensures '{' !in r && '}' !in r
    ensures forall k :: 0 <= k < |r| ==> r[k] in s
  {
    if s == [] then []
    else (if s[0] == '{' || s[0] == '}' then [] else [s[0]]) + WithoutBraces(s[1..])
  }

  /** Deleting braces from a text that has none changes nothing. */
  lemma {:induction false} NoBracesKept(s: string)
    requires '{' !in s && '}' !in s
    ensures WithoutBraces(s) == s
  {
    if s != [] {
      assert s[0] != '{' && s[0] != '}';
      assert '{' !in s[1..] && '}' !in s[1..];
      NoBracesKept(s[1..]);
      calc {
        WithoutBraces(s);
        [s[0]] + WithoutBraces(s[1..]);
        [s[0]] + s[1..];
        { assert s == [s[0]] + s[1..]; }
        s;
      }
    }
  }

  /** The brace-deleting substitution leaves no brace behind and adds nothing. */
  lemma SubBraces(s: string)
    ensures Sub(AnyBrace, Constant(""), s) == WithoutBraces(s)
    ensures '{' !in Sub(AnyBrace, Constant(""), s) && '}' !in Sub(AnyBrace, Constant(""), s)
  {
    SubBracesFrom(s, 0);
    assert s[0..] == s;
  }
}

=== FILE: ppt_converter.dfy ===
/** `ppt_converter.py`: the decisions of the legacy converter that do not touch a file or a
    presentation library: which conversion `convert` dispatches to, how slide text is made
    safe for LaTeX and laid out as lines, which text becomes a frame title, and how a
    paragraph becomes a Markdown line. */
module PptConverter {
  import opened Wrappers
  import opened Strings
  import opened Paths

  // ---------------------------------------------------------------- routing

  /** `PresentationConverter.supported_formats` */
  const SupportedFormats: seq<string> := ["pptx", "md", "tex", "latex"]

  /** The kinds of document the converter handles; `tex` and `latex` name the same kind. */
  datatype Family = PowerPoint | Markdown | LaTeX

  /** Membership in `supported_formats`. */
  predicate Supported(format: string) {
    format == "pptx" || format == "md" || format == "tex" || format == "latex"
  }

  /** `Supported` is membership in the list. */
  lemma SupportedIsListed(format: string)
    ensures Supported(format) <==> format in SupportedFormats
  {
  }

  /** The kind a supported format name denotes, none for any other name. */
  function FamilyOf(format: string): (r: Option<Family>)
    ensures r.Some? <==> Supported(format)
    ensures r == Some(LaTeX) <==> format == "tex" || format == "latex"
  {
    if format == "pptx" then Some(PowerPoint)
    else if format == "md" then Some(Markdown)
    else if format == "tex" || format == "latex" then Some(LaTeX)
    else None
  }

  /** `s.lstrip(c)` for one character. */
  function LStripChar(s: string, c: char): (r: string)
    ensures |r| <= |s| && r == s[|s| - |r|..]
    ensures r == [] || r[0] != c
    ensures forall k :: 0 <= k < |s| - |r| ==> s[k] == c
    decreases |s|
  {
    if s != [] && s[0] == c then
      var r := LStripChar(s[1..], c);
      assert s[|s| - |r|..] == s[1..][|s| - 1 - |r|..];
      assert forall k :: 1 <= k < |s| - |r| ==> s[k] == s[1..][k - 1];
      r
    else s
  }

  /** `Path(input_path).suffix.lower().lstrip('.')` */
  function InputFormat(inputPath: string): string {
    LStripChar(Lower(Suffix(inputPath)), '.')
  }

  /** Lower-casing leaves every character other than an ASCII capital as it is. */
  lemma LowerKeepsDot(s: string)
    requires '.' !in s
    ensures '.' !in Lower(s)
  {
    forall k | 0 <= k < |s| ensures Lower(s)[k] != '.' {
      assert s[k] != '.';
    }
  }

  /** The input format of a file name `stem.ext` is its lower-cased extension. */
  lemma InputFormatOfFileName(stem: string, ext: string)
    requires stem != [] && ext != []
    requires '/' !in stem && '/' !in ext && '.' !in ext
    ensures InputFormat(stem + "." + ext) == Lower(ext)
  {
    SuffixOfFileName(stem, ext);
    LowerAppend(".", ext);
    LowerKeepsDot(ext);
    assert Lower("." + ext) == ['.'] + Lower(ext);
    assert (['.'] + Lower(ext))[1..] == Lower(ext);
  }

  /** What `convert` does when it does not raise: hand the input path back, or call the
      converter from one kind of document to another. */
  datatype Route = Unchanged(path: string) | Conversion(source: Family, target: Family)

  /** The exceptions `convert` raises itself. */
  datatype ConvertError = ValueError(message: string) | NotImplementedError(message: string)

  /** The decision of `PresentationConverter.convert` once the input format is known: raise,
      hand the input path back, or pick a converter. */
  function Dispatch(inputFormat: string, outputFormat: string, inputPath: string): (r: Result<Route, ConvertError>)
    ensures r.Failure? && r.error.ValueError? <==> FamilyOf(inputFormat).None? || FamilyOf(outputFormat).None?
    ensures r == Success(Unchanged(inputPath)) <==> FamilyOf(inputFormat).Some? && inputFormat == outputFormat
    ensures (r.Success? && r.value.Conversion?)
        <==> && FamilyOf(inputFormat).Some? && FamilyOf(outputFormat).Some?
             && FamilyOf(inputFormat) != FamilyOf(outputFormat)
             && (FamilyOf(inputFormat) == Some(PowerPoint) || FamilyOf(outputFormat) == Some(PowerPoint))
    ensures r.Success? && r.value.Conversion?
        ==> Some(r.value.source) == FamilyOf(inputFormat) && Some(r.value.target) == FamilyOf(outputFormat)
    ensures r.Failure? && r.error.NotImplementedError?
        <==> && FamilyOf(inputFormat).Some? && FamilyOf(outputFormat).Some? && inputFormat != outputFormat
             && FamilyOf(inputFormat) != Some(PowerPoint) && FamilyOf(outputFormat) != Some(PowerPoint)
  {
    if !Supported(inputFormat) then
      Failure(ValueError("Unsupported input format: " + inputFormat))
    else if !Supported(outputFormat) then
      Failure(ValueError("Unsupported output format: " + outputFormat))
    else if inputFormat == outputFormat then
      Success(Unchanged(inputPath))
    else if inputFormat == "pptx" && outputFormat == "md" then
      Success(Conversion(PowerPoint, Markdown))
    else if inputFormat == "pptx" && (outputFormat == "tex" || outputFormat == "latex") then
      Success(Conversion(PowerPoint, LaTeX))
    else if inputFormat == "md" && outputFormat == "pptx" then
      Success(Conversion(Markdown, PowerPoint))
    else if (inputFormat == "tex" || inputFormat == "latex") && outputFormat == "pptx" then
      Success(Conversion(LaTeX, PowerPoint))
    else
      Failure(NotImplementedError("Conversion from " + inputFormat + " to " + outputFormat + " not yet implemented"))
  }

  /** `PresentationConverter.convert`, up to the call of the chosen converter. */
  function Convert(inputPath: string, outputFormat: string): (r: Result<Route, ConvertError>)
    ensures r.Failure? && r.error.ValueError?
        <==> FamilyOf(InputFormat(inputPath)).None? || FamilyOf(outputFormat).None?
    ensures r == Success(Unchanged(inputPath))
        <==> FamilyOf(InputFormat(inputPath)).Some? && InputFormat(inputPath) == outputFormat
    ensures (r.Success? && r.value.Conversion?)
        <==> && FamilyOf(InputFormat(inputPath)).Some? && FamilyOf(outputFormat).Some?
             && FamilyOf(InputFormat(inputPath)) != FamilyOf(outputFormat)
             && (FamilyOf(InputFormat(inputPath)) == Some(PowerPoint) || FamilyOf(outputFormat) == Some(PowerPoint))
    ensures r.Success? && r.value.Conversion?
        ==> Some(r.value.source) == FamilyOf(InputFormat(inputPath)) && Some(r.value.target) == FamilyOf(outputFormat)
  {
    Dispatch(InputFormat(inputPath), outputFormat, inputPath)
  }

  /** Between two supported formats `convert` refuses exactly the pairs that do not involve
      PowerPoint, and the two names of LaTeX: `tex` to `latex` is not treated as a no-op. */
  lemma NotImplementedPairs(inputPath: string, outputFormat: string)
    requires FamilyOf(InputFormat(inputPath)).Some? && FamilyOf(outputFormat).Some?
    ensures Convert(inputPath, outputFormat).Failure?
        <==> || (InputFormat(inputPath) in {"md", "tex", "latex"} && outputFormat in {"md", "tex", "latex"}
                 && InputFormat(inputPath) != outputFormat)
    ensures Convert(inputPath, outputFormat).Failure? ==> Convert(inputPath, outputFormat).error.NotImplementedError?
  {
  }

  // ---------------------------------------------------------------- escaping

  /** Lines 224-225: the characters special to LaTeX get a backslash; `^` becomes `\^{}`. */
  function EscapeSpecials(t: string): string {
    var t := ReplaceChar(ReplaceChar(ReplaceChar(t, '&', "\\&"), '%', "\\%"), '$', "\\$");
    ReplaceChar(ReplaceChar(ReplaceChar(t, '#', "\\#"), '_', "\\_"), '^', "\\^{}")
  }

  /** Lines 227-228: the quote replacements, each of a character by itself. */
  function ReplaceQuotes(t: string): string {
    ReplaceChar(ReplaceChar(ReplaceChar(ReplaceChar(t, '"', "\""), '"', "\""), '"', "\""), '\'', "'")
  }

  /** Line 229: the em dash becomes `--`, the en dash `-`. */
  function ReplaceDashes(t: string): string {
    ReplaceChar(ReplaceChar(t, '\U{2014}', "--"), '\U{2013}', "-")
  }

  /** Lines 230-231: vertical tabs and form feeds are dropped. */
  function DropControls(t: string): string {
    ReplaceChar(ReplaceChar(t, '\U{B}', ""), '\U{C}', "")
  }

  /** The chain of `str.replace` calls `pptx_to_latex` applies to a shape's text. */
  function ReplaceChain(text: string): string {
    DropControls(ReplaceDashes(ReplaceQuotes(EscapeSpecials(text))))
  }

  /** The LaTeX-safe form of a shape's text: the chain of replacements, which amounts to
      the escape table applied to each character on its own. */
  function LatexSafe(text: string): (r: string)
    ensures r == EscapeEach(text)
  {
    LatexSafeIsPerChar(text);
    ReplaceChain(text)
  }

  /** The characters that gain a backslash. */
  predicate Special(c: char) {
    c == '&' || c == '%' || c == '$' || c == '#' || c == '_'
  }

  /** What the chain does to one character, read off as a table. */
  function EscapeChar(c: char): (r: string)
    ensures Special(c) ==> r == ['\\', c]
    ensures c == '\\' || c == '{' || c == '}' ==> r == [c]
  {
    if Special(c) then ['\\', c]
    else if c == '^' then "\\^{}"
    else if c == '\U{2014}' then "--"
    else if c == '\U{2013}' then "-"
    else if c == '\U{B}' || c == '\U{C}' then ""
    else [c]
  }

  /** Every character rewritten by its entry of the table. */
  function EscapeEach(s: string): string {
    if s == [] then [] else EscapeChar(s[0]) + EscapeEach(s[1..])
  }

  /** The quote replacements change nothing. */
  lemma ReplaceQuotesIdentity(t: string)
    ensures ReplaceQuotes(t) == t
  {
    ReplaceCharIdentity(t, '"');
    ReplaceCharIdentity(t, '\'');
  }

  /** The chain works character by character. */
  lemma ReplaceChainAppend(a: string, b: string)
    ensures ReplaceChain(a + b) == ReplaceChain(a) + ReplaceChain(b)
  {
    ReplaceCharAppend(a, b, '&', "\\&");
    var a1, b1 := ReplaceChar(a, '&', "\\&"), ReplaceChar(b, '&', "\\&");
    ReplaceCharAppend(a1, b1, '%', "\\%");
    var a2, b2 := ReplaceChar(a1, '%', "\\%"), ReplaceChar(b1, '%', "\\%");
    ReplaceCharAppend(a2, b2, '$', "\\$");
    var a3, b3 := ReplaceChar(a2, '$', "\\$"), ReplaceChar(b2, '$', "\\$");
    ReplaceCharAppend(a3, b3, '#', "\\#");
    var a4, b4 := ReplaceChar(a3, '#', "\\#"), ReplaceChar(b3, '#', "\\#");
    ReplaceCharAppend(a4, b4, '_', "\\_");
    var a5, b5 := ReplaceChar(a4, '_', "\\_"), ReplaceChar(b4, '_', "\\_");
    ReplaceCharAppend(a5, b5, '^', "\\^{}");
    var a6, b6 := EscapeSpecials(a), EscapeSpecials(b);
    ReplaceQuotesIdentity(a6);
    ReplaceQuotesIdentity(b6);
    ReplaceQuotesIdentity(a6 + b6);
    ReplaceCharAppend(a6, b6, '\U{2014}', "--");
    var a7, b7 := ReplaceChar(a6, '\U{2014}', "--"), ReplaceChar(b6, '\U{2014}', "--");
    ReplaceCharAppend(a7, b7, '\U{2013}', "-");
    var a8, b8 := ReplaceDashes(a6), ReplaceDashes(b6);
    ReplaceCharAppend(a8, b8, '\U{B}', "");
    var a9, b9 := ReplaceChar(a8, '\U{B}', ""), ReplaceChar(b8, '\U{B}', "");
    ReplaceCharAppend(a9, b9, '\U{C}', "");
  }

  /** On one character the specials step is its part of the table. */
  lemma EscapeSpecialsChar(c: char)
    ensures Special(c) ==> EscapeSpecials([c]) == ['\\', c]
    ensures c == '^' ==> EscapeSpecials([c]) == "\\^{}"
    ensures !Special(c) && c != '^' ==> EscapeSpecials([c]) == [c]
  {
    ReplaceCharSingle(c, '&', "\\&");
    var t1 := ReplaceChar([c], '&', "\\&");
    if c == '&' {
      ReplaceCharAbsent(t1, '%', "\\%");
      ReplaceCharAbsent(t1, '$', "\\$");
      ReplaceCharAbsent(t1, '#', "\\#");
      ReplaceCharAbsent(t1, '_', "\\_");
      ReplaceCharAbsent(t1, '^', "\\^{}");
    } else {
      ReplaceCharSingle(c, '%', "\\%");
      var t2 := ReplaceChar([c], '%', "\\%");
      if c == '%' {
        ReplaceCharAbsent(t2, '$', "\\$");
        ReplaceCharAbsent(t2, '#', "\\#");
        ReplaceCharAbsent(t2, '_', "\\_");
        ReplaceCharAbsent(t2, '^', "\\^{}");
      } else {
        ReplaceCharSingle(c, '$', "\\$");
        var t3 := ReplaceChar([c], '$', "\\$");
        if c == '$' {
          ReplaceCharAbsent(t3, '#', "\\#");
          ReplaceCharAbsent(t3, '_', "\\_");
          ReplaceCharAbsent(t3, '^', "\\^{}");
        } else {
          ReplaceCharSingle(c, '#', "\\#");
          var t4 := ReplaceChar([c], '#', "\\#");
          if c == '#' {
            ReplaceCharAbsent(t4, '_', "\\_");
            ReplaceCharAbsent(t4, '^', "\\^{}");
          } else {
            ReplaceCharSingle(c, '_', "\\_");
            ReplaceCharSingle(c, '^', "\\^{}");
            if c == '_' {
              ReplaceCharAbsent(ReplaceChar([c], '_', "\\_"), '^', "\\^{}");
            }
          }
        }
      }
    }
  }

  /** The dash and control-character steps leave a text without those characters alone. */
  lemma TailAbsent(t: string)
    requires '\U{2014}' !in t && '\U{2013}' !in t && '\U{B}' !in t && '\U{C}' !in t
    ensures DropControls(ReplaceDashes(t)) == t
  {
    ReplaceCharAbsent(t, '\U{2014}', "--");
    ReplaceCharAbsent(t, '\U{2013}', "-");
    ReplaceCharAbsent(t, '\U{B}', "");
    ReplaceCharAbsent(t, '\U{C}', "");
  }

  /** On one character the dash and control-character steps are their part of the table. */
  lemma TailChar(c: char)
    ensures DropControls(ReplaceDashes([c]))
         == if c == '\U{2014}' then "--" else if c == '\U{2013}' then "-"
            else if c == '\U{B}' || c == '\U{C}' then "" else [c]
  {
    ReplaceCharSingle(c, '\U{2014}', "--");
    if c == '\U{2014}' {
      TailAbsent("--");
      assert ReplaceDashes([c]) == "--";
    } else {
      ReplaceCharSingle(c, '\U{2013}', "-");
      if c == '\U{2013}' {
        TailAbsent("-");
        assert ReplaceDashes([c]) == "-";
      } else {
        assert ReplaceDashes([c]) == [c];
        ReplaceCharSingle(c, '\U{B}', "");
        ReplaceCharSingle(c, '\U{C}', "");
        if c == '\U{B}' {
          ReplaceCharAbsent([], '\U{C}', "");
        }
      }
    }
  }

  /** The braces `^` gains are left alone by the later steps. */
  lemma TailCaret(t: string)
    requires t == "\\^{}"
    ensures DropControls(ReplaceDashes(t)) == t
  {
    TailAbsent(t);
  }

  /** On one character the chain is the table entry: no replacement produces a character a
      later one rewrites. */
  lemma ReplaceChainChar(c: char)
    ensures ReplaceChain([c]) == EscapeChar(c)
  {
    var e := EscapeSpecials([c]);
    EscapeSpecialsChar(c);
    ReplaceQuotesIdentity(e);
    if Special(c) {
      assert e == ['\\', c];
      TailAbsent(e);
    } else if c == '^' {
      TailCaret(e);
    } else {
      assert e == [c];
      TailChar(c);
    }
  }

  /** The chain of replacements is the table applied to each character. */
  lemma {:induction false} LatexSafeIsPerChar(s: string)
    ensures ReplaceChain(s) == EscapeEach(s)
    decreases |s|
  {
    if s != [] {
      assert s == [s[0]] + s[1..];
      ReplaceChainAppend([s[0]], s[1..]);
      ReplaceChainChar(s[0]);
      LatexSafeIsPerChar(s[1..]);
    }
  }

  // ---------------------------------------------------------------- line layout

  /** A stripped line is set off when it is short and does not end like a sentence. */
  predicate Emphasised(line: string) {
    |line| < 30 && !EndsWith(line, ".")
  }

  /** The LaTeX for one stripped line (lines 237-246): Beamer bolds an emphasised line and
      ends every line with a forced break `\\`; the article class turns an emphasised line
      into an unnumbered subsection and keeps the others as they are. */
  function FormatLine(line: string, beamer: bool): (r: string)
    ensures beamer ==> EndsWith(r, "\\\\")
    ensures beamer && Emphasised(line) ==> StartsWith(r, "\\textbf{") && EndsWith(r, "}\\\\")
    ensures beamer && !Emphasised(line) ==> r == line + "\\\\"
    ensures !beamer && Emphasised(line) ==> StartsWith(r, "\\subsection*{") && EndsWith(r, "}")
    ensures !beamer && !Emphasised(line) ==> r == line
    ensures |r| >= |line|
  {
    if beamer then
      if Emphasised(line) then "\\textbf{" + line + "}\\\\" else line + "\\\\"
    else
      if Emphasised(line) then "\\subsection*{" + line + "}" else line
  }

  /** The line a formatted line was made from, given the mode and whether it was
      emphasised: the decoration peeled off again. */
  function UnformatLine(r: string, beamer: bool, emphasised: bool): string {
    if beamer then
      if emphasised then (if |r| >= 11 then r[8..|r| - 3] else r)
      else (if |r| >= 2 then r[..|r| - 2] else r)
    else
      if emphasised then (if |r| >= 14 then r[13..|r| - 1] else r)
      else r
  }

  /** Formatting loses nothing: the line can be read back. */
  lemma FormatLineRoundTrip(line: string, beamer: bool)
    ensures UnformatLine(FormatLine(line, beamer), beamer, Emphasised(line)) == line
  {
    var r := FormatLine(line, beamer);
    if beamer && Emphasised(line) {
      assert r == "\\textbf{" + line + "}\\\\";
      assert r[8..|r| - 3] == line;
    } else if beamer {
      assert r[..|r| - 2] == line;
    } else if Emphasised(line) {
      assert r[13..|r| - 1] == line;
    }
  }

  /** The non-blank lines, in order. */
  function NonBlank(lines: seq<string>): (r: seq<string>)
    ensures |r| <= |lines|
    ensures forall k :: 0 <= k < |r| ==> !IsBlank(r[k]) && r[k] in lines
  {
    if lines == [] then []
    else (if IsBlank(lines[0]) then [] else [lines[0]]) + NonBlank(lines[1..])
  }

  /** The loop of lines 235-246: a blank line is skipped, every other line is stripped and
      formatted. */
  function FormatLines(lines: seq<string>, beamer: bool): (r: seq<string>)
    ensures |r| == |NonBlank(lines)|
  {
    if lines == [] then []
    else if IsBlank(lines[0]) then FormatLines(lines[1..], beamer)
    else [FormatLine(Strip(lines[0]), beamer)] + FormatLines(lines[1..], beamer)
  }

  /** The loop emits one formatted line per non-blank line, in order. */
  lemma {:induction false} FormatLinesAt(lines: seq<string>, beamer: bool, k: nat)
    requires k < |NonBlank(lines)|
    ensures FormatLines(lines, beamer)[k] == FormatLine(Strip(NonBlank(lines)[k]), beamer)
    decreases |lines|
  {
    if IsBlank(lines[0]) {
      FormatLinesAt(lines[1..], beamer, k);
    } else if k > 0 {
      FormatLinesAt(lines[1..], beamer, k - 1);
    }
  }

  /** Every output of the loop is its non-blank line, stripped and formatted. */
  lemma FormatLinesAll(lines: seq<string>, beamer: bool)
    ensures forall k :: 0 <= k < |NonBlank(lines)| ==> FormatLines(lines, beamer)[k] == FormatLine(Strip(NonBlank(lines)[k]), beamer)
  {
    forall k | 0 <= k < |NonBlank(lines)| ensures FormatLines(lines, beamer)[k] == FormatLine(Strip(NonBlank(lines)[k]), beamer) {
      FormatLinesAt(lines, beamer, k);
    }
  }

  /** The LaTeX lines `pptx_to_latex` emits for the text of one shape (lines 221-246): none
      for a blank text, otherwise one per non-blank line of the escaped, stripped text, in
      order, each stripped and laid out for the mode. */
  function ShapeLines(text: string, beamer: bool): (r: seq<string>)
    ensures IsBlank(text) ==> r == []
    ensures !IsBlank(text) ==> var lines := NonBlank(Split(EscapeEach(Strip(text)), '\n'));
      |r| == |lines| && forall k :: 0 <= k < |r| ==> r[k] == FormatLine(Strip(lines[k]), beamer)
  {
    if IsBlank(text) then []
    else
      var lines := Split(LatexSafe(Strip(text)), '\n');
      FormatLinesAll(lines, beamer);
      FormatLines(lines, beamer)
  }

  /** In Beamer mode every emitted line ends with a forced break, and each holds, read
      back, one stripped non-blank line of the escaped text. */
  lemma ShapeLinesBeamer(text: string, k: nat)
    requires k < |ShapeLines(text, true)|
    ensures EndsWith(ShapeLines(text, true)[k], "\\\\")
    ensures var line := Strip(NonBlank(Split(LatexSafe(Strip(text)), '\n'))[k]);
            UnformatLine(ShapeLines(text, true)[k], true, Emphasised(line)) == line && line != []
  {
    var lines := Split(LatexSafe(Strip(text)), '\n');
    FormatLinesAt(lines, true, k);
    FormatLineRoundTrip(Strip(NonBlank(lines)[k]), true);
  }

  // ---------------------------------------------------------------- frame titles

  /** The index of the first shape with non-blank text; `texts[k]` is the text of shape
      `k`, none for a shape without a `text` attribute. */
  function FirstTextIndex(texts: seq<Option<string>>): (r: Option<nat>)
    ensures r.Some? ==> r.value < |texts| && texts[r.value].Some? && !IsBlank(texts[r.value].value)
    ensures r.Some? ==> forall j :: 0 <= j < r.value ==> texts[j].None? || IsBlank(texts[j].value)
    ensures r.None? ==> forall j :: 0 <= j < |texts| ==> texts[j].None? || IsBlank(texts[j].value)
  {
    if texts == [] then None
    else if texts[0].Some? && !IsBlank(texts[0].value) then Some(0)
    else match FirstTextIndex(texts[1..])
      case Some(k) => Some(k + 1)
      case None => None
  }

  /** The stripped first line of a text. */
  function FirstLine(text: string): string {
    Strip(Split(text, '\n')[0])
  }

  /** The default title of slide `i` (counted from 0). */
  function DefaultTitle(i: nat): string {
    "Slide " + NatToString(i + 1)
  }

  /** The search of lines 202-214 over the shapes from the current one on: a short one-line
      text is the title; otherwise its first line is, when non-empty; otherwise the search
      goes on. */
  function TitleFrom(texts: seq<Option<string>>, i: nat): (r: string)
    ensures r != [] && '\n' !in r
  {
    if texts == [] then DefaultTitle(i)
    else if texts[0].Some? && !IsBlank(texts[0].value) then
      var potential := Strip(texts[0].value);
      if |potential| < 100 && '\n' !in potential then potential
      else
        var firstLine := FirstLine(potential);
        if firstLine != [] then firstLine else TitleFrom(texts[1..], i)
    else TitleFrom(texts[1..], i)
  }

  /** The frame title `pptx_to_latex` gives slide `i` (counted from 0). */
  function SlideTitle(texts: seq<Option<string>>, i: nat): (r: string)
    ensures r != [] && '\n' !in r
  {
    TitleFrom(texts, i)
  }

  /** The first line of a stripped non-blank text is non-empty, and it is the whole text
      when the text is a single line. */
  lemma FirstLineOfStripped(t: string)
    requires !IsBlank(t)
    ensures FirstLine(Strip(t)) != []
    ensures '\n' !in Strip(t) ==> FirstLine(Strip(t)) == Strip(t)
  {
    var p := Strip(t);
    assert p != [] && !IsSpace(p[0]);
    var part := Split(p, '\n')[0];
    assert part != [] && part[0] == p[0] by {
      assert p[0] != '\n';
      assert Split(p, '\n') == [[p[0]] + Split(p[1..], '\n')[0]] + Split(p[1..], '\n')[1..];
    }
    assert !IsBlank(part);
    if '\n' !in p {
      SplitFree(p, '\n');
      StripIdempotent(t);
    }
  }

  /** The search never moves past the first shape with text: the title is the first line of
      that text, and the default only when no shape has any. */
  lemma {:induction false} SlideTitleIsFirstLine(texts: seq<Option<string>>, i: nat)
    ensures SlideTitle(texts, i) == match FirstTextIndex(texts)
      case Some(k) => FirstLine(Strip(texts[k].value))
      case None => DefaultTitle(i)
    decreases |texts|
  {
    if texts != [] {
      if texts[0].Some? && !IsBlank(texts[0].value) {
        FirstLineOfStripped(texts[0].value);
      } else {
        SlideTitleIsFirstLine(texts[1..], i);
      }
    }
  }

  // ---------------------------------------------------------------- Markdown bullets

  /** What reading `paragraph.paragraph_format.bullet.type` yields: the paragraph has no
      (truthy) `paragraph_format`, the lookup raises, or it gives a value, `None` or an
      integer. */
  datatype BulletFormat = NoFormat | Raises | BulletType(value: Option<int>)

  /** A paragraph of a shape's text frame: its text, its indentation level and its bullet. */
  datatype Paragraph = Paragraph(text: string, level: int, bullet: BulletFormat)

  /** The characters a bullet paragraph may start with (line 90). */
  const BulletChars: seq<char> := ['\U{2022}', '\U{B7}', '\U{2023}', '\U{25CB}', '\U{25CF}', '-', '*', '\U{2192}']

  /** Lines 78-96: a bullet when the bullet format says so (`None != 0` holds, so an unset
      type counts), when the stripped text starts with a bullet character, or when the
      paragraph is indented. */
  predicate IsBullet(p: Paragraph, text: string) {
    || (p.bullet.BulletType? && p.bullet.value != Some(0))
    || (text != [] && Strip(text) != [] && Strip(text)[0] in BulletChars)
    || p.level > 0
  }

  /** `"  " * level`: empty for a level of 0 or less. */
  function Indent(level: int): (r: string)
    ensures forall k :: 0 <= k < |r| ==> r[k] == ' '
    ensures |r| == if level > 0 then 2 * level else 0
    decreases if level > 0 then level else 0
  {
    if level > 0 then "  " + Indent(level - 1) else ""
  }

  /** The Markdown line `pptx_to_markdown` emits for one paragraph (lines 69-112), none for
      a blank one. The short-title rule applies on the first slide (`slideIndex` 0) while
      fewer than ten lines have been emitted (`emitted`). */
  function MarkdownLine(p: Paragraph, slideIndex: nat, emitted: nat): (r: Option<string>)
    ensures r.None? <==> IsBlank(p.text)
    ensures r.Some? ==> EndsWith(r.value, Strip(p.text))
    ensures r.Some? && p.level > 0 ==> StartsWith(r.value, Indent(p.level) + "* ")
    ensures !IsBlank(p.text) && IsBullet(p, Strip(p.text)) ==> r == Some(Indent(p.level) + "* " + Strip(p.text))
    ensures !IsBlank(p.text) && !IsBullet(p, Strip(p.text))
            ==> var t := Strip(p.text);
                r == Some(if |t| < 50 && '\n' !in t && slideIndex == 0 && emitted < 10 then "## " + t else t)
  {
    if IsBlank(p.text) then None
    else
      var text := Strip(p.text);
      if IsBullet(p, text) then Some(Indent(p.level) + "* " + text)
      else if p.level > 0 then Some(Indent(p.level) + text)
      else if |text| < 50 && '\n' !in text && slideIndex == 0 && emitted < 10 then Some("## " + text)
      else Some(text)
  }

  /** An indented paragraph is always a bullet, so the indented-text branch (lines 103-106)
      is never taken. */
  lemma IndentedIsBullet(p: Paragraph, text: string)
    requires p.level > 0
    ensures IsBullet(p, text)
  {
  }

  /** The number of spaces a line starts with. */
  function LeadingSpaces(line: string): (n: nat)
    ensures n <= |line|
    ensures forall k :: 0 <= k < n ==> line[k] == ' '
    ensures n == |line| || line[n] != ' '
  {
    if line != [] && line[0] == ' ' then 1 + LeadingSpaces(line[1..]) else 0
  }

  /** A bullet line read back: its level and text. */
  datatype Bullet = Bullet(level: nat, text: string)

  /** Reads a Markdown bullet line: an even number of spaces, `* `, then the text. */
  function ParseBullet(line: string): Option<Bullet> {
    var n := LeadingSpaces(line);
    if n % 2 == 0 && n + 2 <= |line| && line[n..n + 2] == "* " then Some(Bullet(n / 2, line[n + 2..]))
    else None
  }

  /** An indentation of spaces, `* ` and a text read back. */
  lemma ParseBulletLine(level: nat, text: string)
    ensures ParseBullet(Indent(level) + "* " + text) == Some(Bullet(level, text))
  {
    var line := Indent(level) + "* " + text;
    var n := |Indent(level)|;
    assert n == 2 * level && n % 2 == 0 && n / 2 == level;
    assert line[n] == '*';
    LeadingSpacesPrefix(line, n);
    assert line[n..n + 2] == "* ";
    assert line[n + 2..] == text;
  }

  /** A bullet's line gives back its level and stripped text. */
  lemma BulletRoundTrip(p: Paragraph, slideIndex: nat, emitted: nat)
    requires !IsBlank(p.text) && p.level >= 0 && IsBullet(p, Strip(p.text))
    ensures ParseBullet(MarkdownLine(p, slideIndex, emitted).value) == Some(Bullet(p.level, Strip(p.text)))
  {
    var text := Strip(p.text);
    assert MarkdownLine(p, slideIndex, emitted).value == Indent(p.level) + "* " + text;
    ParseBulletLine(p.level, text);
  }

  /** A paragraph that is not a bullet is not read back as one: its line is a `## ` heading
      or its stripped text, which starts with neither a space nor `*`. */
  lemma NonBulletNotReadBack(p: Paragraph, slideIndex: nat, emitted: nat)
    requires !IsBlank(p.text) && !IsBullet(p, Strip(p.text))
    ensures ParseBullet(MarkdownLine(p, slideIndex, emitted).value).None?
  {
    var t := Strip(p.text);
    var heading := |t| < 50 && '\n' !in t && slideIndex == 0 && emitted < 10;
    StripIdempotent(p.text);
    assert t[0] != '*' by {
      assert Strip(t)[0] == t[0];
      assert BulletChars[6] == '*';
    }
    assert IsSpace(' ');
    UnmarkedLine(t, heading);
  }

  /** A line starting with neither a space nor `*`, with or without a `## ` in front, is
      not a bullet line. */
  lemma UnmarkedLine(t: string, heading: bool)
    requires t != [] && t[0] != ' ' && t[0] != '*'
    ensures ParseBullet(if heading then "## " + t else t).None?
  {
    var line := if heading then "## " + t else t;
    assert line[0] != ' ' && line[0] != '*';
    assert LeadingSpaces(line) == 0;
    assert 2 <= |line| ==> line[0..2][0] == line[0];
  }

  /** A line of `n` spaces followed by a non-space starts with exactly `n` spaces. */
  lemma {:induction false} LeadingSpacesPrefix(line: string, n: nat)
    requires n < |line| && line[n] != ' '
    requires forall k :: 0 <= k < n ==> line[k] == ' '
    ensures LeadingSpaces(line) == n
    decreases n
  {
    if n > 0 {
      LeadingSpacesPrefix(line[1..], n - 1);
    }
  }
}

=== FILE: strings.dfy ===
/** The Python `str` operations the core relies on, over `string` (a sequence of
    Unicode scalar values, like a Python `str` of code points). */
module Strings {

  /** Python's `str.isspace()`; it is also the set `\s` matches in a `re` pattern over `str`. */
  predicate IsSpace(c: char) {
    || ('\t' <= c <= '\r')
    || ('\U{1C}' <= c <= '\U{1F}')
    || c == ' ' || c == '\U{85}' || c == '\U{A0}' || c == '\U{1680}'
    || ('\U{2000}' <= c <= '\U{200A}')
    || c == '\U{2028}' || c == '\U{2029}' || c == '\U{202F}' || c == '\U{205F}' || c == '\U{3000}'
  }

  /** Every character is whitespace (so `s.strip()` is empty). */
  predicate IsBlank(s: string) {
    forall i :: 0 <= i < |s| ==> IsSpace(s[i])
  }

  /** The end of the longest run of whitespace starting at `p` (greedy `\s*`). */
  function SpacesEnd(s: string, p: nat): (r: nat)
    requires p <= |s|
    ensures p <= r <= |s|
    ensures forall k :: p <= k < r ==> IsSpace(s[k])
    ensures r == |s| || !IsSpace(s[r])
    decreases |s| - p
  {
    if p < |s| && IsSpace(s[p]) then SpacesEnd(s, p + 1) else p
  }

  /** `SpacesEnd` stops at the first non-whitespace character, or at the end. */
  lemma SpacesEndExact(s: string, p: nat, e: nat)
    requires p <= e <= |s| && (e == |s| || !IsSpace(s[e]))
    requires forall k :: p <= k < e ==> IsSpace(s[k])
    ensures SpacesEnd(s, p) == e
  {
  }

  /** The start of the longest run of whitespace that ends at `q` and starts no earlier than `lo`. */
  function SpacesStart(s: string, lo: nat, q: nat): (r: nat)
    requires lo <= q <= |s|
    ensures lo <= r <= q
    ensures forall k :: r <= k < q ==> IsSpace(s[k])
    ensures r == lo || !IsSpace(s[r - 1])
    decreases q
  {
    if lo < q && IsSpace(s[q - 1]) then SpacesStart(s, lo, q - 1) else q
  }

  /** `s.strip()`: drops the leading and the trailing whitespace and nothing else. */
  function Strip(s: string): (r: string)
    ensures r == [] || (!IsSpace(r[0]) && !IsSpace(r[|r| - 1]))
    ensures r == [] <==> IsBlank(s)
    ensures forall k :: 0 <= k < |r| ==> r[k] in s
  {
    var a := SpacesEnd(s, 0);
    var r := s[a..SpacesStart(s, a, |s|)];
    InfixChars(s, a, SpacesStart(s, a, |s|));
    r
  }

  /** The characters of a slice are characters of the text. */
  lemma InfixChars(s: string, a: nat, b: nat)
    requires a <= b <= |s|
    ensures forall k :: 0 <= k < b - a ==> s[a..b][k] in s
  {
    forall k | 0 <= k < b - a ensures s[a..b][k] in s {
      assert s[a..b][k] == s[a + k];
    }
  }

  /** What stripping keeps: the text minus a blank prefix and a blank suffix, with the
      whitespace runs at both ends taken whole. */
  lemma StripSlice(s: string)
    ensures var a := SpacesEnd(s, 0);
      && Strip(s) == s[a..SpacesStart(s, a, |s|)]
      && IsBlank(s[..a]) && IsBlank(s[SpacesStart(s, a, |s|)..])
  {
    var a := SpacesEnd(s, 0);
    var b := SpacesStart(s, a, |s|);
    forall k | 0 <= k < a ensures IsSpace(s[..a][k]) {
      assert s[..a][k] == s[k];
    }
    forall k | 0 <= k < |s| - b ensures IsSpace(s[b..][k]) {
      assert s[b..][k] == s[b + k];
    }
  }

  /** Stripping is idempotent. */
  lemma StripIdempotent(s: string)
    ensures Strip(Strip(s)) == Strip(s)
  {
    var r := Strip(s);
    if r != [] {
      assert SpacesEnd(r, 0) == 0;
      assert SpacesStart(r, 0, |r|) == |r|;
    }
  }

  /** `s.startswith(prefix)`. */
  predicate StartsWith(s: string, prefix: string) {
    |prefix| <= |s| && s[..|prefix|] == prefix
  }

  /** A character of a prefix is the text's character at the same place. */
  lemma StartsWithChar(s: string, prefix: string, i: nat)
    ensures StartsWith(s, prefix) && i < |prefix| ==> s[i] == prefix[i]
  {
    if StartsWith(s, prefix) && i < |prefix| {
      assert s[..|prefix|][i] == s[i];
    }
  }

  /** `s.endswith(suffix)`. */
  predicate EndsWith(s: string, suffix: string) {
    |suffix| <= |s| && s[|s| - |suffix|..] == suffix
  }

  /** `t in s` for strings: `t` occurs as a contiguous infix of `s`. */
  predicate Contains(s: string, t: string)
    decreases |s|
  {
    StartsWith(s, t) || (|s| > 0 && Contains(s[1..], t))
  }

  /** ASCII lower-casing of one character; every other character is left alone. */
  function LowerChar(c: char): char {
    if 'A' <= c <= 'Z' then (c as int - 'A' as int + 'a' as int) as char else c
  }

  /** `s.lower()` restricted to ASCII letters. */
  function Lower(s: string): (r: string)
    ensures |r| == |s|
    ensures forall i :: 0 <= i < |s| ==> r[i] == LowerChar(s[i])
  {
    if s == [] then [] else [LowerChar(s[0])] + Lower(s[1..])
  }

  /** Lowering distributes over concatenation. */
  lemma LowerAppend(a: string, b: string)
    ensures Lower(a + b) == Lower(a) + Lower(b)
  {
  }

  /** Lowering twice is lowering once. */
  lemma LowerIdempotent(s: string)
    ensures Lower(Lower(s)) == Lower(s)
  {
  }

  /** `s.split(sep)` for a one-character separator: the maximal separator-free pieces,
      one more than the number of separators. */
  function Split(s: string, sep: char): (parts: seq<string>)
    ensures |parts| >= 1
    ensures forall i :: 0 <= i < |parts| ==> sep !in parts[i]
    decreases |s|
  {
    if |s| == 0 then [""]
    else if s[0] == sep then [""] + Split(s[1..], sep)
    else
      var rest := Split(s[1..], sep);
      [[s[0]] + rest[0]] + rest[1..]
  }

  /** `sep.join(parts)`. */
  function Join(parts: seq<string>, sep: string): string
    decreases |parts|
  {
    if |parts| == 0 then ""
    else if |parts| == 1 then parts[0]
    else parts[0] + sep + Join(parts[1..], sep)
  }

  /** Prepending to the first part prepends to the joined text. */
  lemma JoinConsFirst(c: char, parts: seq<string>, sep: string)
    requires |parts| >= 1
    ensures Join([[c] + parts[0]] + parts[1..], sep) == [c] + Join(parts, sep)
  {
    var p := [[c] + parts[0]] + parts[1..];
    assert p[1..] == parts[1..];
  }

  /** Joining the pieces of a split with the separator restores the text. */
  lemma {:induction false} JoinSplit(s: string, sep: char)
    ensures Join(Split(s, sep), [sep]) == s
    decreases |s|
  {
    if |s| == 0 {
    } else if s[0] == sep {
      var rest := Split(s[1..], sep);
      JoinSplit(s[1..], sep);
      assert Split(s, sep) == [""] + rest;
      assert ([""] + rest)[1..] == rest;
      assert s == [sep] + s[1..];
    } else {
      var rest := Split(s[1..], sep);
      JoinSplit(s[1..], sep);
      JoinConsFirst(s[0], rest, [sep]);
      assert s == [s[0]] + s[1..];
    }
  }

  /** Splitting a join of separator-free parts gives the parts back. */
  lemma {:induction false} SplitJoin(parts: seq<string>, sep: char)
    requires |parts| >= 1
    requires forall i :: 0 <= i < |parts| ==> sep !in parts[i]
    ensures Split(Join(parts, [sep]), sep) == parts
    decreases |parts|, |parts[0]|
  {
    if |parts| == 1 {
      SplitFree(parts[0], sep);
    } else if parts[0] == [] {
      var tail := parts[1..];
      SplitJoin(tail, sep);
      assert Join(parts, [sep]) == [sep] + Join(tail, [sep]);
      assert parts == [""] + tail;
    } else {
      var c := parts[0][0];
      var shorter := [parts[0][1..]] + parts[1..];
      assert shorter[1..] == parts[1..];
      assert forall i :: 0 <= i < |shorter| ==> sep !in shorter[i] by {
        forall i | 0 <= i < |shorter| ensures sep !in shorter[i] {
          if i == 0 {
            assert forall k :: 0 <= k < |parts[0][1..]| ==> parts[0][1..][k] == parts[0][k + 1];
          } else {
            assert shorter[i] == parts[i];
          }
        }
      }
      SplitJoin(shorter, sep);
      JoinConsFirst(c, shorter, [sep]);
      assert parts[0] == [c] + parts[0][1..];
      assert [[c] + shorter[0]] + shorter[1..] == parts;
      var j := Join(parts, [sep]);
      assert j == [c] + Join(shorter, [sep]);
      assert j[1..] == Join(shorter, [sep]);
      var rest := Split(j[1..], sep);
      assert rest == shorter;
    }
  }

  /** Every character of a part is a character of the joined text. */
  lemma {:induction false} JoinHasParts(parts: seq<string>, sep: string, i: nat, k: nat)
    requires i < |parts| && k < |parts[i]|
    ensures parts[i][k] in Join(parts, sep)
    decreases |parts|
  {
    if |parts| > 1 {
      var rest := Join(parts[1..], sep);
      assert Join(parts, sep) == parts[0] + sep + rest;
      if i == 0 {
        assert (parts[0] + sep + rest)[k] == parts[0][k];
      } else {
        JoinHasParts(parts[1..], sep, i - 1, k);
      }
    }
  }

  /** No part holds `c`. */
  predicate Avoids(parts: seq<string>, c: char) {
    forall i :: 0 <= i < |parts| ==> c !in parts[i]
  }

  /** A character in no part and not in the separator is not in the joined text. */
  lemma {:induction false} JoinFree(parts: seq<string>, sep: string, c: char)
    requires c !in sep && Avoids(parts, c)
    ensures c !in Join(parts, sep)
    decreases |parts|
  {
    if |parts| > 1 {
      assert forall i :: 0 <= i < |parts[1..]| ==> parts[1..][i] == parts[i + 1];
      JoinFree(parts[1..], sep, c);
    }
  }

  /** Every character of a piece of a split is a character of the text. */
  lemma SplitChars(s: string, sep: char, i: nat, k: nat)
    requires i < |Split(s, sep)| && k < |Split(s, sep)[i]|
    ensures Split(s, sep)[i][k] in s
  {
    JoinSplit(s, sep);
    JoinHasParts(Split(s, sep), [sep], i, k);
  }

  /** A separator-free text splits into itself. */
  lemma {:induction false} SplitFree(s: string, sep: char)
    requires sep !in s
    ensures Split(s, sep) == [s]
    decreases |s|
  {
    if |s| > 0 {
      assert sep !in s[1..];
      SplitFree(s[1..], sep);
      assert s == [s[0]] + s[1..];
    }
  }

  /** `s.replace(target, replacement)` for a one-character `target`: every occurrence is rewritten, and
      the rewritten text is never scanned again. */
  function ReplaceChar(s: string, target: char, replacement: string): string {
    if s == [] then [] else (if s[0] == target then replacement else [s[0]]) + ReplaceChar(s[1..], target, replacement)
  }

  /** Replacement works character by character, so it distributes over concatenation. */
  lemma {:induction false} ReplaceCharAppend(a: string, b: string, target: char, replacement: string)
    ensures ReplaceChar(a + b, target, replacement) == ReplaceChar(a, target, replacement) + ReplaceChar(b, target, replacement)
    decreases |a|
  {
    if a != [] {
      var head := if a[0] == target then replacement else [a[0]];
      assert (a + b)[0] == a[0];
      assert (a + b)[1..] == a[1..] + b;
      ReplaceCharAppend(a[1..], b, target, replacement);
      assert ReplaceChar(a + b, target, replacement)
          == head + (ReplaceChar(a[1..], target, replacement) + ReplaceChar(b, target, replacement));
      assert ReplaceChar(a, target, replacement) == head + ReplaceChar(a[1..], target, replacement);
    } else {
      assert a + b == b;
    }
  }

  /** On a one-character text, replacement is the table lookup. */
  lemma ReplaceCharSingle(c: char, target: char, replacement: string)
    ensures ReplaceChar([c], target, replacement) == if c == target then replacement else [c]
  {
    assert [c][1..] == [];
  }

  /** Replacing a character that does not occur changes nothing. */
  lemma {:induction false} ReplaceCharAbsent(s: string, target: char, replacement: string)
    requires target !in s
    ensures ReplaceChar(s, target, replacement) == s
    decreases |s|
  {
    if s != [] {
      assert target !in s[1..];
      ReplaceCharAbsent(s[1..], target, replacement);
      assert s == [s[0]] + s[1..];
    }
  }

  /** Replacing a character by itself changes nothing. */
  lemma {:induction false} ReplaceCharIdentity(s: string, c: char)
    ensures ReplaceChar(s, c, [c]) == s
    decreases |s|
  {
    if s != [] {
      ReplaceCharIdentity(s[1..], c);
      assert s == [s[0]] + s[1..];
    }
  }

  /** `text * n` for a string. */
  function Repeat(text: string, n: nat): (r: string)
    ensures |r| == |text| * n
  {
    if n == 0 then [] else text + Repeat(text, n - 1)
  }

  /** The decimal digit character for `d`. */
  function DigitChar(d: nat): char
    requires d < 10
  {
    ('0' as int + d) as char
  }

  /** `str(n)` for a non-negative integer: its decimal digits, most significant first. */
  function NatToString(n: nat): (r: string)
    ensures |r| >= 1
    ensures forall i :: 0 <= i < |r| ==> '0' <= r[i] <= '9'
    ensures r[0] == '0' ==> n == 0
  {
    if n < 10 then [DigitChar(n)] else NatToString(n / 10) + [DigitChar(n % 10)]
  }

  /** The number a string of decimal digits denotes. */
  function DigitsValue(s: string): nat
    requires forall i :: 0 <= i < |s| ==> '0' <= s[i] <= '9'
  {
    if s == [] then 0 else DigitsValue(s[..|s| - 1]) * 10 + (s[|s| - 1] as int - '0' as int)
  }

  /** `str(n)` denotes `n`. */
  lemma {:induction false} NatToStringValue(n: nat)
    ensures DigitsValue(NatToString(n)) == n
  {
    if n >= 10 {
      NatToStringValue(n / 10);
      var r := NatToString(n);
      assert r[..|r| - 1] == NatToString(n / 10);
    }
  }

  /** Concatenation is associative. */
  lemma ConcatAssoc<T>(a: seq<T>, b: seq<T>, c: seq<T>)
    ensures a + b + c == a + (b + c)
  {
  }
}

=== FILE: universal.dfy ===
/** The format-agnostic presentation model: elements, frames, metadata and documents,
    their queries, the `create_*` constructors and `merge_documents`. Records are immutable
    values; the in-place `add_element` / `add_frame` become functions returning the
    updated record. */
module Universal {
  import opened Wrappers
  import opened Values

  /** `Element_Type` */
  datatype ElementType =
    | Text | Title | Subtitle | Itemize | Enumerate | Block | Image | Equation
    | Table | Math | Code | Hyperlink | Shape | Chart

  /** `Layout_Type` */
  datatype LayoutType =
    | TitleSlide | TitleAndContent | SectionHeader | TwoColumn | ThreeColumn | Blank | ContentOnly

  /** `Formatting` */
  datatype Formatting =
    | Bold | Italic | Underline | Strikethrough | Superscript | Subscript | Monospace | Normal

  /** `Text_Content`: text with formatting information. */
  datatype TextContent = TextContent(
    text: string,
    formatting: seq<Formatting>,
    fontSize: Option<string>,
    fontColor: Option<string>,
    fontFamily: Option<string>)

  /** `Position`, in inches from the top-left corner of the slide. */
  datatype Position = Position(x: real, y: real, width: Option<real>, height: Option<real>)

  /** `Size` */
  datatype Size = Size(width: real, height: real, scale: Option<real>)

  /** The payload of an element, one variant per shape the code builds:
      a plain `str`, a `Text_Content`, `{'items': [...]}`, `{'path', 'caption'}`,
      `{'latex', 'type'}`, or any other dictionary. */
  datatype Content =
    | Plain(text: string)
    | Rich(rich: TextContent)
    | ItemList(items: seq<string>)
    | ImageRecord(path: string, caption: Option<string>)
    | EquationRecord(latex: string, equationType: string)
    | Fields(fields: map<string, Value>)

  /** `Universal_Element` */
  datatype Element = Element(
    elementType: ElementType,
    content: Content,
    position: Option<Position>,
    size: Option<Size>,
    level: int,
    style: map<string, Value>,
    metadata: map<string, Value>)

  /** `Universal_Frame` */
  datatype Frame = Frame(
    number: int,
    title: Option<string>,
    subtitle: Option<string>,
    elements: seq<Element>,
    layout: LayoutType,
    backgroundColor: Option<string>,
    notes: Option<string>,
    metadata: map<string, Value>)

  /** `Metadata` */
  datatype Metadata = Metadata(
    title: Option<string>,
    author: Option<string>,
    date: Option<string>,
    institution: Option<string>,
    subject: Option<string>,
    keywords: seq<string>,
    language: Option<string>,
    version: Option<string>,
    createdDate: Option<string>,
    modifiedDate: Option<string>,
    customProperties: map<string, Value>)

  /** `Universal_Document` */
  datatype Document = Document(
    metadata: Metadata,
    frames: seq<Frame>,
    sourceFormat: Option<string>,
    sourcePath: Option<string>,
    globalSettings: map<string, Value>)

  /** `Conversion_Options` */
  datatype ConversionOptions = ConversionOptions(
    theme: string,
    preserveColors: bool,
    preserveFonts: bool,
    preserveLayouts: bool,
    includeImages: bool,
    includeNotes: bool,
    verbose: bool,
    outputFormat: Option<string>,
    customSettings: map<string, Value>)

  /** `Element_Type.TEXT`, `TITLE` and `SUBTITLE`: the types `get_text_elements` selects. */
  const TextTypes: set<ElementType> := {Text, Title, Subtitle}

  /** The default `element_type` of `create_text_element`: `Element_Type.TEXT`. */
  const DefaultTextType: ElementType := Text

  /** The default `level` of `create_itemize_element`. */
  const DefaultItemizeLevel: int := 0

  /** The default `equation_type` of `create_equation_element`: `'inline'`. */
  const DefaultEquationType: string := "inline"

  // ---------------------------------------------------------------- elements

  /** `Universal_Element(element_type, content)` with every other field at its default. */
  function NewElement(elementType: ElementType, content: Content): Element {
    Element(elementType, content, None, None, 0, map[], map[])
  }

  /** `to_text_content`: a string becomes unformatted text, a `Text_Content` is returned
      as it is, and a dictionary payload has no text content. */
  function ToTextContent(e: Element): (r: Option<TextContent>)
    ensures r.Some? <==> (e.content.Plain? || e.content.Rich?)
    ensures e.content.Plain? ==> r.value.text == e.content.text && r.value.formatting == []
    ensures e.content.Plain? ==> r.value.fontSize.None? && r.value.fontColor.None? && r.value.fontFamily.None?
    ensures e.content.Rich? ==> r.value == e.content.rich
  {
    match e.content
    case Plain(t) => Some(TextContent(t, [], None, None, None))
    case Rich(tc) => Some(tc)
    case _ => None
  }

  /** `create_text_element`; a missing formatting list is the empty one. */
  function CreateTextElement(text: string, elementType: ElementType, formatting: seq<Formatting>): (e: Element)
    ensures e.elementType == elementType && e.position.None? && e.size.None? && e.level == 0
    ensures ToTextContent(e) == Some(TextContent(text, formatting, None, None, None))
    ensures e.style == map[] && e.metadata == map[]
  {
    NewElement(elementType, Rich(TextContent(text, formatting, None, None, None)))
  }

  /** `create_image_element`: an IMAGE holding `{'path': image_path, 'caption': caption}`. */
  function CreateImageElement(imagePath: string, caption: Option<string>, position: Option<Position>, size: Option<Size>): (e: Element)
    ensures e.elementType == Image && e.content == ImageRecord(imagePath, caption)
    ensures e.position == position && e.size == size && e.level == 0
    ensures ToTextContent(e).None?
    ensures e.style == map[] && e.metadata == map[]
  {
    Element(Image, ImageRecord(imagePath, caption), position, size, 0, map[], map[])
  }

  /** `create_itemize_element`: an ITEMIZE holding `{'items': items}` at the given level. */
  function CreateItemizeElement(items: seq<string>, level: int): (e: Element)
    ensures e.elementType == Itemize && e.content == ItemList(items) && e.level == level
    ensures e.position.None? && e.size.None?
    ensures ToTextContent(e).None?
    ensures e.style == map[] && e.metadata == map[]
  {
    Element(Itemize, ItemList(items), None, None, level, map[], map[])
  }

  /** `create_equation_element`: an EQUATION holding `{'latex': latex, 'type': equation_type}`. */
  function CreateEquationElement(latex: string, equationType: string): (e: Element)
    ensures e.elementType == Equation && e.content == EquationRecord(latex, equationType)
    ensures e.position.None? && e.size.None? && e.level == 0
    ensures ToTextContent(e).None?
    ensures e.style == map[] && e.metadata == map[]
  {
    NewElement(Equation, EquationRecord(latex, equationType))
  }

  // ---------------------------------------------------------------- frames

  /** `Universal_Frame(frame_number=n)`: untitled, empty, TITLE_AND_CONTENT. */
  function NewFrame(number: int): (f: Frame)
    ensures f.number == number && f.elements == [] && f.layout == TitleAndContent
    ensures f.title.None? && f.subtitle.None? && f.backgroundColor.None? && f.notes.None?
    ensures f.metadata == map[]
  {
    Frame(number, None, None, [], TitleAndContent, None, None, map[])
  }

  /** `add_element`: the element goes at the end; nothing else changes. */
  function AddElement(f: Frame, e: Element): (r: Frame)
    ensures |r.elements| == |f.elements| + 1
    ensures r.elements[..|f.elements|] == f.elements && r.elements[|f.elements|] == e
    ensures r == f.(elements := r.elements)
  {
    f.(elements := f.elements + [e])
  }

  /** The elements of `es` whose type is in `types`, in their original order. */
  function Select(es: seq<Element>, types: set<ElementType>): (r: seq<Element>)
    ensures |r| <= |es|
    ensures forall x :: x in r ==> x in es && x.elementType in types
    ensures forall x :: x in es && x.elementType in types ==> x in r
  {
    if es == [] then []
    else (if es[0].elementType in types then [es[0]] else []) + Select(es[1..], types)
  }

  /** Selection keeps order: selecting from a concatenation concatenates the selections. */
  lemma {:induction false} SelectAppend(a: seq<Element>, b: seq<Element>, types: set<ElementType>)
    ensures Select(a + b, types) == Select(a, types) + Select(b, types)
    decreases |a|
  {
    if a == [] {
      assert a + b == b;
    } else {
      assert (a + b)[0] == a[0];
      assert (a + b)[1..] == a[1..] + b;
      SelectAppend(a[1..], b, types);
    }
  }

  /** `get_elements_by_type` */
  function ElementsByType(f: Frame, t: ElementType): (r: seq<Element>)
    ensures forall x :: x in r <==> x in f.elements && x.elementType == t
  {
    Select(f.elements, {t})
  }

  /** `get_text_elements` */
  function TextElements(f: Frame): (r: seq<Element>)
    ensures forall x :: x in r <==> x in f.elements && x.elementType in TextTypes
  {
    Select(f.elements, TextTypes)
  }

  /** Adding an element extends each by-type query by that element exactly when it has
      the queried type, and leaves the earlier answer in front. */
  lemma ElementsByTypeAfterAdd(f: Frame, e: Element, t: ElementType)
    ensures ElementsByType(AddElement(f, e), t)
         == ElementsByType(f, t) + (if e.elementType == t then [e] else [])
  {
    SelectAppend(f.elements, [e], {t});
    assert Select([e], {t}) == (if e.elementType == t then [e] else []) + Select([], {t});
  }

  /** The text elements of a frame are its TEXT, TITLE and SUBTITLE elements. */
  lemma TextElementsAfterAdd(f: Frame, e: Element)
    ensures TextElements(AddElement(f, e))
         == TextElements(f) + (if e.elementType in TextTypes then [e] else [])
  {
    SelectAppend(f.elements, [e], TextTypes);
    assert Select([e], TextTypes) == (if e.elementType in TextTypes then [e] else []) + Select([], TextTypes);
  }

  // ---------------------------------------------------------------- documents

  /** `Metadata()`: every field absent or empty. */
  function NewMetadata(): (m: Metadata)
    ensures m.title.None? && m.author.None? && m.date.None? && m.institution.None? && m.subject.None?
    ensures m.keywords == [] && m.customProperties == map[]
    ensures m.language.None? && m.version.None? && m.createdDate.None? && m.modifiedDate.None?
  {
    Metadata(None, None, None, None, None, [], None, None, None, None, map[])
  }

  /** `Universal_Document()`: no frames, no source format or path, no settings. */
  function NewDocument(): (d: Document)
    ensures d.frames == [] && d.sourceFormat.None? && d.sourcePath.None? && d.globalSettings == map[]
    ensures d.metadata == NewMetadata()
  {
    Document(NewMetadata(), [], None, None, map[])
  }

  /** `add_frame`: the frame goes at the end; nothing else changes. */
  function AddFrame(d: Document, f: Frame): (r: Document)
    ensures |r.frames| == |d.frames| + 1
    ensures r.frames[..|d.frames|] == d.frames && r.frames[|d.frames|] == f
    ensures r == d.(frames := r.frames)
  {
    d.(frames := d.frames + [f])
  }

  /** `get_total_frames` */
  function TotalFrames(d: Document): (r: nat)
    ensures r == |d.frames|
  {
    |d.frames|
  }

  /** Adding a frame adds one to the total. */
  lemma TotalFramesAfterAdd(d: Document, f: Frame)
    ensures TotalFrames(AddFrame(d, f)) == TotalFrames(d) + 1
  {
  }

  /** The index of the first frame satisfying `p`, if one does. */
  function FirstIndex(frames: seq<Frame>, p: Frame -> bool): (r: Option<nat>)
    ensures r.Some? ==> r.value < |frames| && p(frames[r.value])
    ensures r.Some? ==> forall j :: 0 <= j < r.value ==> !p(frames[j])
    ensures r.None? ==> forall j :: 0 <= j < |frames| ==> !p(frames[j])
  {
    if frames == [] then None
    else if p(frames[0]) then Some(0)
    else match FirstIndex(frames[1..], p)
      case Some(i) => Some(i + 1)
      case None => None
  }

  /** `get_frame_by_number`: the first frame carrying that number, or none. */
  function FrameByNumber(d: Document, n: int): (r: Option<Frame>)
    ensures r.None? <==> forall i :: 0 <= i < |d.frames| ==> d.frames[i].number != n
    ensures r.Some? ==> exists i :: 0 <= i < |d.frames| && d.frames[i] == r.value
                          && r.value.number == n && forall j :: 0 <= j < i ==> d.frames[j].number != n
  {
    match FirstIndex(d.frames, (f: Frame) => f.number == n)
    case Some(i) => Some(d.frames[i])
    case None => None
  }

  /** A frame `get_title_frame` accepts: a non-empty title on a TITLE_SLIDE layout. */
  predicate IsTitleFrame(f: Frame) {
    f.title.Some? && f.title.value != "" && f.layout == TitleSlide
  }

  /** `get_title_frame`: the first frame with a non-empty title and the TITLE_SLIDE layout. */
  function TitleFrame(d: Document): (r: Option<Frame>)
    ensures r.None? <==> forall i :: 0 <= i < |d.frames| ==> !IsTitleFrame(d.frames[i])
    ensures r.Some? ==> exists i :: 0 <= i < |d.frames| && d.frames[i] == r.value
                          && IsTitleFrame(r.value) && forall j :: 0 <= j < i ==> !IsTitleFrame(d.frames[j])
  {
    match FirstIndex(d.frames, IsTitleFrame)
    case Some(i) => Some(d.frames[i])
    case None => None
  }

  /** `merge_documents`: doc1's frames then doc2's; the settings of both with doc2 winning
      on shared keys; doc2's metadata (a `Metadata` object is always truthy, so the
      `or` never falls back); no source format or path. */
  function MergeDocuments(d1: Document, d2: Document): (r: Document)
    ensures |r.frames| == |d1.frames| + |d2.frames|
    ensures r.frames[..|d1.frames|] == d1.frames && r.frames[|d1.frames|..] == d2.frames
    ensures r.globalSettings.Keys == d1.globalSettings.Keys + d2.globalSettings.Keys
    ensures forall k :: k in d2.globalSettings ==> r.globalSettings[k] == d2.globalSettings[k]
    ensures forall k :: k in d1.globalSettings && k !in d2.globalSettings ==> r.globalSettings[k] == d1.globalSettings[k]
    ensures r.metadata == d2.metadata
    ensures r.sourceFormat.None? && r.sourcePath.None?
  {
    Document(d2.metadata, d1.frames + d2.frames, None, None, d1.globalSettings + d2.globalSettings)
  }

  /** Merging is associative on frames and settings. */
  lemma MergeAssociative(d1: Document, d2: Document, d3: Document)
    ensures MergeDocuments(MergeDocuments(d1, d2), d3) == MergeDocuments(d1, MergeDocuments(d2, d3))
  {
    assert (d1.frames + d2.frames) + d3.frames == d1.frames + (d2.frames + d3.frames);
    assert (d1.globalSettings + d2.globalSettings) + d3.globalSettings
        == d1.globalSettings + (d2.globalSettings + d3.globalSettings);
  }

  // ---------------------------------------------------------------- options

  /** The keys of `Conversion_Options.to_dict()`. */
  const OptionKeys: set<string> := {
    "theme", "preserve_colors", "preserve_fonts", "preserve_layouts", "include_images",
    "include_notes", "verbose", "output_format", "custom_settings"
  }

  /** `Conversion_Options.to_dict()` */
  function OptionsToDict(o: ConversionOptions): (r: map<string, Value>)
    ensures r.Keys == OptionKeys
  {
    map[
      "theme" := Str(o.theme),
      "preserve_colors" := Bool(o.preserveColors),
      "preserve_fonts" := Bool(o.preserveFonts),
      "preserve_layouts" := Bool(o.preserveLayouts),
      "include_images" := Bool(o.includeImages),
      "include_notes" := Bool(o.includeNotes),
      "verbose" := Bool(o.verbose),
      "output_format" := (match o.outputFormat case Some(f) => Str(f) case None => Null),
      "custom_settings" := Dict(o.customSettings)
    ]
  }

  /** Reads options back from a dictionary of the shape `to_dict` produces. */
  function OptionsFromDict(d: map<string, Value>): Option<ConversionOptions> {
    if OptionKeys <= d.Keys
       && d["theme"].Str? && d["preserve_colors"].Bool? && d["preserve_fonts"].Bool?
       && d["preserve_layouts"].Bool? && d["include_images"].Bool? && d["include_notes"].Bool?
       && d["verbose"].Bool? && (d["output_format"].Str? || d["output_format"].Null?)
       && d["custom_settings"].Dict?
    then
      Some(ConversionOptions(
        d["theme"].s, d["preserve_colors"].b, d["preserve_fonts"].b, d["preserve_layouts"].b,
        d["include_images"].b, d["include_notes"].b, d["verbose"].b,
        if d["output_format"].Str? then Some(d["output_format"].s) else None,
        d["custom_settings"].entries))
    else None
  }

  /** `to_dict` loses nothing: the options can be read back from it. */
  lemma OptionsRoundTrip(o: ConversionOptions)
    ensures OptionsFromDict(OptionsToDict(o)) == Some(o)
  {
    var d := OptionsToDict(o);
    assert d["theme"] == Str(o.theme);
    assert d["preserve_colors"] == Bool(o.preserveColors);
    assert d["preserve_fonts"] == Bool(o.preserveFonts);
    assert d["preserve_layouts"] == Bool(o.preserveLayouts);
    assert d["include_images"] == Bool(o.includeImages);
    assert d["include_notes"] == Bool(o.includeNotes);
    assert d["verbose"] == Bool(o.verbose);
    assert d["custom_settings"] == Dict(o.customSettings);
  }
}

=== FILE: values.dfy ===
/** The untyped values that live in the model's free-form `Dict[str, Any]` maps. */
module Values {

  /** A Python value as it appears in `style`, `metadata`, `global_settings`,
      `custom_properties`, an error's `details` or `Conversion_Options.to_dict()`. */
  datatype Value =
    | Null
    | Bool(b: bool)
    | Int(i: int)
    | Str(s: string)
    | List(elems: seq<Value>)
    | Dict(entries: map<string, Value>)
}

=== FILE: wrappers.dfy ===
/** Option and Result, the model's stand-ins for Python's `None` and raised exceptions. */
module Wrappers {

  /** `None` or a present value, as Python's `Optional[T]`. */
  datatype Option<+T> = None | Some(value: T) {

    /** The value if present, otherwise `default`. */
    function GetOr(default: T): T {
      match this
      case Some(v) => v
      case None => default
    }
  }

  /** The value an operation returns, or the exception it raises. */
  datatype Result<+T, +E> = Success(value: T) | Failure(error: E)
}
